=== FILE: README.md ===
# Office 365 admin-API client — a Dafny model

This project models the decision logic of a small Office 365 tenant-administration client.
The client drives the admin portal's private JSON API with a session cookie and request
headers copied from a browser. It can:

- create a user from a captured `curl` command that serves as a template;
- assign the first available licence;
- list the tenant's users;
- look up a user's Office activations, for one user or for the whole tenant;
- send webhook notifications.

Every operation is a pure function, or a method with a loop. HTTP is abstracted away:

- A `Transport` (`Request -> Outcome`) answers each request with `TimedOut`, `TransportError`, or `Responded(status, text, json)`.
- Every operation returns its result together with the requests it sent, in order.
- "Fails before any request" therefore means `sent == []`.

JSON values are a small `Json` datatype. The client's Python semantics are modelled explicitly wherever they decide a branch:

- truthiness;
- `dict.get` with defaults;
- `== 0` / `== 1`, where `True == 1`;
- dictionary lookups keyed by a JSON value, where a list or object key raises TypeError;
- `len` and iteration over strings and dicts;
- `> 0` raising TypeError on strings.

Five things the code cannot see are function-valued fields of a `Runtime` value:

- `json.loads`;
- `json.dumps`;
- the `unicode_escape` decoding;
- Python's `str()` of a value;
- the `datetime` timestamp formatting.

Modules follow the source files:

| file | module | what |
|---|---|---|
| `base.dfy` | `Base` | `Option`, `Result` |
| `text.dfy` | `Text` | Python string operations: `strip`, `in`, `split`, `join`, `replace`, `[:n]`, `lower`, `str(int)` |
| `json.dfy` | `JsonValue` | `Json`, `dict.get`, truthiness, iteration, comparisons, the `Runtime` |
| `http.dfy` | `Http` | requests, outcomes, the status sets |
| `admin.dfy` | `Admin` | configuration records, failure taxonomy, base-URL derivation, endpoint URLs |
| `cookies.dfy` | `Cookies` | the cookie-string codec and the credential fallback |
| `curl_template.dfy` | `CurlTemplate` | the three-pattern `--data-raw` cascade, template parse, domain |
| `user_creator.py` → `user_creator.dfy` | `UserCreator` | payload, response classification, `create_user`, first-fit licence assignment |
| `user_lister.py` → `user_lister.dfy` | `UserLister` | `list_users` and the record mapper |
| `user_activation.py` → `user_activation.dfy` | `UserActivation` | installs fetch and parser, batch filter, user lookup, message text |
| `notifier.py` → `notifier.dfy` | `Notifier` | template rendering, delivery rule, alert texts |

In these places the code's behaviour is easy to misread; the model follows the code:

- **Activation functions.** `fetch_activation_data`, `get_user_object_id` and `query_all_users_activation` catch every exception as one generic failure (`UnknownError`). That includes timeouts and transport errors. They do not report `timeout` or `network_error`.
- **Error details.** The activation look-ups' `api_error` carries no body snippet. `create_user` reports the upstream `Message` or `Code` when the error body is a JSON object, and falls back to the first 500 characters of the body only when it is not.
- **Undecodable 2xx bodies.** When a 2xx reply of `create_user` or `list_users` has an undecodable body, the result is `network_error`. This is because `response.json()` raises requests' `JSONDecodeError`, a `RequestException`, since requests 2.27.
- **Licence selection.**
  - It also requires a truthy `SkuId`.
  - It scans the whole inventory before picking the first usable SKU. So a later product whose `Available` cannot be compared with 0 aborts the assignment, even when an earlier product fits.
  - `create_user` never calls `_assign_license`.
- **Lookup by empty search text.** If the first listed user is the empty object, a lookup with an empty search text matches it, but then reports not-found, because `if not matched_user` treats `{}` as falsy.

## Model

| member | source | states |
|---|---|---|
| Text.Strip | user_creator.py:171 | the stripped text is a slice of the input with no Python whitespace at either end, and is empty iff the input is all whitespace |
| Text.Split | user_creator.py:125 | `str.split(sep)`: at least one part, no part contains the separator, and joining the parts with the separator gives back the input |
| Text.SplitJoin | user_creator.py:125-128 | splitting a join on a border-free separator returns the original parts when no part contains the separator |
| Text.ReplaceChar | user_activation.py:400 | replacing one character by another keeps the length, changes exactly the positions that held that character, and leaves none of it |
| JsonValue.Get | user_creator.py:200 | `dict.get` finds the value of the last member with that key, and is absent iff no member has the key |
| JsonValue.Iterate | user_lister.py:117 | `for x in v` works exactly for lists, strings and dicts, and yields nothing exactly when the value is falsy |
| JsonValue.GreaterThanZero | user_activation.py:63 | `v > 0` is defined only for numbers and booleans, and holds for positive numbers and `true` |
| JsonValue.AsDictKey | user_activation.py:346 | used as a dict key, `true`/`false` and integers are integer keys equal to the value, and lists and objects are unhashable |
| Http.WithJsonContentType | user_creator.py:106-107 | the copied headers gain `content-type: application/json`; every other header is unchanged |
| Cookies.CookieOf | user_creator.py:126-128 | a segment is kept iff it contains `=`, and is split at the first `=`: the name has no `=` and the value keeps any later `=` |
| Cookies.Decode | user_creator.py:123-128 | the empty string decodes to the empty map, and no cookie name contains `=` |
| Cookies.AssignAllKeys | user_creator.py:125-128 | assigning segment by segment, a name ends up in the jar iff some segment carries it, whatever reads the segments |
| Cookies.AssignAllLastWins | user_creator.py:125-128 | assigning segment by segment, a name holds the value of the last segment carrying it |
| Cookies.DecodeSegmentsKeys | user_creator.py:125-128 | a name is in the jar iff some `"; "` segment carries it before its first `=` |
| Cookies.DecodeSegmentsLastWins | user_creator.py:125-128 | a name's value comes from the last segment carrying it, so later duplicates overwrite earlier ones |
| Cookies.DecodeEncode | user_creator.py:123-128 | decoding `"; "`-joined `name=value` pairs gives the map of the pairs (last wins), when names hold no `=` and neither part holds `"; "` |
| Cookies.ResolveRequired | user_creator.py:109-120 | the user-management cookie is used unless blank; otherwise the subscription cookie is used even when it is only whitespace; the missing-credentials failure happens exactly when the first is blank and the second empty, and a success is never the empty string |
| Cookies.ResolveVariantsAgree | user_activation.py:152-165 | the activation services' lenient copy of the fallback agrees with the strict one whenever that succeeds, and yields the empty string exactly when it fails |
| Admin.BaseUrl | user_creator.py:134-135 | a base URL exists iff the API URL has at least three `/`-separated parts |
| Admin.BaseUrlOfAbsoluteUrl | user_lister.py:56-59 | for `scheme//host/path` with no `/` in scheme or host, the base URL is `scheme//host` |
| Admin.BaseUrlNeedsTwoSlashes | user_creator.py:134-135 | an API URL with fewer than two `/` has no base URL: `parts[2]` raises |
| CurlTemplate.ExtractBody | user_creator.py:155-168 | the single-quoted pattern wins when it matches; the double-quoted one is consulted only when it fails, and the unquoted one only when both fail; no result means no `--data-raw` position matches the last pattern |
| CurlTemplate.SingleQuotedCapture | user_creator.py:156 | for `… --data-raw '<body>'` or `$'<body>'`, ending there or followed by another flag, with the flag occurring nowhere earlier, exactly the quote-free body is captured |
| CurlTemplate.DoubleQuotedCapture | user_creator.py:156-158 | for `… --data-raw "<body>"` or `$"<body>"`, with no single quote after the flag, the single-quoted pattern fails and exactly the body is captured, escaped `\"` included, as long as no quote inside it is followed by whitespace |
| CurlTemplate.UnquotedCapture | user_creator.py:156-160 | for `… --data-raw <body>` without quotes, followed by `-H`, another `--` option or trailing whitespace, both quoted patterns fail and exactly the whitespace-free body is captured |
| CurlTemplate.ParseTemplate | user_creator.py:176-197 | the direct parse is used when it succeeds; the escape-decoded parse is tried only after it fails; if both fail, the reported error is the first parse's |
| CurlTemplate.DomainOf | user_creator.py:200-204 | a UPN string without `@`, or an absent UPN, gives `dfem.net`; a string never fails; the result never contains `@`; it fails iff the value is a list holding `"@"`, an object with an `@` key, or a number, boolean or null |
| CurlTemplate.DomainOfSecondSegment | user_creator.py:201-202 | for a string with several `@`, the domain is the segment between the first and the second |
| CurlTemplate.DomainOfAddress | user_creator.py:200-204 | for `local@domain` the domain is the part after the `@` |
| CurlTemplate.NewUpnDomainRoundTrip | user_creator.py:200-206 | the new UPN `username@domain`, read back as a template UPN, yields the same domain |
| UserCreator.PayloadCopiesTemplate | user_creator.py:211-239 | every template-sourced field of the payload is the template's value or its default: `""`, `[]` for Products and AdminRoles, `CN` for UsageLocation, false for CreateUserWithNoLicense |
| UserCreator.PayloadIdentity | user_creator.py:206-234 | DisplayName is the username and Password the input; ForceChangePassword is true and SendPasswordEmail false; the UPN carries the template's domain |
| UserCreator.LicenseNamesOf | user_creator.py:242 | the names keep only dict products; when all products are dicts there is one name per product, in order |
| UserCreator.LicenseNames | user_creator.py:241-242 | a falsy Products gives no names; a truthy non-iterable Products is the one failure |
| UserCreator.ApiErrorDetail | user_creator.py:269-286 | the detail is the body snippet (at most its first 500 characters) exactly when the body is not a JSON object |
| UserCreator.CreationFailure | user_creator.py:317-332 | carries the upstream code (default `unknown`) and status; the fixed missing-parameter message appears iff the code is the string `"406"` |
| UserCreator.ClassifyCreate | user_creator.py:260-351 | timeout and transport errors; 401/403 is an authentication failure whatever the body; other statuses outside {200, 201} are API errors; a 200/201 reply without a decodable body is a network error and a non-object body an unknown error; a non-zero `Status` is a creation failure carrying the reply object; `Status == 0` with a non-object `UserInfo` is an unknown error; otherwise success, carrying the upstream ObjectId, the `DisplayName` (default the username), the `Licenses` text and the template's licence names |
| UserCreator.PrepareCreate | user_creator.py:89-147 | missing subscription, missing configuration and missing cookies are reported in that order; a prepared request is a POST to the configured URL with the JSON content type and the resolved cookies; once the cookies resolve, the plan is the one made from the captured request with those cookies |
| UserCreator.PlanFromCapture | user_creator.py:131-171 | no base URL is an unknown error, a blank capture is missing-curl and a capture without a `--data-raw` match is body-not-found, in that order; a plan is made only from the whitespace-stripped extracted body, and keeps the configured URL, the JSON headers and the resolved cookies; none of these steps reports missing credentials |
| UserCreator.PlanFromBody | user_creator.py:171-197 | a template that does not parse is reported with the first parse's error; a request is planned only from a template that parses to an object |
| UserCreator.PlanFromTemplate | user_creator.py:199-255 | the request is planned iff the domain and licence names can be derived, with the payload built from the template |
| UserCreator.CreateUser | user_creator.py:87-351 | at most one request is sent, and none exactly when preparation fails, in which case that failure is the result; once the request is sent, the result is the classification of its one reply with the planned UPN, password and licence names |
| UserCreator.BlankCurlFailsBeforeRequest | user_creator.py:140-147 | a blank capture fails with the missing-capture error and sends nothing |
| UserCreator.CookieFallbackForCreate | user_creator.py:109-128 | with a blank user-management cookie and a subscription cookie, creation never fails for missing cookies, and it sends the subscription's cookies |
| UserCreator.CreateAuthFailure | user_creator.py:261-266 | a 401 or 403 reply makes creation an authentication failure |
| UserCreator.ClassifySuccessReply | user_creator.py:294-316 | a 2xx `{Status: 0, UserInfo: {ObjectId}}` reply is a success carrying that ObjectId |
| UserCreator.CreateRejectedByStatus | user_creator.py:317-332 | through `create_user`, an accepted reply with a non-zero `Status` is a creation failure whose code is the reply's `Code` (default `unknown`), with the fixed 406 message when that code is `406` |
| UserCreator.CreateSuccess | user_creator.py:294-316 | through `create_user`, that reply yields the new user with the UPN built from the template's domain |
| UserCreator.Candidate | user_creator.py:21-30 | a product is usable iff it has a truthy SkuId and `Available > 0`; inspecting it raises iff it is not an object, or its truthy SkuId comes with an incomparable Available; the chosen SKU carries the product's SkuId, Available (default 0) and SkuPartNumber (default empty) |
| UserCreator.FirstUsable | user_creator.py:38-39 | the chosen index is usable and every earlier product is not; there is none iff no product is usable |
| UserCreator.Candidates | user_creator.py:17-39 | the scan fails iff some product raises; otherwise it yields no SKU iff none is usable, and its first SKU is the first usable product's |
| UserCreator.AssignPayloadAddsOnlyChosenSku | user_creator.py:46-52 | the delta adds exactly the chosen SKU and removes nothing |
| UserCreator.AssignLicense | user_creator.py:12-85 | without a usable SKU nothing is sent; otherwise one POST with the first usable SKU, which succeeds iff the status is 200, 201 or 204; any other status is a rejection carrying that status, and a timeout or transport error is an unknown error |
| UserCreator.AssignsFirstUsable | user_creator.py:17-64 | over a cleanly inspectable inventory, a request goes out iff some product is usable, and it carries the first usable product's SkuId |
| UserLister.RecordOf | user_lister.py:117-134 | each of the fifteen reported fields is the user object's value for its key, or `""` when the key is absent, except HasLicense which defaults to false |
| UserLister.RecordsOf | user_lister.py:116-134 | one record per upstream user, same length and order |
| UserLister.RecordsOfAppend | user_lister.py:116-134 | mapping two batches is mapping each |
| UserLister.UsersOf | user_lister.py:110-117 | the users are accepted iff the value is iterable and every element is an object, keeping order |
| UserLister.PageOf | user_lister.py:108-143 | a page exists iff the users and MetaData are usable; `total_count` is MetaData's `DataCount`, defaulting to the number of users, and `is_last_page` is its `IsLastPage`, defaulting to true |
| UserLister.ClassifyList | user_lister.py:93-159 | 401/403 is an authentication failure; other non-{200, 201} statuses are API errors with at most the first 500 characters of the body; success iff a decoded object yields a page |
| UserLister.PrepareList | user_lister.py:14-89 | missing subscription and configuration fail before cookie handling; no-cookie fails exactly when both cookies are unusable; the request goes to `base/admin/api/Users/ListUsers` with an empty search |
| UserLister.ListUsers | user_lister.py:12-159 | at most one request, none exactly when preparation fails |
| UserLister.CookieFallbackForList | user_lister.py:34-53 | with a blank user-management cookie and a subscription cookie, the listing never fails for missing cookies, and it sends the subscription's cookies |
| UserLister.ListWithoutMetadata | user_lister.py:110-142 | a reply listing user objects with no metadata reports exactly those users, counts them, and is the last page |
| UserActivation.MachineTypeOf | user_activation.py:326-333 | codes 1 to 6 name Windows, Mac, Mobile, Tablet, iOS, Android and map back to their code; every other code is unknown |
| UserActivation.MachineTypeCodes | user_activation.py:326-333 | every known family is the image of its own code, and only the unknown label has no code |
| UserActivation.LicenseStateOf | user_activation.py:335-338 | 0 is not activated, 1 is activated, everything else is unknown |
| UserActivation.MachineTypeFor | user_activation.py:340-346 | the lookup raises iff the code is a list or object; an integer-valued key yields the family of that number and any other hashable key the unknown family; a known family implies the code equals its number |
| UserActivation.LicenseStateFor | user_activation.py:341-348 | activated iff the code equals 1 (including `true`), not activated iff it equals 0; raises iff unhashable |
| UserActivation.ParseMachine | user_activation.py:340-352 | the raw codes are kept next to their labels; name, OS, last request time and Office version are the entry's values, defaulting to unknown, unknown, empty and 0; missing codes read as 0; parsing fails iff a code cannot be looked up |
| UserActivation.ParseMachines | user_activation.py:322-352 | the parsed list has the same length and order as the input, and fails iff some entry does |
| UserActivation.ParseDetails | user_activation.py:321-360 | the four counts are the entry's values, defaulting to 0; the machines are the parsed `Machines` list, and parsing fails iff that list does not iterate or one of its entries fails |
| UserActivation.DetailsOf | user_activation.py:310-321 | details exist iff the response is an object whose `SoftwareMachineDetails` is a non-empty list with an object first entry whose `MachineDetails` (default `{}`) is an object, and then they are that `MachineDetails` |
| UserActivation.ParseActivation | user_activation.py:307-370 | the summary of the first details entry, or the all-zero summary when there is none or parsing raises |
| UserActivation.EmptyDetailsGiveZero | user_activation.py:310-319 | empty or absent `SoftwareMachineDetails` gives the all-zero summary |
| UserActivation.OnlyFirstDetailsRead | user_activation.py:321 | whatever else the reply holds, a reply whose `SoftwareMachineDetails` list starts with an entry is summarised as the reply holding that entry alone |
| UserActivation.FetchRequest | user_activation.py:251-280 | a GET of `base/admin/api/users/<id>/officeInstalls` with the headers as configured and the lenient cookie fallback, formed iff the API URL has a host |
| UserActivation.ClassifyFetch | user_activation.py:282-305 | 401/403 is an authentication failure, other non-{200, 201} an API error; success iff a 2xx body decodes; any exception is a generic failure |
| UserActivation.FetchAndListAgreeOnStatus | user_activation.py:282-292 | the installs endpoint and the listing classify authentication and API-error statuses alike |
| UserActivation.FetchActivation | user_activation.py:245-305 | one request when it can be formed, none otherwise |
| UserActivation.ShowsActivity | user_activation.py:58-63 | a non-empty machine list counts before any comparison; otherwise active computers, then active devices, must be positive; a comparison that is reached can raise |
| UserActivation.StepFor | user_activation.py:44-75 | users without an object id are skipped with no request; a failed fetch is skipped silently; a user is kept iff its summary shows activity |
| UserActivation.Extend | user_activation.py:54-72 | a step appends the kept entry and its requests; an abort ends the batch |
| UserActivation.Collect | user_activation.py:43-76 | never more entries than users, and every entry has a truthy object id |
| UserActivation.CollectStaysAborted | user_activation.py:88-92 | once the batch aborts, later users send nothing and change nothing |
| UserActivation.CollectAppend | user_activation.py:43-76 | the batch over a split listing is the first part's batch followed by the second's, so input order is preserved |
| UserActivation.WalkUsers | user_activation.py:43-76 | the loop computes exactly the reference batch |
| UserActivation.QueryAllActivation | user_activation.py:13-92 | the listing's failure is passed through; otherwise total users is the listing's length, the entries are the batch's, and the count never exceeds the total |
| UserActivation.Probe | user_activation.py:214-221 | a user matches iff its UPN, or else its display name, contains the search text ignoring case; a non-string field that is reached raises |
| UserActivation.FindMatch | user_activation.py:213-221 | the first matching user, with every earlier user a clean non-match; not found iff no user matches |
| UserActivation.LookupRequest | user_activation.py:149-196 | the listing query carrying the search text, with the JSON content type and the lenient cookie fallback |
| UserActivation.ClassifyLookup | user_activation.py:198-243 | 401/403 is an authentication failure, other non-{200, 201} an API error; otherwise found, not found or a generic failure |
| UserActivation.MatchedUser | user_activation.py:210-227 | the scan is an unknown error iff searching some user raises before a match; it finds a user iff the first matching entry is a non-empty object, and then returns that entry's user |
| UserActivation.ListingReachesScan | user_activation.py:204-227 | any accepted reply whose `Users` iterates is classified by scanning those users |
| UserActivation.LookupFindsFirstMatch | user_activation.py:204-227 | for any accepted reply whose `Users` are searchable non-empty objects, the lookup returns the first user whose UPN or display name contains the text ignoring case, and not-found when none does |
| UserActivation.GetUserObjectId | user_activation.py:143-243 | one search request when it can be formed, classified as above |
| UserActivation.QueryUserActivation | user_activation.py:94-141 | a lookup failure is returned as it is with the lookup's requests, and a fetch failure with both steps' requests; it succeeds iff both steps do, carrying the looked-up user and the parsed installs of its object id |
| UserActivation.FormatTime | user_activation.py:393-402 | an empty time shows as unknown; a parsable string shows as its parsed minutes; an unparsable one falls back to its first 16 characters with each `T` replaced by a space; a truthy non-string raises |
| UserActivation.StatusIcon | user_activation.py:392 | ✅ iff the licence-status code equals 1, ❌ otherwise |
| UserActivation.MachineBlock | user_activation.py:404-409 | the block for device n starts with `n. ` and the device name, and ends with its status line and `最后请求: ` followed by the formatted time; it exists iff the time formats |
| UserActivation.StatusLine | user_activation.py:392-407 | the status line shows ✅ iff the licence status code equals 1, followed by the licence status label |
| UserActivation.MachineBlocks | user_activation.py:391-409 | one block per device, in order, numbered consecutively from the first number |
| UserActivation.MessageLines | user_activation.py:372-411 | six header lines carrying the display name, the UPN and the two count pairs, then the no-devices line when there are no machines, or the list heading and one block per machine numbered from 1 |
| UserActivation.FormatActivationMessage | user_activation.py:372-413 | the message is the lines joined by newlines, and exists iff every device's time can be formatted |
| UserActivation.MessageShowsUserAndCounts | user_activation.py:380-387 | the message shows the display name, the UPN and both `active / total` counts |
| UserActivation.QuietUserMessage | user_activation.py:410-411 | a user without devices gets the no-devices line last |
| UserActivation.NoActivationIsQuiet | user_activation.py:62-63 | the all-zero summary shows no activity |
| Notifier.DefaultPayload | notifier.py:45-50 | the default payload is exactly `{title: 订阅监控通知, text: message}` |
| Notifier.SubstituteWithoutPlaceholders | notifier.py:31-34 | serialised template text that holds none of `{title}`, `{content}` and `{通知消息}` passes through the substitution unchanged, braces and all |
| Notifier.SubstituteContent | notifier.py:31-34 | a `{content}` slot receives the message verbatim, braces included, when the surrounding text holds no other `{title}` or `{content}` and no `{通知消息}` appears once the message is in place |
| Notifier.SubstituteTitle | notifier.py:31-34 | a `{title}` slot receives the fixed title whatever the message, when the surrounding text holds no other placeholder |
| Notifier.SubstituteMessageTemplate | notifier.py:31-34 | the template `{"msg": "{content}"}`, serialised with the default separators, renders the message `hello` as `{"msg": "hello"}` |
| Notifier.MessagePlaceholderExpandsTwice | notifier.py:33-34 | the replacements run in sequence, so a `{通知消息}` inside a message inserted through `{content}` is expanded again |
| Notifier.RenderPayload | notifier.py:19-50 | a blank template, an unparsable template or unparsable substituted text gives the default payload; otherwise the re-parsed substituted template |
| Notifier.RenderContentSlot | notifier.py:19-50 | a configured template whose serialisation has one `{content}` slot is posted as that text with the message in the slot, re-parsed, or as the default payload when it no longer parses |
| Notifier.SendNotification | notifier.py:13-71 | no webhook URL means not delivered and nothing sent; otherwise one JSON POST of the rendered payload, delivered iff the status is exactly 200 |
| Notifier.AlertsNameSubscription | notifier.py:73-102 | every alert text contains the subscription name, and the expiration warning also contains the remaining days |
| Notifier.NotifyAuthFailure | notifier.py:73-81 | without a webhook URL nothing is sent and nothing delivered; otherwise one POST to the URL carrying the rendered authentication alert with the JSON content type and no cookies, delivered iff the reply status is 200; the alert names the subscription |
| Notifier.NotifySubscriptionExpired | notifier.py:83-91 | without a webhook URL nothing is sent and nothing delivered; otherwise one POST to the URL carrying the rendered expiry alert with the JSON content type and no cookies, delivered iff the reply status is 200; the alert names the subscription |
| Notifier.NotifyExpirationWarning | notifier.py:93-102 | without a webhook URL nothing is sent and nothing delivered; otherwise one POST to the URL carrying the rendered warning with the JSON content type and no cookies, delivered iff the reply status is 200; the warning names the subscription and carries the remaining days |

## Left out

- HTTP transport, timeouts and the `requests` library: each exchange is one `Outcome`, given by the `Transport` parameter.
- JSON parsing and serialisation, the `unicode_escape` decoding, Python's `str()` of a value, and the ISO-timestamp formatting: these are function values in `Runtime`, and only the logic around them is modelled.
- Floating-point JSON numbers: `Json` numbers are integers, so `1.0 == 1` and float dictionary keys are not modelled.
- The configuration store: subscriptions and notifier settings are inputs. Configuration fields are typed (strings, header maps), so a stored value of the wrong type, which would raise in the source, is not modelled.
- Logging (`print`, `traceback`) and the exact wording of the Chinese error messages: failures are a `Failure` datatype that keeps the kinds and the data they carry.
- `fix_config.py` (file I/O and interactive prompts) and `static/js/main.js` (browser UI) are not part of this model.
- Text.Lower: ASCII-only case folding, because Python's full Unicode `str.lower` tables are not modelled. The user lookup's case-insensitive match inherits this.
- UserActivation.FormatTime: the successful `datetime` parse and `%Y-%m-%d %H:%M` formatting are abstract (`Runtime.isoMinutes`); the contract states that a parsable string shows as that result, and the fallback and unknown-time cases exactly.
- Cookies.DecodeEncode: the round trip is stated for names without `=` and for names and values without `"; "`. Other strings are exactly the ones the codec cannot represent.
- UserCreator.LicenseNamesOf: the exact name list is stated only for inventories whose products are all objects. For mixed lists, the contract states the length bound and the empty case.

=== FILE: admin.dfy ===
/** What the admin client reads from the configuration store, the failure taxonomy its
    operations report, and the derivation of the portal's base URL from the captured API URL. */
module Admin {
  import opened Base
  import opened Text
  import opened JsonValue
  import opened Http

  /** The captured request context of the user-management pages. */
  datatype UserCreateConfig = UserCreateConfig(
    headers: map<string, string>,
    cookies: string,
    apiUrl: string)

  /** A stored subscription; absent string fields are the empty string and an absent
      `subscription_data` (the cached licence inventory) is the empty object. */
  datatype Subscription = Subscription(
    cookies: string,
    userCreateConfig: Option<UserCreateConfig>,
    userCreateCurl: string,
    subscriptionData: Json)

  /** What an `api_error` carries as `details`. */
  datatype ErrorDetail =
    | UpstreamMessage(message: Json)
    | UpstreamCode(code: Json)
    | BodySnippet(text: string)

  /** The message of a `creation_failed` result. */
  datatype CreationMessage =
    | MissingParameter406
    | UpstreamText(message: Json)
    | CodeOnly(code: Json)

  datatype Failure =
    | SubscriptionMissing
    | UserManagementNotConfigured
    | MissingCredentials
    | CurlMissing
    | BodyNotFound
    | TemplateUnparseable(parseError: string)
    | AuthFailure
    | ApiError(status: int, details: Option<ErrorDetail>)
    | CreationFailed(message: CreationMessage, code: Json, upstreamStatus: Option<Json>)
    | NoLicenseAvailable
    | LicenseRejected(status: int)
    | UserNotFound(searchText: string)
    | Timeout
    | NetworkError
    | UnknownError

  /** One public operation's outcome together with the requests it sent, in order. */
  datatype Call<T> = Call(result: Result<T, Failure>, sent: seq<Request>)

  /** A failure reported before any request is sent. */
  function Early<T>(e: Failure): (c: Call<T>)
    ensures c.result == Err(e) && c.sent == []
  {
    Call(Err(e), [])
  }

  /** `parts = api_url.split('/')` then `f"{parts[0]}//{parts[2]}"`; `None` where `parts[2]`
      raises IndexError. */
  function BaseUrl(apiUrl: string): (r: Option<string>)
    ensures r.Some? <==> |Split(apiUrl, "/")| >= 3
  {
    var parts := Split(apiUrl, "/");
    if |parts| < 3 then None else Some(parts[0] + "//" + parts[2])
  }

  lemma SlashBorderFree()
    ensures BorderFree("/")
  {
  }

  /** For `scheme://host/any/path` (or no path at all) the base URL is `scheme://host`. */
  lemma {:induction false} BaseUrlOfAbsoluteUrl(scheme: string, host: string, path: string)
    requires '/' !in scheme && '/' !in host
    requires path == [] || path[0] == '/'
    ensures BaseUrl(scheme + "//" + host + path) == Some(scheme + "//" + host)
  {
    var tail := host + path;
    HostSegment(host, path);
    var hostParts := Split(tail, "/");
    var rest := "/" + tail;
    EmptySegment(tail);
    assert Split(rest, "/") == [[]] + hostParts;
    var url := scheme + "//" + host + path;
    assert url == scheme + "/" + rest;
    NoOccurrenceChar(scheme, '/');
    SplitCons(scheme, "/", rest);
    var parts := Split(url, "/");
    assert parts == [scheme] + ([[]] + hostParts);
    assert parts[0] == scheme && parts[2] == host;
  }

  lemma {:induction false} HostSegment(host: string, path: string)
    requires '/' !in host
    requires path == [] || path[0] == '/'
    ensures Split(host + path, "/")[0] == host
  {
    NoOccurrenceChar(host, '/');
    if path == [] {
      assert host + path == host;
      SplitSingle(host, "/");
    } else {
      assert host + path == host + "/" + path[1..];
      SplitCons(host, "/", path[1..]);
    }
  }

  lemma {:induction false} EmptySegment(tail: string)
    ensures Split("/" + tail, "/") == [[]] + Split(tail, "/")
  {
    NoOccurrenceChar([], '/');
    assert "/" + tail == [] + "/" + tail;
    SplitCons([], "/", tail);
  }

  /** A URL with at most one `/` has no host segment, so deriving the base URL fails. */
  lemma {:induction false} BaseUrlNeedsTwoSlashes(a: string, b: string)
    requires '/' !in a && '/' !in b
    ensures BaseUrl(a) == None
    ensures BaseUrl(a + "/" + b) == None
  {
    NoOccurrenceChar(a, '/');
    NoOccurrenceChar(b, '/');
    SplitSingle(a, "/");
    SplitCons(a, "/", b);
    SplitSingle(b, "/");
  }

  function ListUsersUrl(base: string): string {
    base + "/admin/api/Users/ListUsers"
  }

  function AssignLicenseUrl(base: string, objectId: string): string {
    base + "/admin/api/users/" + objectId + "/assignlicense"
  }

  function OfficeInstallsUrl(base: string, objectId: string): string {
    base + "/admin/api/users/" + objectId + "/officeInstalls"
  }
}

=== FILE: base.dfy ===
/** Option and Result: the two failure-compatible wrappers every other module uses
    in place of Python's `None` returns and `{'success': False, ...}` dictionaries. */
module Base {

  datatype Option<+T> = None | Some(value: T) {
    /** The carried value, or `default` when there is none (Python's `dict.get(k, default)`). */
    function GetOr(default: T): T {
      match this
      case Some(v) => v
      case None => default
    }
  }

  datatype Result<+T, +E> = Ok(value: T) | Err(error: E) {
    predicate IsFailure() { Err? }

    function PropagateFailure<U>(): Result<U, E>
      requires Err?
    {
      Err(error)
    }

    function Extract(): T
      requires Ok?
    {
      value
    }
  }

  /** Applies `f` to every element in order, all or nothing: the first `None` aborts, as an
      exception escaping a Python loop does. */
  function MapAll<A, B>(xs: seq<A>, f: A -> Option<B>): (r: Option<seq<B>>)
    ensures r.Some? <==> forall i :: 0 <= i < |xs| ==> f(xs[i]).Some?
    ensures r.Some? ==> |r.value| == |xs| && forall i :: 0 <= i < |xs| ==> r.value[i] == f(xs[i]).value
    decreases |xs|
  {
    if xs == [] then Some([])
    else
      var init := xs[..|xs| - 1];
      assert forall i :: 0 <= i < |init| ==> init[i] == xs[i];
      match f(xs[|xs| - 1])
      case None => None
      case Some(y) =>
        match MapAll(init, f)
        case None => None
        case Some(ys) => Some(ys + [y])
  }

  /** The index of the first element `p` holds of. */
  function FirstWhere<A>(xs: seq<A>, p: A -> bool): (r: Option<nat>)
    ensures r.Some? ==> r.value < |xs| && p(xs[r.value]) && forall j :: 0 <= j < r.value ==> !p(xs[j])
    ensures r.None? <==> forall j :: 0 <= j < |xs| ==> !p(xs[j])
    decreases |xs|
  {
    if xs == [] then None
    else if p(xs[0]) then Some(0)
    else
      assert forall j :: 0 <= j < |xs| - 1 ==> xs[1..][j] == xs[j + 1];
      match FirstWhere(xs[1..], p)
      case None => None
      case Some(k) => Some(k + 1)
  }

  /** A left-to-right search with a test that may raise (`None`): the index of the first hit,
      `Some(None)` when every test is a clean miss, `None` when a test raises before any hit. */
  function FindFirst<A>(xs: seq<A>, test: A -> Option<bool>): (r: Option<Option<nat>>)
    ensures r.Some? && r.value.Some? ==> var k := r.value.value;
      && k < |xs| && test(xs[k]) == Some(true)
      && forall j :: 0 <= j < k ==> test(xs[j]) == Some(false)
    ensures r == Some(None) <==> forall j :: 0 <= j < |xs| ==> test(xs[j]) == Some(false)
    ensures r.None? ==> exists k :: 0 <= k < |xs| && test(xs[k]).None?
                                    && forall j :: 0 <= j < k ==> test(xs[j]) == Some(false)
    decreases |xs|
  {
    if xs == [] then Some(None)
    else
      match test(xs[0])
      case None => None
      case Some(true) => Some(Some(0))
      case Some(false) =>
        var rest := FindFirst(xs[1..], test);
        assert forall j :: 0 <= j < |xs| - 1 ==> xs[1..][j] == xs[j + 1];
        match rest
        case None =>
          var k :| 0 <= k < |xs[1..]| && test(xs[1..][k]).None?
                   && forall j :: 0 <= j < k ==> test(xs[1..][j]) == Some(false);
          assert test(xs[k + 1]).None?;
          None
        case Some(None) => Some(None)
        case Some(Some(k)) => Some(Some(k + 1))
  }

  /** The carried values, in order, of the elements that carry one. */
  function Present<T(==)>(xs: seq<Option<T>>): (r: seq<T>)
    ensures |r| <= |xs|
    ensures r == [] <==> forall i :: 0 <= i < |xs| ==> xs[i].None?
    ensures r != [] ==> exists k :: 0 <= k < |xs| && xs[k] == Some(r[0]) && forall j :: 0 <= j < k ==> xs[j].None?
    decreases |xs|
  {
    if xs == [] then []
    else
      var rest := Present(xs[1..]);
      assert forall j :: 0 <= j < |xs| - 1 ==> xs[1..][j] == xs[j + 1];
      match xs[0]
      case Some(x) => [x] + rest
      case None =>
        if rest == [] then rest
        else
          var k :| 0 <= k < |xs[1..]| && xs[1..][k] == Some(rest[0]) && forall j :: 0 <= j < k ==> xs[1..][j].None?;
          assert xs[k + 1] == Some(rest[0]);
          rest
  }

  predicate IsPresent<T>(o: Option<T>) {
    o.Some?
  }

  /** `Present` is empty exactly when no element carries a value, and starts with the first
      carried one. */
  lemma PresentFirst<T>(xs: seq<Option<T>>)
    ensures Present(xs) == [] <==> FirstWhere(xs, IsPresent).None?
    ensures Present(xs) != [] ==> Present(xs)[0] == xs[FirstWhere(xs, IsPresent).value].value
  {
    var f := FirstWhere(xs, IsPresent);
    if Present(xs) != [] {
      var k :| 0 <= k < |xs| && xs[k] == Some(Present(xs)[0]) && forall j :: 0 <= j < k ==> xs[j].None?;
      assert IsPresent(xs[k]);
      assert !(k < f.value) && !(f.value < k);
    }
  }

  /** Two scans whose tests agree element by element stop at the same index. */
  lemma FirstWhereAgree<A, B>(xs: seq<A>, p: A -> bool, ys: seq<B>, q: B -> bool)
    requires |xs| == |ys| && forall i :: 0 <= i < |xs| ==> (p(xs[i]) <==> q(ys[i]))
    ensures FirstWhere(xs, p) == FirstWhere(ys, q)
  {
    var a := FirstWhere(xs, p);
    var b := FirstWhere(ys, q);
    if a.Some? && b.Some? {
      assert !(a.value < b.value) && !(b.value < a.value);
    }
  }
}

=== FILE: cookies.dfy ===
/** The session-cookie codec and the credential fallback shared by the creator, the lister
    and the activation service (the same few lines are repeated in each of them). */
module Cookies {
  import opened Base
  import opened Text
  import opened Admin

  const Separator: string := "; "

  /** One `key=value` segment, split at its first `=` only; `None` for a segment without `=`. */
  function CookieOf(segment: string): (r: Option<(string, string)>)
    ensures r.Some? <==> '=' in segment
    ensures r.Some? ==> segment == r.value.0 + "=" + r.value.1
    ensures r.Some? ==> '=' !in r.value.0
  {
    NoOccurrenceChar(segment, '=');
    match IndexOf(segment, "=")
    case None => None
    case Some(i) =>
      assert segment[i..i + 1] == "=";
      assert segment == segment[..i] + "=" + segment[i + 1..];
      assert forall j :: 0 <= j < i ==> !OccursAt(segment, "=", j);
      forall j | 0 <= j < i ensures segment[..i][j] != '=' {
        OccursChar(segment, '=', j);
      }
      Some((segment[..i], segment[i + 1..]))
  }

  /** `cookies[key] = value` for each segment in turn, with `read` deciding what a segment
      carries: a later key overwrites an earlier one and an unreadable segment changes nothing. */
  function AssignAll(segments: seq<string>, read: string -> Option<(string, string)>): map<string, string>
    decreases |segments|
  {
    if segments == [] then map[]
    else
      var jar := AssignAll(segments[..|segments| - 1], read);
      match read(segments[|segments| - 1])
      case None => jar
      case Some(kv) => jar[kv.0 := kv.1]
  }

  predicate Reads(read: string -> Option<(string, string)>, segment: string, key: string) {
    read(segment).Some? && read(segment).value.0 == key
  }

  /** A key is assigned exactly when some segment carries it. */
  lemma {:induction false} AssignAllKeys(segments: seq<string>, read: string -> Option<(string, string)>, key: string)
    ensures key in AssignAll(segments, read) <==> exists i :: 0 <= i < |segments| && Reads(read, segments[i], key)
    decreases |segments|
  {
    if segments != [] {
      var n := |segments| - 1;
      var init := segments[..n];
      AssignAllKeys(init, read, key);
      if Reads(read, segments[n], key) {
        assert key in AssignAll(segments, read);
      } else if key in AssignAll(init, read) {
        var i :| 0 <= i < |init| && Reads(read, init[i], key);
        assert init[i] == segments[i];
      } else {
        forall i | 0 <= i < n ensures !Reads(read, segments[i], key) {
          assert init[i] == segments[i];
        }
      }
    }
  }

  /** The value of a key is the one of the LAST segment carrying it. */
  lemma {:induction false} AssignAllLastWins(segments: seq<string>, read: string -> Option<(string, string)>,
                                             key: string, i: nat)
    requires i < |segments| && Reads(read, segments[i], key)
    requires forall j :: i < j < |segments| ==> !Reads(read, segments[j], key)
    ensures key in AssignAll(segments, read)
    ensures AssignAll(segments, read)[key] == read(segments[i]).value.1
    decreases |segments|
  {
    var n := |segments| - 1;
    var init := segments[..n];
    if i < n {
      assert init[i] == segments[i];
      forall j | i < j < |init| ensures !Reads(read, init[j], key) {
        assert init[j] == segments[j];
      }
      AssignAllLastWins(init, read, key, i);
    }
  }

  /** The cookies of the `"; "`-separated segments; no cookie name contains `=`. */
  function DecodeSegments(segments: seq<string>): (jar: map<string, string>)
    ensures forall k :: k in jar ==> '=' !in k
  {
    forall k | k in AssignAll(segments, CookieOf) ensures '=' !in k {
      AssignAllKeys(segments, CookieOf, k);
    }
    AssignAll(segments, CookieOf)
  }

  /** `for cookie in cookies_str.split('; '): if '=' in cookie: key, value = cookie.split('=', 1)`. */
  function Decode(raw: string): (jar: map<string, string>)
    ensures raw == [] ==> jar == map[]
    ensures forall k :: k in jar ==> '=' !in k
  {
    if raw == [] then
      assert Split(raw, Separator) == [[]];
      assert AssignAll([[]], CookieOf) == AssignAll([], CookieOf);
      DecodeSegments(Split(raw, Separator))
    else DecodeSegments(Split(raw, Separator))
  }

  predicate HasKey(segment: string, key: string) {
    CookieOf(segment).Some? && CookieOf(segment).value.0 == key
  }

  /** A key is decoded exactly when some segment carries it. */
  lemma DecodeSegmentsKeys(segments: seq<string>, key: string)
    ensures key in DecodeSegments(segments) <==> exists i :: 0 <= i < |segments| && HasKey(segments[i], key)
  {
    AssignAllKeys(segments, CookieOf, key);
    assert forall i :: 0 <= i < |segments| ==> (HasKey(segments[i], key) <==> Reads(CookieOf, segments[i], key));
  }

  /** The decoded value of a key is the one of the LAST segment carrying it. */
  lemma DecodeSegmentsLastWins(segments: seq<string>, key: string, i: nat)
    requires i < |segments| && HasKey(segments[i], key)
    requires forall j :: i < j < |segments| ==> !HasKey(segments[j], key)
    ensures key in DecodeSegments(segments)
    ensures DecodeSegments(segments)[key] == CookieOf(segments[i]).value.1
  {
    assert forall j :: 0 <= j < |segments| ==> (HasKey(segments[j], key) <==> Reads(CookieOf, segments[j], key));
    AssignAllLastWins(segments, CookieOf, key, i);
  }

  /** Serialises `(key, value)` pairs as `k1=v1; k2=v2`. */
  function Encode(pairs: seq<(string, string)>): string {
    Join(Segments(pairs), Separator)
  }

  function Segments(pairs: seq<(string, string)>): (segs: seq<string>)
    ensures |segs| == |pairs|
    ensures forall i :: 0 <= i < |pairs| ==> segs[i] == pairs[i].0 + "=" + pairs[i].1
  {
    seq(|pairs|, i requires 0 <= i < |pairs| => pairs[i].0 + "=" + pairs[i].1)
  }

  /** The map a left-to-right assignment of the pairs produces. */
  function ToMap(pairs: seq<(string, string)>): map<string, string>
    decreases |pairs|
  {
    if pairs == [] then map[]
    else ToMap(pairs[..|pairs| - 1])[pairs[|pairs| - 1].0 := pairs[|pairs| - 1].1]
  }

  /** Pairs the codec can carry: no `=` in a key and no `"; "` in a key or a value. */
  predicate WellFormed(pairs: seq<(string, string)>) {
    forall i :: 0 <= i < |pairs| ==>
      '=' !in pairs[i].0 && NoOccurrence(pairs[i].0, Separator) && NoOccurrence(pairs[i].1, Separator)
  }

  lemma SeparatorBorderFree()
    ensures BorderFree(Separator)
  {
    assert Separator[..1] == ";";
    assert Separator[1..] == " ";
  }

  /** `key=value` contains no separator when neither side does: `=` cannot take part in one. */
  lemma {:induction false} SegmentHasNoSeparator(key: string, value: string)
    requires NoOccurrence(key, Separator) && NoOccurrence(value, Separator)
    ensures NoOccurrence(key + "=" + value, Separator)
  {
    var w := key + "=" + value;
    forall j | 0 <= j <= |w| ensures !OccursAt(w, Separator, j) {
      OccursPair(w, ';', ' ', j);
      if j + 1 < |key| {
        OccursPair(key, ';', ' ', j);
      } else if j + 1 > |key| + 1 && j + 2 <= |w| {
        OccursPair(value, ';', ' ', j - |key| - 1);
      }
    }
  }

  lemma {:induction false} DecodeSegmentsOfPairs(pairs: seq<(string, string)>)
    requires forall i :: 0 <= i < |pairs| ==> '=' !in pairs[i].0
    ensures DecodeSegments(Segments(pairs)) == ToMap(pairs)
    decreases |pairs|
  {
    if pairs != [] {
      var n := |pairs| - 1;
      var segs := Segments(pairs);
      assert segs[..n] == Segments(pairs[..n]);
      DecodeSegmentsOfPairs(pairs[..n]);
      var jar := AssignAll(segs[..n], CookieOf);
      assert ToMap(pairs) == ToMap(pairs[..n])[pairs[n].0 := pairs[n].1];
      assert '=' in segs[n] by {
        assert segs[n][|pairs[n].0|] == '=';
      }
      var kv := CookieOf(segs[n]).value;
      CookieSplitUnique(kv.0, kv.1, pairs[n].0, pairs[n].1);
      assert AssignAll(segs, CookieOf) == jar[kv.0 := kv.1];
    }
  }

  /** The first `=` fixes the split: two readings with `=`-free keys agree. */
  lemma CookieSplitUnique(k1: string, v1: string, k2: string, v2: string)
    requires '=' !in k1 && '=' !in k2
    requires k1 + "=" + v1 == k2 + "=" + v2
    ensures k1 == k2 && v1 == v2
  {
    var w := k1 + "=" + v1;
    assert w[|k1|] == '=' && w[|k2|] == '=';
    assert forall j :: 0 <= j < |k1| ==> w[j] == k1[j];
    assert forall j :: 0 <= j < |k2| ==> w[j] == k2[j];
    assert |k1| == |k2|;
    assert k1 == w[..|k1|] && k2 == w[..|k2|];
    assert v1 == w[|k1| + 1..] && v2 == w[|k2| + 1..];
  }

  /** Decoding an encoded cookie list gives back the pairs as a map (last duplicate wins). */
  lemma {:induction false} DecodeEncode(pairs: seq<(string, string)>)
    requires WellFormed(pairs)
    ensures Decode(Encode(pairs)) == ToMap(pairs)
  {
    if pairs == [] {
      assert Encode(pairs) == [];
    } else {
      var segs := Segments(pairs);
      forall k | 0 <= k < |segs| ensures NoOccurrence(segs[k], Separator) {
        SegmentHasNoSeparator(pairs[k].0, pairs[k].1);
      }
      SeparatorBorderFree();
      SplitJoin(segs, Separator);
      DecodeSegmentsOfPairs(pairs);
    }
  }

  /** The cookie string create_user and list_users use: the user-management one unless it is
      blank, then the subscription's own; neither usable is the missing-credentials error. */
  function ResolveRequired(configCookies: string, subscriptionCookies: string): (r: Result<string, Failure>)
    ensures r.Err? <==> IsBlank(configCookies) && subscriptionCookies == []
    ensures r.Err? ==> r.error == MissingCredentials
    ensures r.Ok? ==> r.value != []
    ensures !IsBlank(configCookies) ==> r == Ok(configCookies)
    ensures r.Ok? && r.value != configCookies ==> r.value == subscriptionCookies
  {
    if !IsBlank(configCookies) then Ok(configCookies)
    else if subscriptionCookies != [] then Ok(subscriptionCookies)
    else Err(MissingCredentials)
  }

  /** The activation service's copy of the fallback, which carries on with an empty string. */
  function ResolveLenient(configCookies: string, subscriptionCookies: string): string {
    if !IsBlank(configCookies) then configCookies else subscriptionCookies
  }

  /** The two copies agree whenever the strict one succeeds, and the lenient one yields the
      empty string (hence an empty cookie jar) exactly when the strict one fails. */
  lemma ResolveVariantsAgree(configCookies: string, subscriptionCookies: string)
    ensures ResolveRequired(configCookies, subscriptionCookies).Ok? <==>
            ResolveLenient(configCookies, subscriptionCookies) != []
    ensures ResolveRequired(configCookies, subscriptionCookies).Ok? ==>
            ResolveRequired(configCookies, subscriptionCookies).value == ResolveLenient(configCookies, subscriptionCookies)
    ensures ResolveRequired(configCookies, subscriptionCookies).Err? ==>
            Decode(ResolveLenient(configCookies, subscriptionCookies)) == map[]
  {
    assert IsBlank([]);
  }
}

=== FILE: curl_template.dfy ===
/** Recovery of the create-user request template from a captured curl command: the
    three-pattern `--data-raw` cascade, the JSON parse with its escape-decoding retry, and the
    e-mail domain read from the template's `UserPrincipalName`. */
module CurlTemplate {
  import opened Base
  import opened Text
  import opened JsonValue
  import opened Admin

  const Flag: string := "--data-raw"

  /** The three regular expressions, in the order they are tried. */
  datatype Pattern =
    | SingleQuoted   // --data-raw\s+\$?'(.+?)'(?:\s+-|$)
    | DoubleQuoted   // --data-raw\s+\$?"(.+?)"(?:\s+-|$)
    | Unquoted       // --data-raw\s+(.+?)(?:\s+-H|\s+--|\s+$)

  /** Where Python's `$` matches without MULTILINE: the end, or just before a final newline. */
  predicate AtEnd(s: string, p: nat) {
    p == |s| || (p + 1 == |s| && s[p] == '\n')
  }

  /** `(?:\s+-|$)` at `p`. The whitespace run must be maximal, since `-` is not whitespace. */
  predicate QuotedTail(s: string, p: nat)
    requires p <= |s|
  {
    AtEnd(s, p) || (SpaceRun(s, p) >= 1 && p + SpaceRun(s, p) < |s| && s[p + SpaceRun(s, p)] == '-')
  }

  /** `(?:\s+-H|\s+--|\s+$)` at `p`. */
  predicate UnquotedTail(s: string, p: nat)
    requires p <= |s|
  {
    var e := p + SpaceRun(s, p);
    && SpaceRun(s, p) >= 1
    && (e == |s| || (e + 1 < |s| && s[e] == '-' && (s[e + 1] == 'H' || s[e + 1] == '-')))
  }

  /** The lazy `(.+?)q` of a quoted pattern: the first `q` at or after `from` that the tail accepts. */
  function CloseQuote(s: string, q: char, from: nat): (r: Option<nat>)
    requires from <= |s|
    ensures r.Some? ==> from <= r.value < |s| && s[r.value] == q && QuotedTail(s, r.value + 1)
    ensures forall j :: from <= j < |s| && (r.Some? ==> j < r.value) ==> !(s[j] == q && QuotedTail(s, j + 1))
    decreases |s| - from
  {
    if from == |s| then None
    else if s[from] == q && QuotedTail(s, from + 1) then Some(from)
    else CloseQuote(s, q, from + 1)
  }

  /** The lazy `(.+?)` of the unquoted pattern: the first position at or after `from` where the tail matches. */
  function UnquotedEnd(s: string, from: nat): (r: Option<nat>)
    requires from <= |s|
    ensures r.Some? ==> from <= r.value < |s| && UnquotedTail(s, r.value)
    ensures forall j :: from <= j <= |s| && (r.Some? ==> j < r.value) ==> !UnquotedTail(s, j)
    decreases |s| - from
  {
    if from == |s| then None
    else if UnquotedTail(s, from) then Some(from)
    else UnquotedEnd(s, from + 1)
  }

  /** A quoted pattern anchored at `--data-raw` found at `i`. Only the maximal whitespace run can
      be followed by `$` or the quote, so `\s+` never backtracks here. */
  function MatchQuoted(s: string, q: char, i: nat): (body: Option<string>)
    requires q != '$' && !IsSpace(q)
    requires OccursAt(s, Flag, i)
    ensures body.Some? ==> body.value != []
  {
    var a := i + |Flag|;
    var w := SpaceRun(s, a);
    var b := a + w;
    var open :=
      if b + 1 < |s| && s[b] == '$' && s[b + 1] == q then Some(b + 1)
      else if b < |s| && s[b] == q then Some(b)
      else None;
    if w == 0 || open.None? || open.value + 2 > |s| then None
    else
      match CloseQuote(s, q, open.value + 2)
      case None => None
      case Some(j) => Some(s[open.value + 1..j])
  }

  /** The unquoted pattern anchored at `i`: `\s+` gives back one character at a time (from the
      longest run down to one) and, for each, the lazy body grows until the tail matches. */
  function MatchUnquoted(s: string, i: nat): (body: Option<string>)
    requires OccursAt(s, Flag, i)
    ensures body.Some? ==> body.value != []
  {
    var a := i + |Flag|;
    TryRuns(s, a, SpaceRun(s, a))
  }

  function TryRuns(s: string, a: nat, k: nat): (body: Option<string>)
    requires a + k <= |s|
    ensures body.Some? ==> body.value != []
    decreases k
  {
    if k == 0 then None
    else if a + k < |s| && UnquotedEnd(s, a + k + 1).Some? then
      Some(s[a + k..UnquotedEnd(s, a + k + 1).value])
    else TryRuns(s, a, k - 1)
  }

  /** `re.match` of one pattern at position `i`. */
  function MatchAt(s: string, pattern: Pattern, i: nat): (body: Option<string>)
    ensures body.Some? ==> OccursAt(s, Flag, i) && body.value != []
  {
    if !OccursAt(s, Flag, i) then None
    else
      match pattern
      case SingleQuoted => MatchQuoted(s, '\'', i)
      case DoubleQuoted => MatchQuoted(s, '"', i)
      case Unquoted => MatchUnquoted(s, i)
  }

  /** `re.search`: the match at the leftmost position where the pattern matches. */
  function SearchFrom(s: string, pattern: Pattern, from: nat): (r: Option<(nat, string)>)
    requires from <= |s|
    ensures r.Some? ==> from <= r.value.0 <= |s| && MatchAt(s, pattern, r.value.0) == Some(r.value.1)
    ensures forall i :: from <= i <= |s| && (r.Some? ==> i < r.value.0) ==> MatchAt(s, pattern, i).None?
    decreases |s| - from
  {
    match MatchAt(s, pattern, from)
    case Some(body) => Some((from, body))
    case None => if from == |s| then None else SearchFrom(s, pattern, from + 1)
  }

  function Search(s: string, pattern: Pattern): (body: Option<string>)
    ensures body.Some? <==> exists i :: 0 <= i <= |s| && MatchAt(s, pattern, i).Some?
    ensures body.Some? ==> body.value != []
  {
    match SearchFrom(s, pattern, 0)
    case Some(m) => Some(m.1)
    case None => None
  }

  /** The cascade: the double-quoted pattern is tried only when the single-quoted one fails, and
      the unquoted one only when both fail. */
  function ExtractBody(curl: string): (r: Option<string>)
    ensures Search(curl, SingleQuoted).Some? ==> r == Search(curl, SingleQuoted)
    ensures Search(curl, SingleQuoted).None? && Search(curl, DoubleQuoted).Some? ==> r == Search(curl, DoubleQuoted)
    ensures Search(curl, SingleQuoted).None? && Search(curl, DoubleQuoted).None? ==> r == Search(curl, Unquoted)
    ensures r.None? ==> !exists i :: 0 <= i <= |curl| && OccursAt(curl, Flag, i) && MatchAt(curl, Unquoted, i).Some?
  {
    match Search(curl, SingleQuoted)
    case Some(b) => Some(b)
    case None =>
      match Search(curl, DoubleQuoted)
      case Some(b) => Some(b)
      case None => Search(curl, Unquoted)
  }

  lemma FlagBorderFree()
    ensures BorderFree(Flag)
  {
    forall n | 0 < n < |Flag| ensures Flag[..n] != Flag[|Flag| - n..] {
      assert Flag[..n][0] == '-';
      if n == 1 || n == 5 {
        assert Flag[|Flag| - n..][0] != '-';
      } else {
        assert Flag[..n][1] == '-';
        assert Flag[|Flag| - n..][1] == Flag[|Flag| - n + 1];
      }
    }
  }

  /** When `--data-raw` first occurs right after `pre`, a pattern matching there is what
      `re.search` finds. */
  lemma {:induction false} SearchAtFirstFlag(pre: string, rest: string, pattern: Pattern, body: string)
    requires NoOccurrence(pre, Flag)
    requires MatchAt(pre + Flag + rest, pattern, |pre|) == Some(body)
    ensures Search(pre + Flag + rest, pattern) == Some(body)
  {
    var s := pre + Flag + rest;
    FlagBorderFree();
    FirstSeparator(pre, Flag, rest);
    forall j | 0 <= j < |pre| ensures MatchAt(s, pattern, j).None? {
      assert !OccursAt(s, Flag, j);
    }
    SearchFromReaches(s, pattern, 0, |pre|, body);
  }

  /** `re.search` from `from` stops at the first position where the pattern matches. */
  lemma {:induction false} SearchFromReaches(s: string, pattern: Pattern, from: nat, k: nat, body: string)
    requires from <= k <= |s|
    requires forall j :: from <= j < k ==> MatchAt(s, pattern, j).None?
    requires MatchAt(s, pattern, k) == Some(body)
    ensures SearchFrom(s, pattern, from) == Some((k, body))
    decreases k - from
  {
    if from < k {
      assert MatchAt(s, pattern, from).None?;
      SearchFromReaches(s, pattern, from + 1, k, body);
      assert SearchFrom(s, pattern, from) == SearchFrom(s, pattern, from + 1);
    }
  }

  /** A quoted pattern at a flag followed by one space, an optional `$` and the opening quote,
      whose first accepted closing quote is at `close`. */
  lemma {:induction false} QuotedAt(s: string, q: char, i: nat, dollar: bool, close: nat)
    requires q == '\'' || q == '"'
    requires OccursAt(s, Flag, i)
    requires i + |Flag| + 2 < |s| && s[i + |Flag|] == ' '
    requires dollar ==> s[i + |Flag| + 1] == '$' && s[i + |Flag| + 2] == q
    requires !dollar ==> s[i + |Flag| + 1] == q
    requires (if dollar then i + |Flag| + 4 else i + |Flag| + 3) <= close < |s|
    requires forall j :: (if dollar then i + |Flag| + 4 else i + |Flag| + 3) <= j < close ==>
               !(s[j] == q && QuotedTail(s, j + 1))
    requires s[close] == q && QuotedTail(s, close + 1)
    ensures MatchQuoted(s, q, i) == Some(s[(if dollar then i + |Flag| + 3 else i + |Flag| + 2)..close])
  {
    var a := i + |Flag|;
    assert !IsSpace(s[a + 1]);
    assert SpaceRun(s, a + 1) == 0;
    assert SpaceRun(s, a) == 1;
    var o := if dollar then a + 2 else a + 1;
    assert CloseQuote(s, q, o + 2) == Some(close);
  }

  /** A capture `… --data-raw '<body>'` (optionally `$'…'`), ending there or followed by
      another flag, yields exactly `<body>` when the body holds no single quote. */
  lemma {:induction false} SingleQuotedCapture(pre: string, dollar: bool, body: string, post: string)
    requires NoOccurrence(pre, Flag)
    requires body != [] && '\'' !in body
    requires post == [] || (|post| >= 2 && post[0] == ' ' && post[1] == '-')
    ensures ExtractBody(pre + Flag + " " + (if dollar then "$'" else "'") + body + "'" + post) == Some(body)
  {
    var open := if dollar then "$'" else "'";
    var rest := " " + open + body + "'" + post;
    var u := pre + Flag + " " + open;
    OpeningShape(pre, open, dollar, '\'');
    QuotedMatch(u, '\'', body, post, |pre|, dollar);
    Regroup(pre, Flag, " ", open, body, "'", post);
    SearchAtFirstFlag(pre, rest, SingleQuoted, body);
  }

  /** A capture `… --data-raw "<body>"` (optionally `$"…"`), ending there or followed by another
      flag, yields exactly `<body>`, escaped quotes `\"` included, provided no quote inside the
      body is followed by whitespace and no single quote follows the flag, so the single-quoted
      pattern matches nowhere. */
  lemma {:induction false} DoubleQuotedCapture(pre: string, dollar: bool, body: string, post: string)
    requires NoOccurrence(pre, Flag)
    requires body != [] && forall k :: 0 < k < |body| - 1 && body[k] == '"' ==> !IsSpace(body[k + 1])
    requires '\'' !in body && '\'' !in post
    requires post == [] || (|post| >= 2 && post[0] == ' ' && post[1] == '-')
    ensures ExtractBody(pre + Flag + " " + (if dollar then "$\"" else "\"") + body + "\"" + post) == Some(body)
  {
    var open := if dollar then "$\"" else "\"";
    var rest := " " + open + body + "\"" + post;
    var u := pre + Flag + " " + open;
    OpeningShape(pre, open, dollar, '"');
    QuotedMatch(u, '"', body, post, |pre|, dollar);
    Regroup(pre, Flag, " ", open, body, "\"", post);
    SearchAtFirstFlag(pre, rest, DoubleQuoted, body);
    RestHasNoSingleQuote(open, body, post);
    NoQuoteAfterFlag(pre, rest, '\'');
  }

  lemma RestHasNoSingleQuote(open: string, body: string, post: string)
    requires '\'' !in open && '\'' !in body && '\'' !in post
    ensures '\'' !in " " + open + body + "\"" + post
  {
  }

  /** With `--data-raw` first occurring after `pre` and no quote `q` after it, the pattern
      quoted by `q` matches nowhere. */
  lemma {:induction false} NoQuoteAfterFlag(pre: string, rest: string, q: char)
    requires q == '\'' || q == '"'
    requires NoOccurrence(pre, Flag)
    requires q !in rest
    ensures Search(pre + Flag + rest, if q == '"' then DoubleQuoted else SingleQuoted).None?
  {
    var s := pre + Flag + rest;
    var pattern := if q == '"' then DoubleQuoted else SingleQuoted;
    FlagBorderFree();
    FirstSeparator(pre, Flag, rest);
    QuoteFreeSuffix(pre, rest, q);
    forall i | 0 <= i <= |s| ensures MatchAt(s, pattern, i).None? {
      if i < |pre| {
        assert !OccursAt(s, Flag, i);
      } else if OccursAt(s, Flag, i) {
        QuotedNeedsQuote(s, q, i);
      }
    }
  }

  lemma QuoteFreeSuffix(pre: string, rest: string, q: char)
    requires q == '\'' || q == '"'
    requires q !in rest
    ensures forall p :: |pre| <= p < |pre + Flag + rest| ==> (pre + Flag + rest)[p] != q
  {
    var s := pre + Flag + rest;
    forall p | |pre| <= p < |s| ensures s[p] != q {
      if p >= |pre| + |Flag| {
        assert s[p] == rest[p - |pre| - |Flag|];
      } else {
        assert s[p] == Flag[p - |pre|];
      }
    }
  }

  /** A quoted pattern at a flag needs its quote after the flag. */
  lemma QuotedNeedsQuote(s: string, q: char, i: nat)
    requires q == '\'' || q == '"'
    requires OccursAt(s, Flag, i)
    requires forall p :: i <= p < |s| ==> s[p] != q
    ensures MatchQuoted(s, q, i).None?
  {
    var a := i + |Flag|;
    var b := a + SpaceRun(s, a);
    assert b < |s| ==> s[b] != q;
    assert b + 1 < |s| ==> s[b + 1] != q;
  }

  /** A capture `… --data-raw <body>` without quotes, followed by `-H`, another `--` option or
      trailing whitespace, falls through both quoted patterns and yields exactly `<body>` when
      the body holds no whitespace. */
  lemma {:induction false} UnquotedCapture(pre: string, body: string, post: string)
    requires NoOccurrence(pre, Flag)
    requires body != [] && forall k :: 0 <= k < |body| ==> !IsSpace(body[k])
    requires '\'' !in body && '"' !in body && '\'' !in post && '"' !in post
    requires post == " " || (|post| >= 3 && post[0] == ' ' && post[1] == '-' && (post[2] == 'H' || post[2] == '-'))
    ensures ExtractBody(pre + Flag + " " + body + post) == Some(body)
  {
    var rest := " " + body + post;
    var u := pre + Flag + " ";
    assert u[|pre|..|pre| + |Flag|] == Flag && u[|pre| + |Flag|] == ' ';
    UnquotedMatch(u, body, post, |pre|);
    assert u + body + post == pre + Flag + rest;
    SearchAtFirstFlag(pre, rest, Unquoted, body);
    NoQuoteAfterFlag(pre, rest, '\'');
    NoQuoteAfterFlag(pre, rest, '"');
  }

  /** The unquoted pattern at a flag that ends `u` with one space before a whitespace-free body. */
  lemma {:induction false} UnquotedMatch(u: string, body: string, post: string, i: nat)
    requires |u| == i + |Flag| + 1
    requires u[i..i + |Flag|] == Flag && u[i + |Flag|] == ' '
    requires body != [] && forall k :: 0 <= k < |body| ==> !IsSpace(body[k])
    requires post == " " || (|post| >= 3 && post[0] == ' ' && post[1] == '-' && (post[2] == 'H' || post[2] == '-'))
    ensures MatchAt(u + body + post, Unquoted, i) == Some(body)
  {
    var s := u + body + post;
    var a := i + |Flag|;
    var e := |u| + |body|;
    assert s[..|u|] == u;
    assert OccursAt(s, Flag, i) by {
      assert s[i..a] == u[i..a];
    }
    assert s[a] == u[a];
    BodyLayout(u, body, post);
    assert s[a + 1] == body[0];
    assert SpaceRun(s, a + 1) == 0;
    assert SpaceRun(s, a) == 1;
    assert s[e..] == post;
    forall j | a + 2 <= j < e ensures !UnquotedTail(s, j) {
      assert s[j] == body[j - |u|];
    }
    UnquotedTailAfterBody(s, e, post);
    assert UnquotedEnd(s, a + 2) == Some(e);
    assert s[a + 1..e] == body;
  }

  lemma UnquotedTailAfterBody(s: string, e: nat, post: string)
    requires e <= |s| && s[e..] == post
    requires post == " " || (|post| >= 3 && post[0] == ' ' && post[1] == '-' && (post[2] == 'H' || post[2] == '-'))
    ensures e < |s| && UnquotedTail(s, e)
  {
    assert s[e] == ' ';
    if post != " " {
      assert s[e + 1] == '-' && s[e + 2] == post[2];
      assert SpaceRun(s, e + 1) == 0;
    } else {
      assert e + 1 == |s|;
    }
  }

  lemma Regroup<T>(a: seq<T>, b: seq<T>, c: seq<T>, d: seq<T>, e: seq<T>, f: seq<T>, g: seq<T>)
    ensures a + b + (c + d + e + f + g) == a + b + c + d + e + f + g
  {
  }

  lemma OpeningShape(pre: string, open: string, dollar: bool, q: char)
    requires open == if dollar then ['$', q] else [q]
    ensures var u := pre + Flag + " " + open;
            var a := |pre| + |Flag|;
            && |u| == a + (if dollar then 3 else 2)
            && u[|pre|..a] == Flag && u[a] == ' '
            && (dollar ==> u[a + 1] == '$' && u[a + 2] == q)
            && (!dollar ==> u[a + 1] == q)
  {
    var u := pre + Flag + " " + open;
    var a := |pre| + |Flag|;
    assert u[|pre|..a] == Flag;
    assert u[a..] == " " + open;
  }

  /** A quoted pattern at a flag that starts `u`'s final `--data-raw q` (or `$q`), when no quote
      inside the body is followed by whitespace. */
  lemma {:induction false} QuotedMatch(u: string, q: char, body: string, post: string, i: nat, dollar: bool)
    requires q == '\'' || q == '"'
    requires |u| == i + |Flag| + (if dollar then 3 else 2)
    requires u[i..i + |Flag|] == Flag && u[i + |Flag|] == ' '
    requires dollar ==> u[i + |Flag| + 1] == '$' && u[i + |Flag| + 2] == q
    requires !dollar ==> u[i + |Flag| + 1] == q
    requires body != [] && forall k :: 0 < k < |body| - 1 && body[k] == q ==> !IsSpace(body[k + 1])
    requires post == [] || (|post| >= 2 && post[0] == ' ' && post[1] == '-')
    ensures MatchAt(u + body + [q] + post, if q == '"' then DoubleQuoted else SingleQuoted, i) == Some(body)
  {
    var s := u + body + [q] + post;
    assert s == u + body + ([q] + post);
    var a := i + |Flag|;
    var close := |u| + |body|;
    assert s[..|u|] == u;
    assert OccursAt(s, Flag, i) by {
      assert s[i..a] == u[i..a];
    }
    assert s[a] == u[a];
    assert s[a + 1] == u[a + 1];
    assert dollar ==> s[a + 2] == u[a + 2];
    BodyLayout(u, body, [q] + post);
    assert s[close..] == [q] + post;
    assert s[close] == q;
    assert s[close + 1..] == post;
    forall j | |u| + 1 <= j < close ensures !(s[j] == q && QuotedTail(s, j + 1)) {
      assert s[j] == body[j - |u|];
      if j + 1 < close {
        assert s[j + 1] == body[j + 1 - |u|];
      }
      if s[j] == q {
        assert !IsSpace(s[j + 1]);
        assert SpaceRun(s, j + 1) == 0;
      }
    }
    TailAfterClose(s, close, post);
    QuotedAt(s, q, i, dollar, close);
  }

  lemma TailAfterClose(s: string, close: nat, post: string)
    requires close < |s| && s[close + 1..] == post
    requires post == [] || (|post| >= 2 && post[0] == ' ' && post[1] == '-')
    ensures QuotedTail(s, close + 1)
  {
    if post != [] {
      assert s[close + 1] == ' ' && s[close + 2] == '-';
      assert SpaceRun(s, close + 2) == 0;
    }
  }

  lemma BodyLayout(u: string, body: string, tail: string)
    ensures (u + body + tail)[|u|..|u| + |body|] == body
    ensures (u + body + tail)[|u| + |body|..] == tail
    ensures forall j :: |u| <= j < |u| + |body| ==> (u + body + tail)[j] == body[j - |u|]
  {
  }

  /** `json.loads(raw)`; on failure `json.loads(codecs.decode(raw, 'unicode_escape'))`; when both
      fail, the error of the FIRST parse is the one reported. */
  function ParseTemplate(rt: Runtime, raw: string): (r: Result<Json, string>)
    ensures rt.loads(raw).Ok? ==> r == rt.loads(raw)
    ensures rt.loads(raw).Err? && rt.unescape(raw).Some? && rt.loads(rt.unescape(raw).value).Ok?
            ==> r == rt.loads(rt.unescape(raw).value)
    ensures r.Err? <==> rt.loads(raw).Err? && (rt.unescape(raw).None? || rt.loads(rt.unescape(raw).value).Err?)
    ensures r.Err? ==> r.error == rt.loads(raw).error
  {
    match rt.loads(raw)
    case Ok(t) => Ok(t)
    case Err(firstError) =>
      match rt.unescape(raw)
      case None => Err(firstError)
      case Some(decoded) =>
        match rt.loads(decoded)
        case Ok(t) => Ok(t)
        case Err(_) => Err(firstError)
  }

  const DefaultDomain: string := "dfem.net"

  /** `'@' in template_upn` then `template_upn.split('@')[1]`, with `"dfem.net"` otherwise. A
      value that is not a string takes Python's `in` for its type: a list tests its elements, a
      dict its keys, and a number, bool or null raises TypeError (an `unknown_error`); a list or
      dict that passes the test has no `split` and raises too. */
  function DomainOf(upn: Option<Json>): (r: Result<string, Failure>)
    ensures r.Ok? ==> '@' !in r.value
    ensures r.Err? ==> r.error == UnknownError
    ensures upn.None? ==> r == Ok(DefaultDomain)
    ensures upn.Some? && upn.value.JStr? && '@' !in upn.value.s ==> r == Ok(DefaultDomain)
    ensures upn.Some? && upn.value.JStr? ==> r.Ok?
    ensures r.Err? <==> upn.Some? && match upn.value
      case JArr(xs) => JStr("@") in xs
      case JObj(m) => Get(m, "@").Some?
      case JStr(_) => false
      case _ => true
  {
    match upn
    case None => Ok(DefaultDomain)
    case Some(JStr(s)) =>
      if '@' in s then
        NoOccurrenceChar(s, '@');
        var parts := Split(s, "@");
        assert |parts| >= 2;
        NoOccurrenceChar(parts[1], '@');
        Ok(parts[1])
      else Ok(DefaultDomain)
    case Some(JArr(xs)) => if JStr("@") in xs then Err(UnknownError) else Ok(DefaultDomain)
    case Some(JObj(m)) => if Get(m, "@").Some? then Err(UnknownError) else Ok(DefaultDomain)
    case Some(_) => Err(UnknownError)
  }

  /** For `local@domain` the domain is the part after the `@`. */
  lemma {:induction false} DomainOfAddress(local: string, domain: string)
    requires '@' !in local && '@' !in domain
    ensures DomainOf(Some(JStr(local + "@" + domain))) == Ok(domain)
  {
    NoOccurrenceChar(local, '@');
    NoOccurrenceChar(domain, '@');
    SplitCons(local, "@", domain);
    SplitSingle(domain, "@");
    assert '@' in local + "@" + domain by {
      assert (local + "@" + domain)[|local|] == '@';
    }
  }

  /** With several `@`, the domain is the segment between the first and the second. */
  lemma {:induction false} DomainOfSecondSegment(local: string, domain: string, rest: string)
    requires '@' !in local && '@' !in domain
    requires rest == [] || rest[0] == '@'
    ensures DomainOf(Some(JStr(local + "@" + domain + rest))) == Ok(domain)
  {
    if rest == [] {
      assert local + "@" + domain + rest == local + "@" + domain;
      DomainOfAddress(local, domain);
    } else {
      var s := local + "@" + domain + rest;
      var after := rest[1..];
      assert s == local + "@" + (domain + "@" + after);
      NoOccurrenceChar(local, '@');
      NoOccurrenceChar(domain, '@');
      SplitCons(local, "@", domain + "@" + after);
      SplitCons(domain, "@", after);
      assert Split(s, "@")[1] == domain;
      assert s[|local|] == '@';
    }
  }

  /** `f"{username}@{domain}"`. */
  function NewUpn(username: string, domain: string): string {
    username + "@" + domain
  }

  /** The UPN built for a new user, read back as a template UPN, gives the same domain. */
  lemma NewUpnDomainRoundTrip(username: string, upn: Option<Json>)
    requires '@' !in username && DomainOf(upn).Ok?
    ensures DomainOf(Some(JStr(NewUpn(username, DomainOf(upn).value)))) == DomainOf(upn)
  {
    DomainOfAddress(username, DomainOf(upn).value);
  }
}

=== FILE: http.dfy ===
/** The shape of one HTTP exchange with the admin portal or the webhook, with the
    network itself abstracted into a `Transport` function. */
module Http {
  import opened Base
  import opened JsonValue

  datatype Method = GET | POST

  /** A request as the client would hand it to `requests`. */
  datatype Request = Request(
    verb: Method,
    url: string,
    headers: map<string, string>,
    cookies: map<string, string>,
    body: Option<Json>)

  /** A received response: status code, raw text, and `response.json()` (`None` when it raises). */
  datatype Response = Response(status: int, text: string, json: Option<Json>)

  /** What a call to `requests.get`/`requests.post` produces. */
  datatype Outcome =
    | TimedOut
    | TransportError
    | Responded(response: Response)

  /** The network: the outcome the upstream service produces for each request. */
  type Transport = Request -> Outcome

  /** 401 and 403 mean the captured session has expired, whatever the body says. */
  predicate IsAuthFailure(status: int) {
    status == 401 || status == 403
  }

  /** Status codes the admin client accepts for listing, creating and fetching. */
  predicate IsAccepted(status: int) {
    status == 200 || status == 201
  }

  /** `headers.copy()` followed by `headers['content-type'] = 'application/json'`. */
  function WithJsonContentType(headers: map<string, string>): (h: map<string, string>)
    ensures h.Keys == headers.Keys + {"content-type"}
    ensures h["content-type"] == "application/json"
    ensures forall k :: k in headers && k != "content-type" ==> h[k] == headers[k]
  {
    headers["content-type" := "application/json"]
  }
}

=== FILE: json.dfy ===
/** JSON values as the Python client sees them after `json.loads`, together with the
    handful of Python behaviours the client applies to them: `dict.get` with a default,
    truthiness, `==` against an integer, use as a dictionary key, iteration, and `> 0`. */
module JsonValue {
  import opened Base
  import opened Text

  /** Numbers are integers; objects keep their members in order. */
  datatype Json =
    | JNull
    | JBool(b: bool)
    | JNum(n: int)
    | JStr(s: string)
    | JArr(elems: seq<Json>)
    | JObj(members: seq<(string, Json)>)

  type Members = seq<(string, Json)>

  /** Position of the last member named `key`. */
  function LastIndex(m: Members, key: string): (r: Option<nat>)
    ensures r.None? ==> forall i :: 0 <= i < |m| ==> m[i].0 != key
    ensures r.Some? ==> r.value < |m| && m[r.value].0 == key
    ensures r.Some? ==> forall j :: r.value < j < |m| ==> m[j].0 != key
    decreases |m|
  {
    if m == [] then None
    else if m[|m| - 1].0 == key then Some(|m| - 1)
    else
      var r := LastIndex(m[..|m| - 1], key);
      assert forall i :: 0 <= i < |m| - 1 ==> m[..|m| - 1][i] == m[i];
      r
  }

  /** `d.get(key)`: the value of the last member named `key` (json.loads keeps the last duplicate). */
  function Get(m: Members, key: string): (r: Option<Json>)
    ensures r.None? <==> forall i :: 0 <= i < |m| ==> m[i].0 != key
    ensures r.Some? ==> LastIndex(m, key).Some? && m[LastIndex(m, key).value] == (key, r.value)
  {
    match LastIndex(m, key)
    case None => None
    case Some(i) => Some(m[i].1)
  }

  /** `d.get(key, default)`. */
  function GetOr(m: Members, key: string, default: Json): Json {
    Get(m, key).GetOr(default)
  }

  /** Python's `bool(v)`. */
  predicate Truthy(v: Json) {
    match v
    case JNull => false
    case JBool(b) => b
    case JNum(n) => n != 0
    case JStr(s) => s != []
    case JArr(xs) => xs != []
    case JObj(m) => m != []
  }

  /** Python's `v == k` for an int `k`: a bool compares as 0 or 1, anything else is unequal. */
  predicate EqualsInt(v: Json, k: int) {
    match v
    case JNum(n) => n == k
    case JBool(b) => (if b then 1 else 0) == k
    case _ => false
  }

  /** How `v` behaves as a key of a dict whose keys are ints. */
  datatype KeyClass = IntKey(n: int) | OtherKey | Unhashable

  function AsDictKey(v: Json): (k: KeyClass)
    ensures k.IntKey? ==> EqualsInt(v, k.n)
    ensures (v.JArr? || v.JObj?) <==> k.Unhashable?
  {
    match v
    case JNum(n) => IntKey(n)
    case JBool(b) => IntKey(if b then 1 else 0)
    case JArr(_) => Unhashable
    case JObj(_) => Unhashable
    case _ => OtherKey
  }

  /** `for x in v`: the elements of a list, the characters of a string, the keys of a
      dict; `None` when `v` is not iterable (TypeError). */
  function Iterate(v: Json): (r: Option<seq<Json>>)
    ensures r.Some? <==> (v.JArr? || v.JStr? || v.JObj?)
    ensures r.Some? ==> (|r.value| == 0 <==> !Truthy(v))
    ensures v.JArr? ==> r == Some(v.elems)
  {
    match v
    case JArr(xs) => Some(xs)
    case JStr(s) => Some(seq(|s|, i requires 0 <= i < |s| => JStr([s[i]])))
    case JObj(m) => Some(seq(|m|, i requires 0 <= i < |m| => JStr(m[i].0)))
    case _ => None
  }

  /** Python's `v > 0`; `None` when the comparison raises TypeError. */
  function GreaterThanZero(v: Json): (r: Option<bool>)
    ensures r.Some? <==> (v.JNum? || v.JBool?)
    ensures r == Some(true) <==> (v.JNum? && v.n > 0) || v == JBool(true)
  {
    match v
    case JNum(n) => Some(n > 0)
    case JBool(b) => Some(b)
    case _ => None
  }

  /** The library calls the client makes that this model keeps abstract. */
  datatype Runtime = Runtime(
    /** `json.loads`: a value or the decode error's text. */
    loads: string -> Result<Json, string>,
    /** `json.dumps(v, ensure_ascii=False)`. */
    dumps: Json -> string,
    /** `codecs.decode(s, 'unicode_escape')`; `None` when it raises. */
    unescape: string -> Option<string>,
    /** `str(v)` for a value that is not a string. */
    show: Json -> string,
    /** `datetime.fromisoformat(s.replace('Z', '+00:00')).strftime('%Y-%m-%d %H:%M')`; `None` when it raises. */
    isoMinutes: string -> Option<string>
  )

  /** `str(v)` / an f-string field: a string stands for itself. */
  function Show(rt: Runtime, v: Json): (r: string)
    ensures v.JStr? ==> r == v.s
  {
    if v.JStr? then v.s else rt.show(v)
  }
}

=== FILE: notifier.dfy ===
/** Webhook notifications: the payload rendered from an optional JSON template, the delivery
    rule, and the three alert texts. */
module Notifier {
  import opened Base
  import opened Text
  import opened JsonValue
  import opened Http

  /** `webhook_url` and `webhook_json` of the notifier configuration; absent means empty. */
  datatype NotifierConfig = NotifierConfig(webhookUrl: string, webhookJson: string)

  /** The fixed notification title. */
  const Title := "订阅监控通知"

  /** The payload used without a usable template. */
  function DefaultPayload(message: string): (p: Json)
    ensures p.JObj? && |p.members| == 2
    ensures p.members[0] == ("title", JStr(Title)) && p.members[1] == ("text", JStr(message))
  {
    JObj([("title", JStr(Title)), ("text", JStr(message))])
  }

  /** The placeholders, replaced in this order. */
  const TitlePlaceholder := "{title}"
  const ContentPlaceholder := "{content}"
  const MessagePlaceholder := "{通知消息}"

  /** The three replacements applied to the serialised template. */
  function Substitute(text: string, message: string): string {
    var withTitle := ReplaceAll(text, TitlePlaceholder, Title);
    var withContent := ReplaceAll(withTitle, ContentPlaceholder, message);
    ReplaceAll(withContent, MessagePlaceholder, message)
  }

  /** Each placeholder's opening brace does not recur in it, so its occurrences cannot overlap. */
  lemma PlaceholdersBorderFree()
    ensures BorderFree(TitlePlaceholder) && BorderFree(ContentPlaceholder) && BorderFree(MessagePlaceholder)
  {
    UniqueHeadBorderFree(TitlePlaceholder);
    UniqueHeadBorderFree(ContentPlaceholder);
    UniqueHeadBorderFree(MessagePlaceholder);
  }

  /** Text that holds none of the three placeholders passes through the substitution unchanged. */
  lemma SubstituteWithoutPlaceholders(text: string, message: string)
    requires NoOccurrence(text, TitlePlaceholder)
    requires NoOccurrence(text, ContentPlaceholder)
    requires NoOccurrence(text, MessagePlaceholder)
    ensures Substitute(text, message) == text
  {
    ReplaceAbsent(text, TitlePlaceholder, Title);
    ReplaceAbsent(text, ContentPlaceholder, message);
    ReplaceAbsent(text, MessagePlaceholder, message);
  }

  /** An occurrence of `p` in `a + q + b` that neither `a` nor `b` holds would have to overlap
      `q`; it cannot when `q`'s first character is not inside `p`, `p`'s first character is not
      inside `q`, and the two start differently. */
  lemma {:induction false} NoOccurrenceAround(a: string, q: string, b: string, p: string)
    requires |p| >= 2 && q != []
    requires NoOccurrence(a, p) && NoOccurrence(b, p)
    requires forall k :: 0 < k < |p| ==> p[k] != q[0]
    requires forall k :: 0 < k < |q| ==> q[k] != p[0]
    requires p[0] == q[0] ==> |q| >= 2 && p[1] != q[1]
    ensures NoOccurrence(a + q + b, p)
  {
    var s := a + q + b;
    forall j | 0 <= j <= |s| ensures !OccursAt(s, p, j) {
      if j + |p| <= |s| {
        var w := s[j..j + |p|];
        if j + |p| <= |a| {
          assert w == a[j..j + |p|];
          assert !OccursAt(a, p, j);
        } else if j < |a| {
          assert w[|a| - j] == q[0];
        } else if j == |a| {
          assert w[0] == q[0];
          if |q| >= 2 {
            assert w[1] == q[1];
          }
        } else if j < |a| + |q| {
          assert w[0] == q[j - |a|];
        } else {
          var i := j - |a| - |q|;
          assert w == b[i..i + |p|];
          assert !OccursAt(b, p, i);
        }
      }
    }
  }

  /** A pattern does not occur where its first character is never followed by its second. */
  lemma {:induction false} NeverOpened(s: string, p: string)
    requires |p| >= 2
    requires forall j :: 0 <= j < |s| - 1 && s[j] == p[0] ==> s[j + 1] != p[1]
    ensures NoOccurrence(s, p)
  {
    forall j | 0 <= j <= |s| ensures !OccursAt(s, p, j) {
      if j + |p| <= |s| {
        assert s[j..j + |p|][0] == s[j] && s[j..j + |p|][1] == s[j + 1];
      }
    }
  }

  /** A `{content}` slot receives the message verbatim, whatever braces the message or the
      surrounding template text hold, as long as the surroundings carry no other `{title}` or
      `{content}` and no `{通知消息}` forms once the message is in place. */
  lemma SubstituteContent(a: string, b: string, message: string)
    requires NoOccurrence(a, TitlePlaceholder) && NoOccurrence(b, TitlePlaceholder)
    requires NoOccurrence(a, ContentPlaceholder) && NoOccurrence(b, ContentPlaceholder)
    requires NoOccurrence(a + message + b, MessagePlaceholder)
    ensures Substitute(a + ContentPlaceholder + b, message) == a + message + b
  {
    PlaceholdersBorderFree();
    NoOccurrenceAround(a, ContentPlaceholder, b, TitlePlaceholder);
    ReplaceAbsent(a + ContentPlaceholder + b, TitlePlaceholder, Title);
    ReplaceOne(a, ContentPlaceholder, b, message);
    ReplaceAbsent(a + message + b, MessagePlaceholder, message);
  }

  /** A `{title}` slot receives the fixed title, whatever the message, in template text that
      carries no other placeholder. */
  lemma SubstituteTitle(a: string, b: string, message: string)
    requires NoOccurrence(a, TitlePlaceholder) && NoOccurrence(b, TitlePlaceholder)
    requires NoOccurrence(a, ContentPlaceholder) && NoOccurrence(b, ContentPlaceholder)
    requires NoOccurrence(a, MessagePlaceholder) && NoOccurrence(b, MessagePlaceholder)
    ensures Substitute(a + TitlePlaceholder + b, message) == a + Title + b
  {
    PlaceholdersBorderFree();
    ReplaceOne(a, TitlePlaceholder, b, Title);
    NoOccurrenceAround(a, Title, b, ContentPlaceholder);
    ReplaceAbsent(a + Title + b, ContentPlaceholder, message);
    NoOccurrenceAround(a, Title, b, MessagePlaceholder);
    ReplaceAbsent(a + Title + b, MessagePlaceholder, message);
  }

  /** The template `{"msg": "{content}"}` as `json.dumps` writes it with its default separators,
      a space after the colon. */
  const MessageTemplateOpen := "{\"msg\": \""
  const MessageTemplateClose := "\"}"

  /** With that template, the message `hello` renders as `{"msg": "hello"}`. */
  lemma SubstituteMessageTemplate()
    ensures Substitute(MessageTemplateOpen + ContentPlaceholder + MessageTemplateClose, "hello")
            == "{\"msg\": \"hello\"}"
  {
    QuoteAfterBrace(MessageTemplateOpen, TitlePlaceholder);
    QuoteAfterBrace(MessageTemplateOpen, ContentPlaceholder);
    HeadMissing(MessageTemplateClose, TitlePlaceholder);
    HeadMissing(MessageTemplateClose, ContentPlaceholder);
    var rendered := MessageTemplateOpen + "hello" + MessageTemplateClose;
    assert rendered == "{\"msg\": \"hello\"}";
    QuoteAfterBrace(rendered, MessagePlaceholder);
    SubstituteContent(MessageTemplateOpen, MessageTemplateClose, "hello");
  }

  /** In text whose only brace is a leading `{"`, no placeholder occurs. */
  lemma QuoteAfterBrace(s: string, p: string)
    requires |s| >= 2 && s[0] == '{' && s[1] == '"' && forall k :: 0 < k < |s| ==> s[k] != '{'
    requires |p| >= 2 && p[0] == '{' && p[1] != '"'
    ensures NoOccurrence(s, p)
  {
    NeverOpened(s, p);
  }

  /** Because the replacements run in sequence, a message that itself contains `{通知消息}`,
      inserted through `{content}`, is expanded once more by the third replacement. */
  lemma MessagePlaceholderExpandsTwice(x: string, y: string)
    requires NoOccurrence(x, MessagePlaceholder) && NoOccurrence(y, MessagePlaceholder)
    ensures var message := x + MessagePlaceholder + y;
      Substitute(ContentPlaceholder, message) == x + message + y
  {
    var message := x + MessagePlaceholder + y;
    ContentSlotSurvivesTitle();
    ContentSlotTakesMessage(message);
    MessageSlotExpands(x, y, message);
  }

  lemma ContentSlotSurvivesTitle()
    ensures ReplaceAll(ContentPlaceholder, TitlePlaceholder, Title) == ContentPlaceholder
  {
    assert [] + ContentPlaceholder + [] == ContentPlaceholder;
    NoOccurrenceAround([], ContentPlaceholder, [], TitlePlaceholder);
    ReplaceAbsent(ContentPlaceholder, TitlePlaceholder, Title);
  }

  lemma ContentSlotTakesMessage(message: string)
    ensures ReplaceAll(ContentPlaceholder, ContentPlaceholder, message) == message
  {
    PlaceholdersBorderFree();
    HeadMissing([], ContentPlaceholder);
    assert [] + ContentPlaceholder + [] == ContentPlaceholder;
    ReplaceOne([], ContentPlaceholder, [], message);
    assert [] + message + [] == message;
  }

  lemma MessageSlotExpands(x: string, y: string, message: string)
    requires NoOccurrence(x, MessagePlaceholder) && NoOccurrence(y, MessagePlaceholder)
    ensures ReplaceAll(x + MessagePlaceholder + y, MessagePlaceholder, message) == x + message + y
  {
    PlaceholdersBorderFree();
    ReplaceOne(x, MessagePlaceholder, y, message);
  }

  /** The body posted for `message`: the substituted template when both parses succeed, the
      default payload otherwise (a blank template, an unparsable template, or substituted text
      that no longer parses, e.g. because the message holds a quote). */
  function RenderPayload(rt: Runtime, template: string, message: string): (p: Json)
    ensures IsBlank(template) ==> p == DefaultPayload(message)
    ensures !IsBlank(template) && rt.loads(template).Err? ==> p == DefaultPayload(message)
    ensures !IsBlank(template) && rt.loads(template).Ok? ==>
      var substituted := Substitute(rt.dumps(rt.loads(template).value), message);
      && (rt.loads(substituted).Err? ==> p == DefaultPayload(message))
      && (rt.loads(substituted).Ok? ==> p == rt.loads(substituted).value)
  {
    if IsBlank(template) then DefaultPayload(message)
    else
      match rt.loads(template)
      case Err(_) => DefaultPayload(message)
      case Ok(parsed) =>
        match rt.loads(Substitute(rt.dumps(parsed), message))
        case Err(_) => DefaultPayload(message)
        case Ok(payload) => payload
  }

  /** A configured template whose serialisation has one `{content}` slot posts the template
      with the message in that slot, or the default payload when that text does not parse. */
  lemma RenderContentSlot(rt: Runtime, template: string, a: string, b: string, message: string)
    requires !IsBlank(template) && rt.loads(template).Ok?
    requires rt.dumps(rt.loads(template).value) == a + ContentPlaceholder + b
    requires NoOccurrence(a, TitlePlaceholder) && NoOccurrence(b, TitlePlaceholder)
    requires NoOccurrence(a, ContentPlaceholder) && NoOccurrence(b, ContentPlaceholder)
    requires NoOccurrence(a + message + b, MessagePlaceholder)
    ensures rt.loads(a + message + b).Ok? ==> RenderPayload(rt, template, message) == rt.loads(a + message + b).value
    ensures rt.loads(a + message + b).Err? ==> RenderPayload(rt, template, message) == DefaultPayload(message)
  {
    SubstituteContent(a, b, message);
  }

  /** The outcome of a notification: whether it was delivered, and the requests sent. */
  datatype Delivery = Delivery(delivered: bool, sent: seq<Request>)

  /** `send_notification`: nothing is sent without a webhook URL; otherwise one POST of the
      rendered payload, delivered exactly when the reply status is 200; no failure escapes. */
  function SendNotification(rt: Runtime, config: NotifierConfig, message: string, transport: Transport): (d: Delivery)
    ensures config.webhookUrl == [] ==> d == Delivery(false, [])
    ensures config.webhookUrl != [] ==>
      && d.sent == [Request(POST, config.webhookUrl, map["Content-Type" := "application/json"], map[],
                            Some(RenderPayload(rt, config.webhookJson, message)))]
      && (d.delivered <==> transport(d.sent[0]).Responded? && transport(d.sent[0]).response.status == 200)
  {
    if config.webhookUrl == [] then Delivery(false, [])
    else
      var request := Request(POST, config.webhookUrl, map["Content-Type" := "application/json"], map[],
                             Some(RenderPayload(rt, config.webhookJson, message)));
      var delivered :=
        match transport(request)
        case Responded(response) => response.status == 200
        case _ => false;
      Delivery(delivered, [request])
  }

  const AuthFailureHead: string := "⚠️ Office 365 订阅监控告警\n\n订阅名称: "
  const AuthFailureTail: string := "\n状态: Cookie 已失效\n原因: 认证失败，请更新 Cookie 信息"
  const ExpiredHead: string := "❌ Office 365 订阅监控告警\n\n订阅名称: "
  const ExpiredTail: string := "\n状态: 订阅已失效\n请及时处理"
  const WarningHead: string := "⏰ Office 365 订阅监控提醒\n\n订阅名称: "
  const WarningMiddle: string := "\n状态: 即将到期\n剩余天数: "
  const WarningTail: string := " 天\n请及时续费"

  function AuthFailureText(subscriptionName: string): string {
    AuthFailureHead + subscriptionName + AuthFailureTail
  }

  function ExpiredText(subscriptionName: string): string {
    ExpiredHead + subscriptionName + ExpiredTail
  }

  function ExpirationWarningText(subscriptionName: string, daysRemaining: int): string {
    WarningHead + subscriptionName + WarningMiddle + IntToString(daysRemaining) + WarningTail
  }

  /** Each alert names the subscription; the expiration warning also carries the remaining days. */
  lemma AlertsNameSubscription(subscriptionName: string, daysRemaining: int)
    ensures Contains(AuthFailureText(subscriptionName), subscriptionName)
    ensures Contains(ExpiredText(subscriptionName), subscriptionName)
    ensures Contains(ExpirationWarningText(subscriptionName, daysRemaining), subscriptionName)
    ensures Contains(ExpirationWarningText(subscriptionName, daysRemaining), IntToString(daysRemaining))
  {
    ContainsInfix(AuthFailureHead, subscriptionName, AuthFailureTail);
    ContainsInfix(ExpiredHead, subscriptionName, ExpiredTail);
    WarningCarriesNameAndDays(subscriptionName, IntToString(daysRemaining));
  }

  lemma WarningCarriesNameAndDays(name: string, days: string)
    ensures Contains(WarningHead + name + WarningMiddle + days + WarningTail, name)
    ensures Contains(WarningHead + name + WarningMiddle + days + WarningTail, days)
  {
    var text := WarningHead + name + WarningMiddle + days + WarningTail;
    assert text == WarningHead + name + (WarningMiddle + days + WarningTail);
    ContainsInfix(WarningHead, name, WarningMiddle + days + WarningTail);
    ContainsInfix(WarningHead + name + WarningMiddle, days, WarningTail);
  }

  /** `notify_auth_failure`, `notify_subscription_expired`, `notify_expiration_warning`: the
      alert text sent through the notifier. */
  function NotifyAuthFailure(rt: Runtime, config: NotifierConfig, subscriptionName: string, transport: Transport): (d: Delivery)
    ensures config.webhookUrl == [] ==> !d.delivered && d.sent == []
    ensures config.webhookUrl != [] ==>
      && |d.sent| == 1 && d.sent[0].verb == POST && d.sent[0].url == config.webhookUrl
      && d.sent[0].body == Some(RenderPayload(rt, config.webhookJson, AuthFailureText(subscriptionName)))
      && d.sent[0].headers == map["Content-Type" := "application/json"] && d.sent[0].cookies == map[]
      && (d.delivered <==> transport(d.sent[0]).Responded? && transport(d.sent[0]).response.status == 200)
    ensures d.delivered ==> transport(d.sent[0]).Responded? && transport(d.sent[0]).response.status == 200
    ensures Contains(AuthFailureText(subscriptionName), subscriptionName)
  {
    AlertsNameSubscription(subscriptionName, 0);
    SendNotification(rt, config, AuthFailureText(subscriptionName), transport)
  }

  function NotifySubscriptionExpired(rt: Runtime, config: NotifierConfig, subscriptionName: string, transport: Transport): (d: Delivery)
    ensures config.webhookUrl == [] ==> !d.delivered && d.sent == []
    ensures config.webhookUrl != [] ==>
      && |d.sent| == 1 && d.sent[0].verb == POST && d.sent[0].url == config.webhookUrl
      && d.sent[0].body == Some(RenderPayload(rt, config.webhookJson, ExpiredText(subscriptionName)))
      && d.sent[0].headers == map["Content-Type" := "application/json"] && d.sent[0].cookies == map[]
      && (d.delivered <==> transport(d.sent[0]).Responded? && transport(d.sent[0]).response.status == 200)
    ensures d.delivered ==> transport(d.sent[0]).Responded? && transport(d.sent[0]).response.status == 200
    ensures Contains(ExpiredText(subscriptionName), subscriptionName)
  {
    AlertsNameSubscription(subscriptionName, 0);
    SendNotification(rt, config, ExpiredText(subscriptionName), transport)
  }

  function NotifyExpirationWarning(rt: Runtime, config: NotifierConfig, subscriptionName: string, daysRemaining: int,
                                   transport: Transport): (d: Delivery)
    ensures config.webhookUrl == [] ==> !d.delivered && d.sent == []
    ensures config.webhookUrl != [] ==>
      && |d.sent| == 1 && d.sent[0].verb == POST && d.sent[0].url == config.webhookUrl
      && d.sent[0].body == Some(RenderPayload(rt, config.webhookJson, ExpirationWarningText(subscriptionName, daysRemaining)))
      && d.sent[0].headers == map["Content-Type" := "application/json"] && d.sent[0].cookies == map[]
      && (d.delivered <==> transport(d.sent[0]).Responded? && transport(d.sent[0]).response.status == 200)
    ensures d.delivered ==> transport(d.sent[0]).Responded? && transport(d.sent[0]).response.status == 200
    ensures Contains(ExpirationWarningText(subscriptionName, daysRemaining), subscriptionName)
    ensures Contains(ExpirationWarningText(subscriptionName, daysRemaining), IntToString(daysRemaining))
  {
    AlertsNameSubscription(subscriptionName, daysRemaining);
    SendNotification(rt, config, ExpirationWarningText(subscriptionName, daysRemaining), transport)
  }
}

=== FILE: text.dfy ===
/** Python string operations the admin client relies on, written out with Python's
    exact semantics: `str.strip()`, `in`, `str.split(sep)`, `sep.join(parts)`,
    `str.replace(pat, repl)`, `s[:n]`, ASCII `str.lower()` and `str(int)`. */
module Text {
  import opened Base

  /** Python's `str.isspace()` (also what `\s` matches in a `re` pattern on `str`). */
  predicate IsSpace(c: char) {
    || c == ' '
    || ('\t' <= c <= '\r')
    || ('\U{1c}' <= c <= '\U{1f}')
    || c == '\U{85}' || c == '\U{a0}' || c == '\U{1680}'
    || ('\U{2000}' <= c <= '\U{200a}')
    || c == '\U{2028}' || c == '\U{2029}' || c == '\U{202f}' || c == '\U{205f}' || c == '\U{3000}'
  }

  predicate AllSpace(s: string) {
    forall i :: 0 <= i < |s| ==> IsSpace(s[i])
  }

  /** Length of the maximal run of whitespace starting at `from`. */
  function SpaceRun(s: string, from: nat): (n: nat)
    requires from <= |s|
    ensures from + n <= |s|
    ensures forall k :: from <= k < from + n ==> IsSpace(s[k])
    ensures from + n == |s| || !IsSpace(s[from + n])
    decreases |s| - from
  {
    if from == |s| || !IsSpace(s[from]) then 0 else 1 + SpaceRun(s, from + 1)
  }

  /** Length of the maximal run of whitespace ending at `upto`. */
  function SpaceRunBack(s: string, upto: nat): (n: nat)
    requires upto <= |s|
    ensures n <= upto
    ensures forall k :: upto - n <= k < upto ==> IsSpace(s[k])
    ensures n == upto || !IsSpace(s[upto - n - 1])
    decreases upto
  {
    if upto == 0 || !IsSpace(s[upto - 1]) then 0 else 1 + SpaceRunBack(s, upto - 1)
  }

  /** Python's `s.strip()`: whitespace removed from both ends and nothing else. */
  function Strip(s: string): (r: string)
    ensures |r| <= |s|
    ensures r == [] || (!IsSpace(r[0]) && !IsSpace(r[|r| - 1]))
    ensures r == [] <==> AllSpace(s)
    ensures exists lo, hi :: 0 <= lo <= hi <= |s| && r == s[lo..hi] && AllSpace(s[..lo]) && AllSpace(s[hi..])
  {
    var lo := SpaceRun(s, 0);
    if lo == |s| then
      assert AllSpace(s[..lo]) && AllSpace(s[lo..]);
      s[lo..lo]
    else
      var back := SpaceRunBack(s, |s|);
      var hi := |s| - back;
      assert !IsSpace(s[lo]);
      assert lo < hi;
      assert !AllSpace(s);
      assert AllSpace(s[..lo]) && AllSpace(s[hi..]);
      s[lo..hi]
  }

  /** Python's `not s or s.strip() == ''`. */
  predicate IsBlank(s: string) {
    Strip(s) == []
  }

  lemma BlankIffAllSpace(s: string)
    ensures IsBlank(s) <==> AllSpace(s)
  {
  }

  predicate OccursAt(s: string, p: string, i: int) {
    0 <= i && i + |p| <= |s| && s[i..i + |p|] == p
  }

  predicate NoOccurrence(s: string, p: string) {
    forall j :: 0 <= j <= |s| ==> !OccursAt(s, p, j)
  }

  /** Index of the leftmost occurrence of `p` in `s` (Python's `s.find(p)`, with `None` for -1). */
  function IndexOf(s: string, p: string): (r: Option<nat>)
    ensures r.Some? ==> OccursAt(s, p, r.value)
    ensures r.Some? ==> forall j :: 0 <= j < r.value ==> !OccursAt(s, p, j)
    ensures r.None? <==> NoOccurrence(s, p)
    decreases |s|
  {
    if |s| < |p| then None
    else if s[..|p|] == p then Some(0)
    else
      assert !OccursAt(s, p, 0);
      match IndexOf(s[1..], p)
      case None =>
        forall j | 1 <= j && j + |p| <= |s| ensures OccursAt(s, p, j) == OccursAt(s[1..], p, j - 1) {
          SliceOfTail(s, j, |p|);
        }
        None
      case Some(k) =>
        SliceOfTail(s, k + 1, |p|);
        forall j | 1 <= j <= k ensures OccursAt(s, p, j) == OccursAt(s[1..], p, j - 1) {
          SliceOfTail(s, j, |p|);
        }
        assert OccursAt(s, p, k + 1) && k + 1 <= |s|;
        Some(k + 1)
  }

  lemma SliceOfTail(s: string, j: nat, n: nat)
    requires 1 <= j && j + n <= |s|
    ensures s[1..][j - 1..j - 1 + n] == s[j..j + n]
  {
  }

  /** A one-character pattern occurs exactly where that character stands. */
  lemma OccursChar(s: string, c: char, i: int)
    ensures OccursAt(s, [c], i) <==> 0 <= i < |s| && s[i] == c
  {
    if 0 <= i < |s| {
      assert s[i..i + 1] == [s[i]];
    }
  }

  lemma NoOccurrenceChar(s: string, c: char)
    ensures NoOccurrence(s, [c]) <==> c !in s
  {
    forall i | 0 <= i <= |s| {
      OccursChar(s, c, i);
    }
    if c in s {
      var i :| 0 <= i < |s| && s[i] == c;
      OccursChar(s, c, i);
    }
  }

  /** A two-character pattern occurs exactly where its two characters stand side by side. */
  lemma OccursPair(s: string, a: char, b: char, i: int)
    ensures OccursAt(s, [a, b], i) <==> 0 <= i && i + 2 <= |s| && s[i] == a && s[i + 1] == b
  {
    if 0 <= i && i + 2 <= |s| {
      assert s[i..i + 2] == [s[i], s[i + 1]];
    }
  }

  /** Python's `p in s` for strings. */
  predicate Contains(s: string, p: string) {
    IndexOf(s, p).Some?
  }

  lemma ContainsAt(s: string, p: string, i: int)
    requires OccursAt(s, p, i)
    ensures Contains(s, p)
  {
  }

  /** Any string contains itself framed by arbitrary context. */
  lemma ContainsInfix(a: string, b: string, c: string)
    ensures Contains(a + b + c, b)
  {
    assert (a + b + c)[|a|..|a| + |b|] == b;
    ContainsAt(a + b + c, b, |a|);
  }

  /** `sep.join(parts)`. */
  function Join(parts: seq<string>, sep: string): string
    decreases |parts|
  {
    if |parts| == 0 then []
    else if |parts| == 1 then parts[0]
    else parts[0] + sep + Join(parts[1..], sep)
  }

  /** Python's `s.split(sep)` for a non-empty separator: the pieces between the
      non-overlapping occurrences of `sep`, found left to right. */
  function Split(s: string, sep: string): (parts: seq<string>)
    requires sep != []
    ensures |parts| >= 1
    ensures forall k :: 0 <= k < |parts| ==> NoOccurrence(parts[k], sep)
    ensures Join(parts, sep) == s
    decreases |s|
  {
    match IndexOf(s, sep)
    case None => [s]
    case Some(i) =>
      var head := s[..i];
      var rest := Split(s[i + |sep|..], sep);
      assert NoOccurrence(head, sep) by {
        forall j | OccursAt(head, sep, j) ensures false {
          assert s[j..j + |sep|] == head[j..j + |sep|];
          assert OccursAt(s, sep, j);
        }
      }
      assert s == head + sep + s[i + |sep|..];
      [head] + rest
  }

  /** `sep` has no proper prefix that is also a suffix, so two occurrences can never overlap. */
  predicate BorderFree(sep: string) {
    forall n :: 0 < n < |sep| ==> sep[..n] != sep[|sep| - n..]
  }

  /** A separator whose first character never recurs is border-free. */
  lemma UniqueHeadBorderFree(sep: string)
    requires sep != []
    requires forall k :: 0 < k < |sep| ==> sep[k] != sep[0]
    ensures BorderFree(sep)
  {
    forall n | 0 < n < |sep| ensures sep[..n] != sep[|sep| - n..] {
      assert sep[..n][0] == sep[0];
      assert sep[|sep| - n..][0] == sep[|sep| - n];
    }
  }

  /** With a border-free separator and a separator-free head, the first occurrence of the
      separator in `head + sep + tail` is the one right after `head`. */
  lemma {:induction false} FirstSeparator(head: string, sep: string, tail: string)
    requires sep != [] && BorderFree(sep) && NoOccurrence(head, sep)
    ensures IndexOf(head + sep + tail, sep) == Some(|head|)
  {
    var w := head + sep + tail;
    assert w[|head|..|head| + |sep|] == sep;
    assert OccursAt(w, sep, |head|);
    forall j | 0 <= j < |head| ensures !OccursAt(w, sep, j) {
      if j + |sep| <= |head| {
        assert head[j..j + |sep|] == w[j..j + |sep|];
        assert !OccursAt(head, sep, j);
      } else if j + |sep| <= |w| {
        var n := j + |sep| - |head|;
        assert 0 < n < |sep|;
        assert sep[..n] != sep[|sep| - n..];
        var t :| 0 <= t < n && sep[..n][t] != sep[|sep| - n..][t];
        assert w[|head| + t] == sep[t];
        assert w[j..j + |sep|][|head| - j + t] == w[|head| + t];
        assert w[j..j + |sep|][|head| - j + t] != sep[|head| - j + t];
      }
    }
  }

  /** Splitting peels off a separator-free head. */
  lemma {:induction false} SplitCons(head: string, sep: string, tail: string)
    requires sep != [] && BorderFree(sep) && NoOccurrence(head, sep)
    ensures Split(head + sep + tail, sep) == [head] + Split(tail, sep)
  {
    var w := head + sep + tail;
    FirstSeparator(head, sep, tail);
    assert w[..|head|] == head;
    assert w[|head| + |sep|..] == tail;
  }

  lemma SplitSingle(s: string, sep: string)
    requires sep != [] && NoOccurrence(s, sep)
    ensures Split(s, sep) == [s]
  {
  }

  /** Splitting undoes joining separator-free pieces: the inverse of `Split`'s own
      `Join(Split(s)) == s`. */
  lemma {:induction false} SplitJoin(parts: seq<string>, sep: string)
    requires sep != [] && BorderFree(sep) && |parts| >= 1
    requires forall k :: 0 <= k < |parts| ==> NoOccurrence(parts[k], sep)
    ensures Split(Join(parts, sep), sep) == parts
    decreases |parts|
  {
    if |parts| == 1 {
      SplitSingle(parts[0], sep);
    } else {
      SplitCons(parts[0], sep, Join(parts[1..], sep));
      SplitJoin(parts[1..], sep);
      assert parts == [parts[0]] + parts[1..];
    }
  }

  /** Each part of a join sits between some prefix and some suffix of the joined text. */
  lemma {:induction false} JoinInfix(parts: seq<string>, sep: string, k: nat) returns (pre: string, post: string)
    requires k < |parts|
    ensures Join(parts, sep) == pre + parts[k] + post
    decreases |parts|
  {
    if |parts| == 1 {
      pre, post := [], [];
    } else if k == 0 {
      pre, post := [], sep + Join(parts[1..], sep);
    } else {
      var pre', post' := JoinInfix(parts[1..], sep, k - 1);
      pre, post := parts[0] + sep + pre', post';
    }
  }

  /** Python's `s.replace(pat, repl)`: every non-overlapping occurrence of `pat`, left to right, becomes `repl`. */
  function ReplaceAll(s: string, pat: string, repl: string): string
    requires pat != []
  {
    Join(Split(s, pat), repl)
  }

  lemma ReplaceAbsent(s: string, pat: string, repl: string)
    requires pat != [] && NoOccurrence(s, pat)
    ensures ReplaceAll(s, pat, repl) == s
  {
    SplitSingle(s, pat);
  }

  /** One occurrence of a border-free pattern between pattern-free context is replaced exactly. */
  lemma {:induction false} ReplaceOne(a: string, pat: string, b: string, repl: string)
    requires pat != [] && BorderFree(pat) && NoOccurrence(a, pat) && NoOccurrence(b, pat)
    ensures ReplaceAll(a + pat + b, pat, repl) == a + repl + b
  {
    SplitCons(a, pat, b);
    SplitSingle(b, pat);
    var parts := Split(a + pat + b, pat);
    assert parts == [a, b];
    assert parts[1..] == [b];
    assert Join(parts, repl) == a + repl + Join([b], repl);
  }

  /** A pattern whose first character does not occur in `s` does not occur in `s`. */
  lemma HeadMissing(s: string, p: string)
    requires p != [] && p[0] !in s
    ensures NoOccurrence(s, p)
  {
    forall j | 0 <= j <= |s| ensures !OccursAt(s, p, j) {
      if j + |p| <= |s| {
        assert s[j..j + |p|][0] == s[j];
      }
    }
  }

  /** Joining with separators of equal length gives strings of equal length. */
  lemma {:induction false} JoinSameLength(parts: seq<string>, a: string, b: string)
    requires |a| == |b|
    ensures |Join(parts, a)| == |Join(parts, b)|
    decreases |parts|
  {
    if |parts| > 1 {
      JoinSameLength(parts[1..], a, b);
    }
  }

  /** A character absent from every part and from the separator is absent from the join. */
  lemma {:induction false} JoinAvoids(parts: seq<string>, sep: string, c: char)
    requires c !in sep
    requires forall i :: 0 <= i < |parts| ==> c !in parts[i]
    ensures c !in Join(parts, sep)
    decreases |parts|
  {
    if |parts| > 1 {
      JoinAvoids(parts[1..], sep, c);
    }
  }

  /** `s.replace(a, b)` for single characters replaces each `a` by `b` and keeps every other
      character where it was. */
  lemma {:induction false} ReplaceChar(s: string, a: char, b: char)
    ensures |ReplaceAll(s, [a], [b])| == |s|
    ensures forall i :: 0 <= i < |s| ==> ReplaceAll(s, [a], [b])[i] == (if s[i] == a then b else s[i])
    ensures a != b ==> a !in ReplaceAll(s, [a], [b])
    decreases |s|
  {
    var r := ReplaceAll(s, [a], [b]);
    match IndexOf(s, [a])
    case None =>
      NoOccurrenceChar(s, a);
      ReplaceAbsent(s, [a], [b]);
    case Some(k) =>
      ReplaceCharAtFirst(s, a, b, k);
      ReplaceChar(s[k + 1..], a, b);
      MappedAfterFirst(s, r, ReplaceAll(s[k + 1..], [a], [b]), k, a, b);
  }

  /** Replacing a character splits the text at its first occurrence `k`. */
  lemma ReplaceCharAtFirst(s: string, a: char, b: char, k: nat)
    requires IndexOf(s, [a]) == Some(k)
    ensures k < |s| && s[k] == a
    ensures forall j :: 0 <= j < k ==> s[j] != a
    ensures ReplaceAll(s, [a], [b]) == s[..k] + [b] + ReplaceAll(s[k + 1..], [a], [b])
  {
    OccursChar(s, a, k);
    forall j | 0 <= j < k ensures s[j] != a {
      OccursChar(s, a, j);
    }
    var rest := Split(s[k + 1..], [a]);
    assert Split(s, [a]) == [s[..k]] + rest;
    assert ([s[..k]] + rest)[1..] == rest;
  }

  /** If `r` is `s` up to its first `a`, then `b`, then a character-wise replacement `t` of the
      rest, `r` is the character-wise replacement of `s`. */
  lemma MappedAfterFirst(s: string, r: string, t: string, k: nat, a: char, b: char)
    requires k < |s| && s[k] == a && forall j :: 0 <= j < k ==> s[j] != a
    requires r == s[..k] + [b] + t
    requires |t| == |s| - k - 1
    requires forall i :: 0 <= i < |t| ==> t[i] == (if s[k + 1 + i] == a then b else s[k + 1 + i])
    requires a != b ==> a !in t
    ensures |r| == |s|
    ensures forall i :: 0 <= i < |s| ==> r[i] == (if s[i] == a then b else s[i])
    ensures a != b ==> a !in r
  {
    forall i | 0 <= i < |s| ensures r[i] == (if s[i] == a then b else s[i]) {
      if i > k {
        assert r[i] == t[i - k - 1];
      }
    }
  }

  /** Python's `s[:n]`. */
  function Take(s: string, n: nat): (r: string)
    ensures |r| <= n && |r| <= |s|
    ensures r == s[..|r|]
    ensures |s| <= n ==> r == s
  {
    if |s| <= n then s else s[..n]
  }

  /** `str.lower()` restricted to ASCII letters. */
  function LowerChar(c: char): char {
    if 'A' <= c <= 'Z' then (c as int - 'A' as int + 'a' as int) as char else c
  }

  function Lower(s: string): (r: string)
    ensures |r| == |s|
    ensures forall i :: 0 <= i < |s| ==> r[i] == LowerChar(s[i])
  {
    seq(|s|, i requires 0 <= i < |s| => LowerChar(s[i]))
  }

  /** Python's case-insensitive containment `needle.lower() in hay.lower()`. */
  predicate ContainsIgnoringCase(hay: string, needle: string) {
    Contains(Lower(hay), Lower(needle))
  }

  function DigitChar(d: nat): char
    requires d < 10
  {
    ('0' as int + d) as char
  }

  predicate IsDigit(c: char) {
    '0' <= c <= '9'
  }

  /** Decimal value of a digit string. */
  function DigitsValue(s: string): nat
    requires forall i :: 0 <= i < |s| ==> IsDigit(s[i])
    decreases |s|
  {
    if s == [] then 0
    else
      assert IsDigit(s[|s| - 1]);
      10 * DigitsValue(s[..|s| - 1]) + (s[|s| - 1] as int - '0' as int)
  }

  /** `str(n)` for a natural number. */
  function NatToString(n: nat): (r: string)
    ensures r != []
    ensures forall i :: 0 <= i < |r| ==> IsDigit(r[i])
    decreases n
  {
    if n < 10 then [DigitChar(n)] else NatToString(n / 10) + [DigitChar(n % 10)]
  }

  /** `str(n)` reads back as `n`. */
  lemma {:induction false} NatToStringValue(n: nat)
    ensures DigitsValue(NatToString(n)) == n
    decreases n
  {
    if n >= 10 {
      NatToStringValue(n / 10);
      var r := NatToString(n);
      assert r[..|r| - 1] == NatToString(n / 10);
    }
  }

  /** `str(n)` for any integer (a leading `-` for negatives). */
  function IntToString(n: int): (r: string)
    ensures r != []
    ensures n >= 0 ==> r == NatToString(n)
    ensures n < 0 ==> r[0] == '-' && r[1..] == NatToString(-n)
  {
    if n >= 0 then NatToString(n) else "-" + NatToString(-n)
  }
}

=== FILE: user_activation.dfy ===
/** Office activation lookups: the per-user installs endpoint, its parser, the batch filter
    over the user listing, the user lookup by search text and the notification text. */
module UserActivation {
  import opened Base
  import opened Text
  import opened JsonValue
  import opened Http
  import opened Admin
  import opened Cookies
  import opened UserLister

  /** The device families the installs endpoint reports, by code. */
  datatype MachineType = Windows | Mac | Mobile | Tablet | IOS | Android | UnknownType
  {
    function Label(): string {
      match this
      case Windows => "Windows"
      case Mac => "Mac"
      case Mobile => "Mobile"
      case Tablet => "Tablet"
      case IOS => "iOS"
      case Android => "Android"
      case UnknownType => "未知"
    }

    /** The code the endpoint uses for this family; none for the unknown label. */
    function Code(): Option<int> {
      match this
      case Windows => Some(1)
      case Mac => Some(2)
      case Mobile => Some(3)
      case Tablet => Some(4)
      case IOS => Some(5)
      case Android => Some(6)
      case UnknownType => None
    }
  }

  /** The code-to-label map; codes outside 1..6 are unknown. */
  function MachineTypeOf(code: int): (t: MachineType)
    ensures t.UnknownType? <==> !(1 <= code <= 6)
    ensures 1 <= code <= 6 ==> t.Code() == Some(code)
    ensures t.Label() == "未知" <==> t.UnknownType?
  {
    if code == 1 then Windows
    else if code == 2 then Mac
    else if code == 3 then Mobile
    else if code == 4 then Tablet
    else if code == 5 then IOS
    else if code == 6 then Android
    else UnknownType
  }

  /** Every known family is the image of its own code. */
  lemma MachineTypeCodes(t: MachineType)
    ensures t.Code().Some? ==> MachineTypeOf(t.Code().value) == t
    ensures t.Code().None? <==> t.UnknownType?
  {
    match t
    case Windows =>
    case Mac =>
    case Mobile =>
    case Tablet =>
    case IOS =>
    case Android =>
    case UnknownType =>
  }

  /** Licence states by code. */
  datatype LicenseState = NotActivated | Activated | UnknownState
  {
    function Label(): string {
      match this
      case NotActivated => "未激活"
      case Activated => "已激活"
      case UnknownState => "未知"
    }
  }

  function LicenseStateOf(code: int): (s: LicenseState)
    ensures s.NotActivated? <==> code == 0
    ensures s.Activated? <==> code == 1
    ensures s.UnknownState? <==> code != 0 && code != 1
  {
    if code == 0 then NotActivated else if code == 1 then Activated else UnknownState
  }

  /** `machine_type_map.get(code, '未知')`: a JSON `true` is the key 1; a list or object key
      raises TypeError (`None`). */
  function MachineTypeFor(code: Json): (r: Option<MachineType>)
    ensures r.None? <==> AsDictKey(code).Unhashable?
    ensures r.Some? && !r.value.UnknownType? ==> EqualsInt(code, r.value.Code().value)
    ensures AsDictKey(code).IntKey? ==> r == Some(MachineTypeOf(AsDictKey(code).n))
    ensures AsDictKey(code).OtherKey? ==> r == Some(UnknownType)
  {
    match AsDictKey(code)
    case IntKey(n) => Some(MachineTypeOf(n))
    case OtherKey => Some(UnknownType)
    case Unhashable => None
  }

  /** `license_status_map.get(code, '未知')`, under the same key rules. */
  function LicenseStateFor(code: Json): (r: Option<LicenseState>)
    ensures r.None? <==> AsDictKey(code).Unhashable?
    ensures r == Some(Activated) <==> EqualsInt(code, 1)
    ensures r == Some(NotActivated) <==> EqualsInt(code, 0)
  {
    match AsDictKey(code)
    case IntKey(n) => Some(LicenseStateOf(n))
    case OtherKey => Some(UnknownState)
    case Unhashable => None
  }

  /** One parsed device; the raw codes are kept alongside the labels. */
  datatype Machine = Machine(
    name: Json,
    os: Json,
    machineType: MachineType,
    typeCode: Json,
    licenseState: LicenseState,
    stateCode: Json,
    lastRequested: Json,
    officeVersion: Json)

  function ParseMachine(machine: Members): (r: Option<Machine>)
    ensures r.Some? ==> r.value.typeCode == GetOr(machine, "MachineType", JNum(0))
                        && r.value.stateCode == GetOr(machine, "LicenseStatus", JNum(0))
                        && Some(r.value.machineType) == MachineTypeFor(r.value.typeCode)
                        && Some(r.value.licenseState) == LicenseStateFor(r.value.stateCode)
    ensures r.Some? ==> && r.value.name == GetOr(machine, "MachineName", JStr("未知"))
                        && r.value.os == GetOr(machine, "MachineOs", JStr("未知"))
                        && r.value.lastRequested == GetOr(machine, "LastLicenseRequestedDate", JStr(""))
                        && r.value.officeVersion == GetOr(machine, "OfficeMajorVersion", JNum(0))
    ensures r.Some? && Get(machine, "MachineName").None? ==> r.value.name == JStr("未知")
    ensures r.Some? && Get(machine, "MachineOs").None? ==> r.value.os == JStr("未知")
    ensures r.Some? && Get(machine, "LastLicenseRequestedDate").None? ==> r.value.lastRequested == JStr("")
    ensures r.Some? && Get(machine, "OfficeMajorVersion").None? ==> r.value.officeVersion == JNum(0)
    ensures r.None? <==> MachineTypeFor(GetOr(machine, "MachineType", JNum(0))).None?
                         || LicenseStateFor(GetOr(machine, "LicenseStatus", JNum(0))).None?
  {
    var typeCode := GetOr(machine, "MachineType", JNum(0));
    var stateCode := GetOr(machine, "LicenseStatus", JNum(0));
    match (MachineTypeFor(typeCode), LicenseStateFor(stateCode))
    case (Some(kind), Some(state)) =>
      Some(Machine(
        GetOr(machine, "MachineName", JStr("未知")), GetOr(machine, "MachineOs", JStr("未知")),
        kind, typeCode, state, stateCode,
        GetOr(machine, "LastLicenseRequestedDate", JStr("")), GetOr(machine, "OfficeMajorVersion", JNum(0))))
    case _ => None
  }

  /** One element of the `Machines` list; anything but an object raises AttributeError. */
  function ParseEntry(entry: Json): Option<Machine> {
    if entry.JObj? then ParseMachine(entry.members) else None
  }

  /** The machine list, in input order; `None` when any entry raises. */
  function ParseMachines(machines: seq<Json>): (r: Option<seq<Machine>>)
    ensures r.Some? <==> forall i :: 0 <= i < |machines| ==> machines[i].JObj? && ParseMachine(machines[i].members).Some?
    ensures r.Some? ==> |r.value| == |machines|
    ensures r.Some? ==> forall i :: 0 <= i < |machines| ==> r.value[i] == ParseEntry(machines[i]).value
  {
    MapAll(machines, ParseEntry)
  }

  /** A user's activation summary. */
  datatype ActivationInfo = ActivationInfo(
    activeComputers: Json,
    totalComputers: Json,
    activeDevices: Json,
    totalDevices: Json,
    machines: seq<Machine>)

  /** The all-zero summary returned for no data and on any parse error. */
  const NoActivation := ActivationInfo(JNum(0), JNum(0), JNum(0), JNum(0), [])

  /** The summary for one `MachineDetails` object; `None` when parsing raises. */
  function ParseDetails(details: Members): (r: Option<ActivationInfo>)
    ensures r.Some? <==> Iterate(GetOr(details, "Machines", JArr([]))).Some?
                         && ParseMachines(Iterate(GetOr(details, "Machines", JArr([]))).value).Some?
    ensures r.Some? ==> r.value.machines == ParseMachines(Iterate(GetOr(details, "Machines", JArr([]))).value).value
    ensures r.Some? && Get(details, "ActiveComputers").None? ==> r.value.activeComputers == JNum(0)
    ensures r.Some? && Get(details, "TotalComputers").None? ==> r.value.totalComputers == JNum(0)
    ensures r.Some? && Get(details, "ActiveDevices").None? ==> r.value.activeDevices == JNum(0)
    ensures r.Some? && Get(details, "TotalDevices").None? ==> r.value.totalDevices == JNum(0)
    ensures r.Some? ==> && r.value.activeComputers == GetOr(details, "ActiveComputers", JNum(0))
                        && r.value.totalComputers == GetOr(details, "TotalComputers", JNum(0))
                        && r.value.activeDevices == GetOr(details, "ActiveDevices", JNum(0))
                        && r.value.totalDevices == GetOr(details, "TotalDevices", JNum(0))
  {
    match Iterate(GetOr(details, "Machines", JArr([])))
    case None => None
    case Some(list) =>
      match ParseMachines(list)
      case None => None
      case Some(machines) =>
        Some(ActivationInfo(
          GetOr(details, "ActiveComputers", JNum(0)), GetOr(details, "TotalComputers", JNum(0)),
          GetOr(details, "ActiveDevices", JNum(0)), GetOr(details, "TotalDevices", JNum(0)), machines))
  }

  /** The `MachineDetails` of the first `SoftwareMachineDetails` entry; `None` when there is
      none or reaching it raises (a string, object or number in place of the list, a non-object
      first entry or details value). */
  function DetailsOf(response: Json): (r: Option<Members>)
    ensures r.Some? ==> response.JObj?
    ensures response.JObj? && !Truthy(GetOr(response.members, "SoftwareMachineDetails", JArr([]))) ==> r.None?
    ensures r.Some? <==>
      && response.JObj?
      && var entries := GetOr(response.members, "SoftwareMachineDetails", JArr([]));
      && entries.JArr? && entries.elems != [] && entries.elems[0].JObj?
      && GetOr(entries.elems[0].members, "MachineDetails", JObj([])).JObj?
    ensures r.Some? ==>
      var first := GetOr(response.members, "SoftwareMachineDetails", JArr([])).elems[0];
      r.value == GetOr(first.members, "MachineDetails", JObj([])).members
  {
    match response
    case JObj(m) =>
      (match GetOr(m, "SoftwareMachineDetails", JArr([]))
       case JArr(entries) =>
         if entries == [] then None
         else
           (match entries[0]
            case JObj(first) =>
              (match GetOr(first, "MachineDetails", JObj([]))
               case JObj(details) => Some(details)
               case _ => None)
            case _ => None)
       case _ => None)
    case _ => None
  }

  /** `parse_activation_response`: the summary of the first details entry, or the all-zero
      summary whenever there is none or parsing raises. */
  function ParseActivation(response: Json): (r: ActivationInfo)
    ensures DetailsOf(response).None? ==> r == NoActivation
    ensures DetailsOf(response).Some? && ParseDetails(DetailsOf(response).value).None? ==> r == NoActivation
    ensures DetailsOf(response).Some? && ParseDetails(DetailsOf(response).value).Some? ==>
            r == ParseDetails(DetailsOf(response).value).value
  {
    match DetailsOf(response)
    case None => NoActivation
    case Some(details) => ParseDetails(details).GetOr(NoActivation)
  }

  /** An empty or absent `SoftwareMachineDetails` gives the all-zero summary. */
  lemma EmptyDetailsGiveZero(m: Members)
    requires !Truthy(GetOr(m, "SoftwareMachineDetails", JArr([])))
    ensures ParseActivation(JObj(m)) == NoActivation
  {
  }

  /** Only the first `SoftwareMachineDetails` entry is read: whatever else the reply holds, it is
      summarised as the reply holding that entry alone. */
  lemma OnlyFirstDetailsRead(m: Members, first: Json, rest: seq<Json>)
    requires Get(m, "SoftwareMachineDetails") == Some(JArr([first] + rest))
    ensures ParseActivation(JObj(m)) == ParseActivation(JObj([("SoftwareMachineDetails", JArr([first]))]))
  {
    assert GetOr(m, "SoftwareMachineDetails", JArr([])) == JArr([first] + rest);
    assert LastIndex([("SoftwareMachineDetails", JArr([first]))], "SoftwareMachineDetails") == Some(0);
    assert DetailsOf(JObj(m)) == DetailsOf(JObj([("SoftwareMachineDetails", JArr([first]))]));
  }

  /** The installs request for one user: the configured headers as they are (no content type),
      the lenient cookie fallback, the object id rendered with `str()`; `None` when the request
      cannot be formed (no user-management configuration, or no host in the API URL). */
  function FetchRequest(rt: Runtime, sub: Subscription, objectId: Json): (r: Option<Request>)
    ensures r.Some? <==> sub.userCreateConfig.Some? && BaseUrl(sub.userCreateConfig.value.apiUrl).Some?
    ensures r.Some? ==> var cfg := sub.userCreateConfig.value;
      && r.value.verb == GET && r.value.body.None? && r.value.headers == cfg.headers
      && r.value.url == OfficeInstallsUrl(BaseUrl(cfg.apiUrl).value, Show(rt, objectId))
      && r.value.cookies == Decode(ResolveLenient(cfg.cookies, sub.cookies))
  {
    match sub.userCreateConfig
    case None => None
    case Some(cfg) =>
      match BaseUrl(cfg.apiUrl)
      case None => None
      case Some(base) =>
        Some(Request(GET, OfficeInstallsUrl(base, Show(rt, objectId)), cfg.headers,
                     Decode(ResolveLenient(cfg.cookies, sub.cookies)), None))
  }

  /** Classification of the installs exchange; every exception, including a timeout and an
      undecodable body, is one generic failure. */
  function ClassifyFetch(outcome: Outcome): (r: Result<Json, Failure>)
    ensures outcome.Responded? && IsAuthFailure(outcome.response.status) ==> r == Err(AuthFailure)
    ensures outcome.Responded? && !IsAuthFailure(outcome.response.status) && !IsAccepted(outcome.response.status)
            ==> r == Err(ApiError(outcome.response.status, None))
    ensures r.Ok? <==> outcome.Responded? && IsAccepted(outcome.response.status) && outcome.response.json.Some?
    ensures r.Ok? ==> r.value == outcome.response.json.value
    ensures !outcome.Responded? ==> r == Err(UnknownError)
  {
    match outcome
    case Responded(response) =>
      if IsAuthFailure(response.status) then Err(AuthFailure)
      else if !IsAccepted(response.status) then Err(ApiError(response.status, None))
      else
        (match response.json
         case None => Err(UnknownError)
         case Some(data) => Ok(data))
    case _ => Err(UnknownError)
  }

  /** The installs endpoint and the listing agree on what a status means: both report 401/403 as
      an authentication failure, any other status outside {200, 201} as an API error with that
      status, and both accept the same statuses. */
  lemma FetchAndListAgreeOnStatus(outcome: Outcome)
    requires outcome.Responded?
    ensures ClassifyFetch(outcome) == Err(AuthFailure) <==> ClassifyList(outcome) == Err(AuthFailure)
    ensures ClassifyFetch(outcome).Err? && ClassifyFetch(outcome).error.ApiError? <==>
            ClassifyList(outcome).Err? && ClassifyList(outcome).error.ApiError?
  {
  }

  /** `fetch_activation_data`. */
  function FetchActivation(rt: Runtime, sub: Subscription, objectId: Json, transport: Transport): (c: Call<Json>)
    ensures FetchRequest(rt, sub, objectId).None? ==> c == Early(UnknownError)
    ensures FetchRequest(rt, sub, objectId).Some? ==>
      c.sent == [FetchRequest(rt, sub, objectId).value] && c.result == ClassifyFetch(transport(c.sent[0]))
  {
    match FetchRequest(rt, sub, objectId)
    case None => Early(UnknownError)
    case Some(request) => Call(ClassifyFetch(transport(request)), [request])
  }

  /** One entry of the batch report. */
  datatype ActivationEntry = ActivationEntry(
    displayName: Json,
    userPrincipalName: Json,
    email: Json,
    objectId: Json,
    info: ActivationInfo)

  /** `machines or active_computers > 0 or active_devices > 0`, left to right; `None` when a
      comparison that is reached raises TypeError. */
  function ShowsActivity(info: ActivationInfo): (r: Option<bool>)
    ensures info.machines != [] ==> r == Some(true)
    ensures info.machines == [] ==> (r == Some(true) <==>
      GreaterThanZero(info.activeComputers) == Some(true) ||
      (GreaterThanZero(info.activeComputers) == Some(false) && GreaterThanZero(info.activeDevices) == Some(true)))
    ensures r.None? <==>
      && info.machines == []
      && (|| GreaterThanZero(info.activeComputers).None?
          || (GreaterThanZero(info.activeComputers) == Some(false) && GreaterThanZero(info.activeDevices).None?))
  {
    if info.machines != [] then Some(true)
    else
      match GreaterThanZero(info.activeComputers)
      case None => None
      case Some(true) => Some(true)
      case Some(false) => GreaterThanZero(info.activeDevices)
  }

  /** The all-zero summary shows no activity. */
  lemma NoActivationIsQuiet()
    ensures ShowsActivity(NoActivation) == Some(false)
  {
  }

  /** What the batch does with one listed user. */
  datatype Step = Skipped | Kept(entry: ActivationEntry) | Aborted

  datatype StepResult = StepResult(step: Step, sent: seq<Request>)

  /** One iteration of the batch loop: users without an object id are skipped without a
      request, a failed fetch is skipped silently, and a user is kept iff its summary shows
      activity; a comparison that raises aborts the whole batch. */
  function StepFor(rt: Runtime, sub: Subscription, user: UserRecord, transport: Transport): (r: StepResult)
    ensures !Truthy(user.objectId) ==> r == StepResult(Skipped, [])
    ensures Truthy(user.objectId) ==> r.sent == FetchActivation(rt, sub, user.objectId, transport).sent
    ensures Truthy(user.objectId) && FetchActivation(rt, sub, user.objectId, transport).result.Err? ==> r.step == Skipped
    ensures r.step.Kept? <==>
      && Truthy(user.objectId)
      && FetchActivation(rt, sub, user.objectId, transport).result.Ok?
      && ShowsActivity(ParseActivation(FetchActivation(rt, sub, user.objectId, transport).result.value)) == Some(true)
    ensures r.step.Kept? ==>
      && r.step.entry.objectId == user.objectId
      && r.step.entry.displayName == user.displayName
      && r.step.entry.info == ParseActivation(FetchActivation(rt, sub, user.objectId, transport).result.value)
    ensures r.step.Aborted? <==>
      && Truthy(user.objectId)
      && FetchActivation(rt, sub, user.objectId, transport).result.Ok?
      && ShowsActivity(ParseActivation(FetchActivation(rt, sub, user.objectId, transport).result.value)).None?
  {
    if !Truthy(user.objectId) then StepResult(Skipped, [])
    else
      var fetched := FetchActivation(rt, sub, user.objectId, transport);
      match fetched.result
      case Err(_) => StepResult(Skipped, fetched.sent)
      case Ok(data) =>
        var info := ParseActivation(data);
        match ShowsActivity(info)
        case None => StepResult(Aborted, fetched.sent)
        case Some(false) => StepResult(Skipped, fetched.sent)
        case Some(true) =>
          StepResult(Kept(ActivationEntry(user.displayName, user.userPrincipalName, user.email, user.objectId, info)),
                     fetched.sent)
  }

  /** The batch loop's outcome: the kept entries (`None` once aborted) and the requests sent. */
  datatype Batch = Batch(entries: Option<seq<ActivationEntry>>, sent: seq<Request>)

  /** The batch after one more step; an aborted batch takes no further step. */
  function Extend(before: Batch, r: StepResult): (after: Batch)
    ensures before.entries.None? ==> after == before
    ensures before.entries.Some? ==> after.sent == before.sent + r.sent
    ensures before.entries.Some? && after.entries.Some? ==>
      after.entries.value == before.entries.value + (if r.step.Kept? then [r.step.entry] else [])
    ensures before.entries.Some? ==> (after.entries.None? <==> r.step.Aborted?)
  {
    if before.entries.None? then before
    else
      var entries :=
        match r.step
        case Aborted => None
        case Skipped => before.entries
        case Kept(e) => Some(before.entries.value + [e]);
      Batch(entries, before.sent + r.sent)
  }

  /** Two batch segments run one after the other; the second counts only if the first did
      not abort. */
  function Then(left: Batch, right: Batch): Batch {
    if left.entries.None? then left
    else if right.entries.None? then Batch(None, left.sent + right.sent)
    else Batch(Some(left.entries.value + right.entries.value), left.sent + right.sent)
  }

  /** Reference definition of the batch loop over the listed users, one step per user in order,
      stopping at the first abort. */
  function Collect(rt: Runtime, sub: Subscription, users: seq<UserRecord>, transport: Transport): (b: Batch)
    ensures b.entries.Some? ==> |b.entries.value| <= |users|
    ensures b.entries.Some? ==> forall e :: e in b.entries.value ==> Truthy(e.objectId)
    decreases |users|
  {
    if users == [] then Batch(Some([]), [])
    else Extend(Collect(rt, sub, users[..|users| - 1], transport), StepFor(rt, sub, users[|users| - 1], transport))
  }

  /** Once the batch has aborted, later users change nothing: no further request is sent. */
  lemma {:induction false} CollectStaysAborted(rt: Runtime, sub: Subscription, users: seq<UserRecord>,
                                                n: nat, transport: Transport)
    requires n <= |users|
    requires Collect(rt, sub, users[..n], transport).entries.None?
    ensures Collect(rt, sub, users, transport) == Collect(rt, sub, users[..n], transport)
    decreases |users| - n
  {
    if n < |users| {
      assert users[..n + 1][..n] == users[..n];
      CollectStaysAborted(rt, sub, users, n + 1, transport);
    } else {
      assert users[..n] == users;
    }
  }

  /** Running a segment and then extending it is extending the combined run. */
  lemma ThenExtend(left: Batch, right: Batch, r: StepResult)
    ensures Then(left, Extend(right, r)) == Extend(Then(left, right), r)
  {
    if left.entries.Some? && right.entries.Some? && !r.step.Aborted? {
      var extra := if r.step.Kept? then [r.step.entry] else [];
      assert left.entries.value + (right.entries.value + extra) == (left.entries.value + right.entries.value) + extra;
    }
  }

  /** The batch preserves input order: over a listing split in two it is the batch of the first
      part followed by the batch of the second. */
  lemma {:induction false} CollectAppend(rt: Runtime, sub: Subscription, a: seq<UserRecord>, b: seq<UserRecord>,
                                         transport: Transport)
    ensures Collect(rt, sub, a + b, transport) == Then(Collect(rt, sub, a, transport), Collect(rt, sub, b, transport))
    decreases |b|
  {
    var left := Collect(rt, sub, a, transport);
    if b == [] {
      assert a + b == a;
      if left.entries.Some? {
        assert left.entries.value + [] == left.entries.value;
      }
      assert left.sent + [] == left.sent;
    } else {
      var b0 := b[..|b| - 1];
      var s := StepFor(rt, sub, b[|b| - 1], transport);
      assert (a + b)[..|a + b| - 1] == a + b0;
      assert (a + b)[|a + b| - 1] == b[|b| - 1];
      calc {
        Collect(rt, sub, a + b, transport);
        Extend(Collect(rt, sub, a + b0, transport), s);
        { CollectAppend(rt, sub, a, b0, transport); }
        Extend(Then(left, Collect(rt, sub, b0, transport)), s);
        { ThenExtend(left, Collect(rt, sub, b0, transport), s); }
        Then(left, Extend(Collect(rt, sub, b0, transport), s));
        Then(left, Collect(rt, sub, b, transport));
      }
    }
  }

  /** The aggregate of a finished batch. */
  datatype BatchSummary = BatchSummary(totalUsers: nat, entries: seq<ActivationEntry>)
  {
    function EntryCount(): nat { |entries| }
  }

  /** The batch loop itself, stopping at the first abort. */
  method WalkUsers(rt: Runtime, sub: Subscription, users: seq<UserRecord>, transport: Transport)
    returns (batch: Batch)
    ensures batch == Collect(rt, sub, users, transport)
  {
    var entries: seq<ActivationEntry> := [];
    var fetched: seq<Request> := [];
    var i := 0;
    while i < |users|
      invariant 0 <= i <= |users|
      invariant Collect(rt, sub, users[..i], transport) == Batch(Some(entries), fetched)
    {
      var r := StepFor(rt, sub, users[i], transport);
      assert users[..i + 1][..i] == users[..i];
      assert Collect(rt, sub, users[..i + 1], transport) == Extend(Batch(Some(entries), fetched), r);
      match r.step {
        case Aborted =>
          CollectStaysAborted(rt, sub, users, i + 1, transport);
          return Batch(None, fetched + r.sent);
        case Skipped =>
        case Kept(e) =>
          entries := entries + [e];
      }
      fetched := fetched + r.sent;
      i := i + 1;
    }
    assert users[..i] == users;
    return Batch(Some(entries), fetched);
  }

  /** `query_all_users_activation`: list the users, then walk them in order. */
  method QueryAllActivation(rt: Runtime, subscription: Option<Subscription>, transport: Transport)
    returns (c: Call<BatchSummary>)
    ensures subscription.None? ==> c == Early(SubscriptionMissing)
    ensures subscription.Some? && subscription.value.userCreateConfig.None? ==> c == Early(UserManagementNotConfigured)
    ensures subscription.Some? && subscription.value.userCreateConfig.Some? && ListUsers(subscription, transport).result.Err?
            ==> c == Call(Err(ListUsers(subscription, transport).result.error), ListUsers(subscription, transport).sent)
    ensures subscription.Some? && ListUsers(subscription, transport).result.Ok? ==>
      var listing := ListUsers(subscription, transport);
      var users := listing.result.value.users;
      var batch := Collect(rt, subscription.value, users, transport);
      && c.sent == listing.sent + batch.sent
      && (batch.entries.None? ==> c.result == Err(UnknownError))
      && (batch.entries.Some? ==> c.result == Ok(BatchSummary(|users|, batch.entries.value)))
    ensures c.result.Ok? ==> c.result.value.EntryCount() <= c.result.value.totalUsers
  {
    if subscription.None? {
      return Early(SubscriptionMissing);
    }
    var sub := subscription.value;
    if sub.userCreateConfig.None? {
      return Early(UserManagementNotConfigured);
    }
    var listing := ListUsers(subscription, transport);
    if listing.result.Err? {
      return Call(Err(listing.result.error), listing.sent);
    }
    var users := listing.result.value.users;
    var batch := WalkUsers(rt, sub, users, transport);
    if batch.entries.None? {
      return Call(Err(UnknownError), listing.sent + batch.sent);
    }
    return Call(Ok(BatchSummary(|users|, batch.entries.value)), listing.sent + batch.sent);
  }

  /** A listed user whose UPN and display name are strings. */
  predicate Searchable(user: Members) {
    GetOr(user, "UserPrincipalName", JStr("")).JStr? && GetOr(user, "DisplayName", JStr("")).JStr?
  }

  /** `user_principal_name.lower()` / `display_name.lower()` containment for one listed user,
      evaluated left to right; `None` when the element is not an object or a field that is
      reached is not a string (AttributeError). */
  function Probe(user: Json, needle: string): (r: Option<bool>)
    ensures r == Some(true) ==> user.JObj? && var upn := GetOr(user.members, "UserPrincipalName", JStr(""));
      var name := GetOr(user.members, "DisplayName", JStr(""));
      upn.JStr? && (ContainsIgnoringCase(upn.s, needle) || (name.JStr? && ContainsIgnoringCase(name.s, needle)))
    ensures r == Some(false) ==> user.JObj? && var upn := GetOr(user.members, "UserPrincipalName", JStr(""));
      var name := GetOr(user.members, "DisplayName", JStr(""));
      upn.JStr? && name.JStr? && !ContainsIgnoringCase(upn.s, needle) && !ContainsIgnoringCase(name.s, needle)
    ensures user.JObj? && Searchable(user.members) ==> r.Some?
  {
    match user
    case JObj(m) =>
      (match GetOr(m, "UserPrincipalName", JStr(""))
       case JStr(upn) =>
         if ContainsIgnoringCase(upn, needle) then Some(true)
         else
           (match GetOr(m, "DisplayName", JStr(""))
            case JStr(name) => Some(ContainsIgnoringCase(name, needle))
            case _ => None)
       case _ => None)
    case _ => None
  }

  /** The scan of the listed users: the index of the first match (`Some(None)` when there is
      none); `None` when a user reached before any match raises. */
  function FindMatch(users: seq<Json>, needle: string): (r: Option<Option<nat>>)
    ensures r.Some? && r.value.Some? ==> var k := r.value.value;
      && k < |users| && Probe(users[k], needle) == Some(true)
      && forall j :: 0 <= j < k ==> Probe(users[j], needle) == Some(false)
    ensures r == Some(None) <==> forall j :: 0 <= j < |users| ==> Probe(users[j], needle) == Some(false)
    ensures r.None? ==> exists k :: 0 <= k < |users| && Probe(users[k], needle).None?
                                    && forall j :: 0 <= j < k ==> Probe(users[j], needle) == Some(false)
  {
    FindFirst(users, user => Probe(user, needle))
  }

  /** The user the lookup settles on. */
  datatype FoundUser = FoundUser(objectId: Json, displayName: Json, userPrincipalName: Json, email: Json)

  function FoundUserOf(user: Members): FoundUser {
    FoundUser(GetOr(user, "ObjectId", JStr("")), GetOr(user, "DisplayName", JStr("")),
              GetOr(user, "UserPrincipalName", JStr("")), GetOr(user, "Mail", JStr("")))
  }

  /** The lookup request: the listing query with the search text, lenient cookie fallback. */
  function LookupRequest(sub: Subscription, username: string): (r: Option<Request>)
    ensures r.Some? <==> sub.userCreateConfig.Some? && BaseUrl(sub.userCreateConfig.value.apiUrl).Some?
    ensures r.Some? ==> var cfg := sub.userCreateConfig.value;
      && r.value.verb == POST && r.value.body == Some(SearchPayload(username))
      && r.value.headers == WithJsonContentType(cfg.headers)
      && r.value.url == ListUsersUrl(BaseUrl(cfg.apiUrl).value)
      && r.value.cookies == Decode(ResolveLenient(cfg.cookies, sub.cookies))
  {
    match sub.userCreateConfig
    case None => None
    case Some(cfg) =>
      match BaseUrl(cfg.apiUrl)
      case None => None
      case Some(base) =>
        Some(Request(POST, ListUsersUrl(base), WithJsonContentType(cfg.headers),
                     Decode(ResolveLenient(cfg.cookies, sub.cookies)), Some(SearchPayload(username))))
  }

  /** Classification of the lookup exchange. A match that is the empty object is falsy and so
      reported as not found, as the source's `if not matched_user` does. */
  function ClassifyLookup(outcome: Outcome, username: string): (r: Result<FoundUser, Failure>)
    ensures outcome.Responded? && IsAuthFailure(outcome.response.status) ==> r == Err(AuthFailure)
    ensures outcome.Responded? && !IsAuthFailure(outcome.response.status) && !IsAccepted(outcome.response.status)
            ==> r == Err(ApiError(outcome.response.status, None))
    ensures !outcome.Responded? ==> r == Err(UnknownError)
    ensures r.Ok? ==> outcome.Responded? && IsAccepted(outcome.response.status)
    ensures r.Err? ==> r.error.AuthFailure? || r.error.ApiError? || r.error.UnknownError? || r.error == UserNotFound(username)
  {
    match outcome
    case Responded(response) =>
      if IsAuthFailure(response.status) then Err(AuthFailure)
      else if !IsAccepted(response.status) then Err(ApiError(response.status, None))
      else
        (match response.json
         case Some(JObj(data)) =>
           (match Iterate(GetOr(data, "Users", JArr([])))
            case None => Err(UnknownError)
            case Some(users) => MatchedUser(users, username))
         case _ => Err(UnknownError))
    case _ => Err(UnknownError)
  }

  /** The scan's verdict over the listed users. */
  function MatchedUser(users: seq<Json>, username: string): (r: Result<FoundUser, Failure>)
    ensures r.Err? ==> r.error.UnknownError? || r.error == UserNotFound(username)
    ensures r == Err(UnknownError) <==> FindMatch(users, username).None?
    ensures r.Ok? <==> var found := FindMatch(users, username);
      found.Some? && found.value.Some? && users[found.value.value].members != []
    ensures r.Ok? ==> r.value == FoundUserOf(users[FindMatch(users, username).value.value].members)
  {
    match FindMatch(users, username)
    case None => Err(UnknownError)
    case Some(None) => Err(UserNotFound(username))
    case Some(Some(k)) =>
      if users[k].members == [] then Err(UserNotFound(username))
      else Ok(FoundUserOf(users[k].members))
  }

  /** A reply the listing classification accepts: an accepted status and a decoded object whose
      `Users` value iterates to `users`. */
  predicate ListingReply(outcome: Outcome, users: seq<Json>) {
    && outcome.Responded? && IsAccepted(outcome.response.status)
    && outcome.response.json.Some? && outcome.response.json.value.JObj?
    && Iterate(GetOr(outcome.response.json.value.members, "Users", JArr([]))) == Some(users)
  }

  /** Over searchable, non-empty user objects, the lookup returns the first user whose UPN or
      display name contains the text, ignoring case, and not-found when none does, whatever
      else the reply carries. */
  lemma LookupFindsFirstMatch(outcome: Outcome, users: seq<Json>, username: string)
    requires ListingReply(outcome, users)
    requires forall i :: 0 <= i < |users| ==> users[i].JObj? && users[i].members != [] && Searchable(users[i].members)
    ensures var r := ClassifyLookup(outcome, username);
      && (r.Ok? <==> exists i :: 0 <= i < |users| && Probe(users[i], username) == Some(true))
      && (r.Ok? ==> exists k :: 0 <= k < |users| && r.value == FoundUserOf(users[k].members)
                               && Probe(users[k], username) == Some(true)
                               && forall j :: 0 <= j < k ==> Probe(users[j], username) == Some(false))
      && (r.Err? ==> r.error == UserNotFound(username))
  {
    var r := ClassifyLookup(outcome, username);
    LookupOfListing(outcome, users, username);
    var found := FindMatch(users, username);
    if found.value.Some? {
      var k := found.value.value;
      assert r.Ok? && r.value == FoundUserOf(users[k].members);
    } else {
      assert r.Err?;
      forall i | 0 <= i < |users| ensures Probe(users[i], username) != Some(true) {
        assert Probe(users[i], username) == Some(false);
      }
    }
  }

  lemma LookupOfListing(outcome: Outcome, users: seq<Json>, username: string)
    requires ListingReply(outcome, users)
    requires forall i :: 0 <= i < |users| ==> users[i].JObj? && users[i].members != [] && Searchable(users[i].members)
    ensures var r := ClassifyLookup(outcome, username);
      var found := FindMatch(users, username);
      && found.Some?
      && (found.value.Some? ==> found.value.value < |users| && r == Ok(FoundUserOf(users[found.value.value].members)))
      && (found.value.None? ==> r == Err(UserNotFound(username)))
  {
    ListingReachesScan(outcome, users, username);
    forall i | 0 <= i < |users| ensures Probe(users[i], username).Some? {
    }
  }

  /** Any accepted listing reply is classified by scanning its users. */
  lemma ListingReachesScan(outcome: Outcome, users: seq<Json>, username: string)
    requires ListingReply(outcome, users)
    ensures ClassifyLookup(outcome, username) == MatchedUser(users, username)
  {
  }

  /** The single-member reply `{"Users": users}` with status 200 is such a reply. */
  lemma UsersOnlyReply(users: seq<Json>)
    ensures ListingReply(Responded(Response(200, "", Some(JObj([("Users", JArr(users))])))), users)
  {
    var data := [("Users", JArr(users))];
    assert LastIndex(data, "Users") == Some(0);
  }


  /** `get_user_object_id`: one search request, sent only when the request can be formed. */
  function GetUserObjectId(sub: Subscription, username: string, transport: Transport): (c: Call<FoundUser>)
    ensures LookupRequest(sub, username).None? ==> c == Early(UnknownError)
    ensures LookupRequest(sub, username).Some? ==>
      c.sent == [LookupRequest(sub, username).value] && c.result == ClassifyLookup(transport(c.sent[0]), username)
  {
    match LookupRequest(sub, username)
    case None => Early(UnknownError)
    case Some(request) => Call(ClassifyLookup(transport(request), username), [request])
  }

  /** `query_user_activation`: look the user up, then fetch and parse its installs; each step's
      failure is returned as it is, with the requests sent so far. */
  function QueryUserActivation(rt: Runtime, subscription: Option<Subscription>, username: string, transport: Transport)
    : (c: Call<(FoundUser, ActivationInfo)>)
    ensures subscription.None? ==> c == Early(SubscriptionMissing)
    ensures subscription.Some? && subscription.value.userCreateConfig.None? ==> c == Early(UserManagementNotConfigured)
    ensures |c.sent| <= 2
    ensures c.result.Ok? ==> var sub := subscription.value;
      var lookup := GetUserObjectId(sub, username, transport);
      && lookup.result.Ok? && c.result.value.0 == lookup.result.value
      && var fetched := FetchActivation(rt, sub, lookup.result.value.objectId, transport);
      && fetched.result.Ok? && c.result.value.1 == ParseActivation(fetched.result.value)
      && c.sent == lookup.sent + fetched.sent
    ensures subscription.Some? && subscription.value.userCreateConfig.Some? ==>
      var sub := subscription.value;
      var lookup := GetUserObjectId(sub, username, transport);
      && (lookup.result.Err? ==> c == Call(Err(lookup.result.error), lookup.sent))
      && (lookup.result.Ok? ==>
            var fetched := FetchActivation(rt, sub, lookup.result.value.objectId, transport);
            && (fetched.result.Err? ==> c == Call(Err(fetched.result.error), lookup.sent + fetched.sent))
            && (fetched.result.Ok? ==> c.result.Ok?))
  {
    if subscription.None? then Early(SubscriptionMissing)
    else
      var sub := subscription.value;
      if sub.userCreateConfig.None? then Early(UserManagementNotConfigured)
      else
        var lookup := GetUserObjectId(sub, username, transport);
        match lookup.result
        case Err(e) => Call(Err(e), lookup.sent)
        case Ok(user) =>
          var fetched := FetchActivation(rt, sub, user.objectId, transport);
          match fetched.result
          case Err(e) => Call(Err(e), lookup.sent + fetched.sent)
          case Ok(data) => Call(Ok((user, ParseActivation(data))), lookup.sent + fetched.sent)
  }

  /** The time shown for a device: the formatted timestamp, or when it does not parse the first
      16 characters with `T` turned into a space, or `未知` when there is none; `None` when a
      truthy non-string value reaches the slicing fallback (TypeError/AttributeError). */
  function FormatTime(rt: Runtime, v: Json): (r: Option<string>)
    ensures !Truthy(v) ==> r == Some("未知")
    ensures r.None? <==> Truthy(v) && !v.JStr?
    ensures v.JStr? && Truthy(v) && rt.isoMinutes(ReplaceAll(v.s, "Z", "+00:00")).Some? ==>
      r == rt.isoMinutes(ReplaceAll(v.s, "Z", "+00:00"))
    ensures v.JStr? && Truthy(v) && rt.isoMinutes(ReplaceAll(v.s, "Z", "+00:00")).None? ==>
      r.Some? && |r.value| <= 16 && 'T' !in r.value
    ensures v.JStr? && Truthy(v) && rt.isoMinutes(ReplaceAll(v.s, "Z", "+00:00")).None? ==>
      var head := Take(v.s, 16);
      && r.Some? && |r.value| == |head|
      && forall i :: 0 <= i < |head| ==> r.value[i] == (if head[i] == 'T' then ' ' else head[i])
  {
    if !Truthy(v) then Some("未知")
    else
      match v
      case JStr(s) =>
        (match rt.isoMinutes(ReplaceAll(s, "Z", "+00:00"))
         case Some(formatted) => Some(formatted)
         case None =>
           ReplaceChar(Take(s, 16), 'T', ' ');
           Some(ReplaceAll(Take(s, 16), "T", " ")))
      case _ => None
  }

  /** ✅ exactly for licence-status code 1 (or `true`), ❌ otherwise. */
  function StatusIcon(code: Json): (icon: string)
    ensures icon == "✅" <==> EqualsInt(code, 1)
    ensures icon == "❌" <==> !EqualsInt(code, 1)
  {
    if EqualsInt(code, 1) then "✅" else "❌"
  }

  /** The block for the `number`-th device. */
  function MachineBlock(rt: Runtime, number: nat, machine: Machine): (r: Option<string>)
    ensures r.Some? <==> FormatTime(rt, machine.lastRequested).Some?
    ensures r.Some? ==> |r.value| >= |NatToString(number)| + 2
                        && r.value[..|NatToString(number)| + 2] == NatToString(number) + ". "
    ensures r.Some? ==> var head := NatToString(number) + ". " + Show(rt, machine.name);
      |r.value| >= |head| && r.value[..|head|] == head
    ensures r.Some? ==> var tail := StatusLine(machine) + "\n   最后请求: " + FormatTime(rt, machine.lastRequested).value;
      |r.value| >= |tail| && r.value[|r.value| - |tail|..] == tail
  {
    match FormatTime(rt, machine.lastRequested)
    case None => None
    case Some(time) =>
      var head := NatToString(number) + ". ";
      var named := head + Show(rt, machine.name);
      var tail := StatusLine(machine) + "\n   最后请求: " + time;
      var middle := "\n   " + Show(rt, machine.os);
      var block := named + middle + tail;
      assert block == head + (block[|head|..]);
      assert block[..|named|] == named;
      assert block[|block| - |tail|..] == tail;
      Some(block)
  }

  /** The third line of a device block: the licence icon, then the licence state's label. */
  function StatusLine(machine: Machine): (line: string)
    ensures |line| >= 5 && line[..4] == "\n   "
    ensures line[4..5] == "✅" <==> EqualsInt(machine.stateCode, 1)
    ensures line[4..] == StatusIcon(machine.stateCode) + " " + machine.licenseState.Label()
  {
    var line := "\n   " + StatusIcon(machine.stateCode) + " " + machine.licenseState.Label();
    assert line[4..] == StatusIcon(machine.stateCode) + " " + machine.licenseState.Label();
    line
  }


  /** The device blocks, numbered from `first`. */
  function MachineBlocks(rt: Runtime, machines: seq<Machine>, first: nat): (r: Option<seq<string>>)
    ensures r.Some? <==> forall k :: 0 <= k < |machines| ==> FormatTime(rt, machines[k].lastRequested).Some?
    ensures r.Some? ==> |r.value| == |machines|
    ensures r.Some? ==> forall k :: 0 <= k < |machines| ==> Some(r.value[k]) == MachineBlock(rt, first + k, machines[k])
  {
    if forall k :: 0 <= k < |machines| ==> MachineBlock(rt, first + k, machines[k]).Some? then
      Some(seq(|machines|, k requires 0 <= k < |machines| => MachineBlock(rt, first + k, machines[k]).value))
    else
      None
  }


  const NoDevicesLine := "暂无激活设备"
  const DeviceListHeading := "📋 设备列表:"

  /** The lines of the notification text for one user's activation summary. */
  function MessageLines(rt: Runtime, displayName: Json, userPrincipalName: Json, info: ActivationInfo)
    : (r: Option<seq<string>>)
    ensures r.Some? <==> forall k :: 0 <= k < |info.machines| ==> FormatTime(rt, info.machines[k].lastRequested).Some?
    ensures r.Some? && info.machines == [] ==> |r.value| == 7 && r.value[6] == NoDevicesLine
    ensures r.Some? && info.machines != [] ==>
      && |r.value| == 7 + |info.machines|
      && r.value[6] == DeviceListHeading
      && forall k :: 0 <= k < |info.machines| ==> Some(r.value[7 + k]) == MachineBlock(rt, k + 1, info.machines[k])
    ensures r.Some? ==>
      && r.value[0] == "📱 Office 365 激活信息\n"
      && r.value[1] == "👤 用户: " + Show(rt, displayName)
      && r.value[2] == "📧 邮箱: " + Show(rt, userPrincipalName) + "\n"
      && r.value[3] == "💻 设备激活情况"
      && r.value[4] == "已激活: " + Show(rt, info.activeComputers) + " / " + Show(rt, info.totalComputers) + " 台电脑"
      && r.value[5] == "已激活: " + Show(rt, info.activeDevices) + " / " + Show(rt, info.totalDevices) + " 台移动设备\n"
  {
    var header := [
      "📱 Office 365 激活信息\n",
      "👤 用户: " + Show(rt, displayName),
      "📧 邮箱: " + Show(rt, userPrincipalName) + "\n",
      "💻 设备激活情况",
      "已激活: " + Show(rt, info.activeComputers) + " / " + Show(rt, info.totalComputers) + " 台电脑",
      "已激活: " + Show(rt, info.activeDevices) + " / " + Show(rt, info.totalDevices) + " 台移动设备\n"];
    if info.machines == [] then Some(header + [NoDevicesLine])
    else
      match MachineBlocks(rt, info.machines, 1)
      case None => None
      case Some(blocks) => Some(header + [DeviceListHeading] + blocks)
  }

  /** `format_activation_message`: the lines joined by newlines. */
  function FormatActivationMessage(rt: Runtime, displayName: Json, userPrincipalName: Json, info: ActivationInfo)
    : (r: Option<string>)
    ensures r.Some? <==> MessageLines(rt, displayName, userPrincipalName, info).Some?
    ensures r.Some? ==> r.value == Join(MessageLines(rt, displayName, userPrincipalName, info).value, "\n")
  {
    match MessageLines(rt, displayName, userPrincipalName, info)
    case None => None
    case Some(lines) => Some(Join(lines, "\n"))
  }

  /** The message names the user by display name and UPN and shows both activation counts. */
  lemma MessageShowsUserAndCounts(rt: Runtime, displayName: Json, userPrincipalName: Json, info: ActivationInfo)
    ensures var msg := FormatActivationMessage(rt, displayName, userPrincipalName, info);
      msg.Some? ==>
        && Contains(msg.value, Show(rt, displayName))
        && Contains(msg.value, Show(rt, userPrincipalName))
        && Contains(msg.value, Show(rt, info.activeComputers) + " / " + Show(rt, info.totalComputers))
        && Contains(msg.value, Show(rt, info.activeDevices) + " / " + Show(rt, info.totalDevices))
  {
    var lines := MessageLines(rt, displayName, userPrincipalName, info);
    if lines.Some? {
      HeaderShown(lines.value, Show(rt, displayName), Show(rt, userPrincipalName),
                  Show(rt, info.activeComputers) + " / " + Show(rt, info.totalComputers),
                  Show(rt, info.activeDevices) + " / " + Show(rt, info.totalDevices));
    }
  }

  /** The values in the header lines appear in the joined message. */
  lemma HeaderShown(lines: seq<string>, name: string, upn: string, computers: string, devices: string)
    requires |lines| >= 6
    requires lines[1] == "👤 用户: " + name && lines[2] == "📧 邮箱: " + upn + "\n"
    requires lines[4] == "已激活: " + computers + " 台电脑" && lines[5] == "已激活: " + devices + " 台移动设备\n"
    ensures var msg := Join(lines, "\n");
      Contains(msg, name) && Contains(msg, upn) && Contains(msg, computers) && Contains(msg, devices)
  {
    assert lines[1] == "👤 用户: " + name + "";
    LineShown(lines, 1, "👤 用户: ", name, "");
    LineShown(lines, 2, "📧 邮箱: ", upn, "\n");
    LineShown(lines, 4, "已激活: ", computers, " 台电脑");
    LineShown(lines, 5, "已激活: ", devices, " 台移动设备\n");
  }

  /** Text inside one line is inside the joined message. */
  lemma LineShown(lines: seq<string>, k: nat, before: string, shown: string, after: string)
    requires k < |lines| && lines[k] == before + shown + after
    ensures Contains(Join(lines, "\n"), shown)
  {
    var pre, post := JoinInfix(lines, "\n", k);
    assert Join(lines, "\n") == (pre + before) + shown + (after + post);
    ContainsInfix(pre + before, shown, after + post);
  }

  /** A user without devices gets the no-devices line as the last line of the message. */
  lemma QuietUserMessage(rt: Runtime, displayName: Json, userPrincipalName: Json)
    ensures var lines := MessageLines(rt, displayName, userPrincipalName, NoActivation);
      lines.Some? && lines.value[|lines.value| - 1] == NoDevicesLine
  {
  }
}

=== FILE: user_creator.dfy ===
/** Account creation from a captured request template, and first-fit licence assignment. */
module UserCreator {
  import opened Base
  import opened Text
  import opened JsonValue
  import opened Http
  import opened Admin
  import opened Cookies
  import opened CurlTemplate

  /** The body POSTed to create a user, field for field as the client builds it. */
  datatype CreatePayload = CreatePayload(
    firstName: Json, jobTitle: Json, lastName: Json,
    displayName: string, userPrincipalName: string,
    office: Json, officePhone: Json, mobilePhone: Json, faxNumber: Json,
    city: Json, countryRegion: Json, stateProvince: Json, department: Json,
    streetAddress: Json, zipOrPostalCode: Json,
    forceChangePassword: bool, sendPasswordEmail: bool, password: string,
    adminRoles: Json, usageLocation: Json, products: Json, createUserWithNoLicense: Json)
  {
    /** The payload as sent, members in the client's order. */
    function ToJson(): Json {
      JObj([
        ("FirstName", firstName), ("JobTitle", jobTitle), ("LastName", lastName),
        ("DisplayName", JStr(displayName)), ("UserPrincipalName", JStr(userPrincipalName)),
        ("Office", office), ("OfficePhone", officePhone), ("MobilePhone", mobilePhone),
        ("FaxNumber", faxNumber), ("City", city), ("CountryRegion", countryRegion),
        ("StateProvince", stateProvince), ("Department", department),
        ("StreetAddress", streetAddress), ("ZipOrPostalCode", zipOrPostalCode),
        ("ForceChangePassword", JBool(forceChangePassword)),
        ("SendPasswordEmail", JBool(sendPasswordEmail)), ("Password", JStr(password)),
        ("AdminRoles", adminRoles), ("UsageLocation", usageLocation), ("Products", products),
        ("CreateUserWithNoLicense", createUserWithNoLicense)])
    }

    /** The value the payload carries for a template-sourced field. */
    function Copied(field: TemplateField): Json {
      match field
      case FirstName => firstName
      case JobTitle => jobTitle
      case LastName => lastName
      case Office => office
      case OfficePhone => officePhone
      case MobilePhone => mobilePhone
      case FaxNumber => faxNumber
      case City => city
      case CountryRegion => countryRegion
      case StateProvince => stateProvince
      case Department => department
      case StreetAddress => streetAddress
      case ZipOrPostalCode => zipOrPostalCode
      case AdminRoles => adminRoles
      case UsageLocation => usageLocation
      case Products => products
      case CreateUserWithNoLicense => createUserWithNoLicense
    }
  }

  /** The template fields the payload copies. */
  datatype TemplateField =
    | FirstName | JobTitle | LastName | Office | OfficePhone | MobilePhone | FaxNumber
    | City | CountryRegion | StateProvince | Department | StreetAddress | ZipOrPostalCode
    | AdminRoles | UsageLocation | Products | CreateUserWithNoLicense
  {
    /** The field's key in the template and in the payload. */
    function Key(): string {
      match this
      case FirstName => "FirstName"
      case JobTitle => "JobTitle"
      case LastName => "LastName"
      case Office => "Office"
      case OfficePhone => "OfficePhone"
      case MobilePhone => "MobilePhone"
      case FaxNumber => "FaxNumber"
      case City => "City"
      case CountryRegion => "CountryRegion"
      case StateProvince => "StateProvince"
      case Department => "Department"
      case StreetAddress => "StreetAddress"
      case ZipOrPostalCode => "ZipOrPostalCode"
      case AdminRoles => "AdminRoles"
      case UsageLocation => "UsageLocation"
      case Products => "Products"
      case CreateUserWithNoLicense => "CreateUserWithNoLicense"
    }

    /** The value used when the template lacks the field. */
    function Default(): Json {
      match this
      case AdminRoles | Products => JArr([])
      case UsageLocation => JStr("CN")
      case CreateUserWithNoLicense => JBool(false)
      case _ => JStr("")
    }
  }

  function BuildPayload(template: Members, username: string, password: string, domain: string): CreatePayload {
    CreatePayload(
      GetOr(template, "FirstName", JStr("")), GetOr(template, "JobTitle", JStr("")),
      GetOr(template, "LastName", JStr("")),
      username, NewUpn(username, domain),
      GetOr(template, "Office", JStr("")), GetOr(template, "OfficePhone", JStr("")),
      GetOr(template, "MobilePhone", JStr("")), GetOr(template, "FaxNumber", JStr("")),
      GetOr(template, "City", JStr("")), GetOr(template, "CountryRegion", JStr("")),
      GetOr(template, "StateProvince", JStr("")), GetOr(template, "Department", JStr("")),
      GetOr(template, "StreetAddress", JStr("")), GetOr(template, "ZipOrPostalCode", JStr("")),
      true, false, password,
      GetOr(template, "AdminRoles", JArr([])), GetOr(template, "UsageLocation", JStr("CN")),
      GetOr(template, "Products", JArr([])), GetOr(template, "CreateUserWithNoLicense", JBool(false)))
  }

  /** The payload takes every copied field from the template, or its default when absent. */
  lemma PayloadCopiesTemplate(template: Members, username: string, password: string, domain: string)
    ensures forall field: TemplateField ::
      BuildPayload(template, username, password, domain).Copied(field) == GetOr(template, field.Key(), field.Default())
  {
    var p := BuildPayload(template, username, password, domain);
    forall field: TemplateField ensures p.Copied(field) == GetOr(template, field.Key(), field.Default()) {
      match field
      case FirstName =>
      case JobTitle =>
      case LastName =>
      case Office =>
      case OfficePhone =>
      case MobilePhone =>
      case FaxNumber =>
      case City =>
      case CountryRegion =>
      case StateProvince =>
      case Department =>
      case StreetAddress =>
      case ZipOrPostalCode =>
      case AdminRoles =>
      case UsageLocation =>
      case Products =>
      case CreateUserWithNoLicense =>
    }
  }

  /** The new identity comes from the inputs, the password policy is fixed, and the new UPN
      carries the template's domain. */
  lemma PayloadIdentity(template: Members, username: string, password: string, domain: string)
    requires '@' !in domain
    ensures var p := BuildPayload(template, username, password, domain);
      && p.displayName == username && p.password == password
      && p.forceChangePassword && !p.sendPasswordEmail
      && ('@' !in username ==> DomainOf(Some(JStr(p.userPrincipalName))) == Ok(domain))
  {
    if '@' !in username {
      DomainOfAddress(username, domain);
    }
  }

  /** `p.get('SkuPartNumber', p.get('ProductSkuId', ''))`. */
  function LicenseName(product: Members): Json {
    GetOr(product, "SkuPartNumber", GetOr(product, "ProductSkuId", JStr("")))
  }

  /** `[LicenseName(p) for p in products if isinstance(p, dict)]`. */
  function LicenseNamesOf(products: seq<Json>): (names: seq<Json>)
    ensures |names| <= |products|
    ensures (forall i :: 0 <= i < |products| ==> products[i].JObj?) ==>
      |names| == |products| && forall i :: 0 <= i < |products| ==> names[i] == LicenseName(products[i].members)
    ensures (forall i :: 0 <= i < |products| ==> !products[i].JObj?) ==> names == []
    decreases |products|
  {
    if products == [] then []
    else
      var init := LicenseNamesOf(products[..|products| - 1]);
      var last := products[|products| - 1];
      assert forall i :: 0 <= i < |products| - 1 ==> products[..|products| - 1][i] == products[i];
      if last.JObj? then init + [LicenseName(last.members)] else init
  }

  /** The licence names listed for a template's `Products` (computed before the request, for
      the log line); `None` when a truthy value is not iterable, which raises TypeError. */
  function LicenseNames(products: Json): (r: Option<seq<Json>>)
    ensures !Truthy(products) ==> r == Some([])
    ensures r.None? <==> Truthy(products) && Iterate(products).None?
    ensures products.JArr? ==> r == Some(LicenseNamesOf(products.elems))
  {
    if !Truthy(products) then Some([])
    else
      match Iterate(products)
      case None => None
      case Some(xs) => Some(LicenseNamesOf(xs))
  }

  /** What a successful creation reports. */
  datatype CreatedUser = CreatedUser(
    username: string,
    userPrincipalName: string,
    displayName: Json,
    objectId: Json,
    password: string,
    licenses: seq<Json>,
    licensesInfo: Json)

  /** `details` of an `api_error`: the upstream `Message` if truthy, else its `Code`, and the first
      500 characters of the body when the body is not a JSON object. */
  function ApiErrorDetail(response: Response): (d: ErrorDetail)
    ensures d.BodySnippet? ==> |d.text| <= 500 && |d.text| <= |response.text| && d.text == response.text[..|d.text|]
    ensures d.BodySnippet? && |response.text| <= 500 ==> d.text == response.text
    ensures d.BodySnippet? <==> !(response.json.Some? && response.json.value.JObj?)
  {
    match response.json
    case Some(JObj(m)) =>
      if Truthy(GetOr(m, "Message", JStr(""))) then UpstreamMessage(GetOr(m, "Message", JStr("")))
      else UpstreamCode(GetOr(m, "Code", JStr("unknown")))
    case _ => BodySnippet(Take(response.text, 500))
  }

  /** A 2xx reply whose `Status` is not 0: the upstream code and message, with code `"406"`
      replaced by a fixed missing-parameter message. */
  function CreationFailure(data: Members): (f: Failure)
    ensures f.CreationFailed?
    ensures f.code == GetOr(data, "Code", JStr("unknown"))
    ensures f.upstreamStatus == Get(data, "Status")
    ensures f.message.MissingParameter406? <==> GetOr(data, "Code", JStr("unknown")) == JStr("406")
    ensures f.message.UpstreamText? ==> Truthy(f.message.message)
  {
    var code := GetOr(data, "Code", JStr("unknown"));
    var message := GetOr(data, "Message", JStr(""));
    var text :=
      if code == JStr("406") then MissingParameter406
      else if Truthy(message) then UpstreamText(message)
      else CodeOnly(code);
    CreationFailed(text, code, Get(data, "Status"))
  }

  /** Classification of the create-user exchange. */
  function ClassifyCreate(outcome: Outcome, username: string, upn: string, password: string, licenses: seq<Json>)
    : (r: Result<CreatedUser, Failure>)
    ensures outcome.TimedOut? ==> r == Err(Timeout)
    ensures outcome.TransportError? ==> r == Err(NetworkError)
    ensures outcome.Responded? && IsAuthFailure(outcome.response.status) ==> r == Err(AuthFailure)
    ensures outcome.Responded? && !IsAuthFailure(outcome.response.status) && !IsAccepted(outcome.response.status)
            ==> r == Err(ApiError(outcome.response.status, Some(ApiErrorDetail(outcome.response))))
    ensures r.Err? ==> r.error.Timeout? || r.error.NetworkError? || r.error.AuthFailure? || r.error.ApiError?
                       || r.error.CreationFailed? || r.error.UnknownError?
    ensures r.Ok? ==> outcome.Responded? && IsAccepted(outcome.response.status)
    ensures r.Ok? ==> outcome.response.json.Some? && var data := outcome.response.json.value;
      && data.JObj? && EqualsInt(GetOr(data.members, "Status", JNull), 0)
      && GetOr(data.members, "UserInfo", JObj([])).JObj?
      && r.value.objectId == GetOr(GetOr(data.members, "UserInfo", JObj([])).members, "ObjectId", JStr(""))
    ensures r.Ok? ==> r.value.userPrincipalName == upn && r.value.licenses == licenses
                      && r.value.username == username && r.value.password == password
    ensures r.Err? && r.error.CreationFailed? ==>
      outcome.Responded? && IsAccepted(outcome.response.status) && outcome.response.json.Some?
      && outcome.response.json.value.JObj?
      && !EqualsInt(GetOr(outcome.response.json.value.members, "Status", JNull), 0)
    ensures outcome.Responded? && IsAccepted(outcome.response.status) && outcome.response.json.None?
            ==> r == Err(NetworkError)
    ensures outcome.Responded? && IsAccepted(outcome.response.status)
              && outcome.response.json.Some? && !outcome.response.json.value.JObj?
            ==> r == Err(UnknownError)
    ensures outcome.Responded? && IsAccepted(outcome.response.status)
              && outcome.response.json.Some? && outcome.response.json.value.JObj?
            ==>
      var data := outcome.response.json.value.members;
      var info := GetOr(data, "UserInfo", JObj([]));
      && (!EqualsInt(GetOr(data, "Status", JNull), 0) ==> r == Err(CreationFailure(data)))
      && (EqualsInt(GetOr(data, "Status", JNull), 0) && !info.JObj? ==> r == Err(UnknownError))
      && (EqualsInt(GetOr(data, "Status", JNull), 0) && info.JObj? ==>
            && r.Ok?
            && r.value.displayName == GetOr(info.members, "DisplayName", JStr(username))
            && r.value.licensesInfo == GetOr(info.members, "Licenses", JStr("")))
  {
    match outcome
    case TimedOut => Err(Timeout)
    case TransportError => Err(NetworkError)
    case Responded(response) =>
      if IsAuthFailure(response.status) then Err(AuthFailure)
      else if !IsAccepted(response.status) then Err(ApiError(response.status, Some(ApiErrorDetail(response))))
      else
        match response.json
        // requests' JSONDecodeError is a RequestException
        case None => Err(NetworkError)
        case Some(JObj(data)) =>
          if EqualsInt(GetOr(data, "Status", JNull), 0) then
            match GetOr(data, "UserInfo", JObj([]))
            case JObj(info) =>
              Ok(CreatedUser(username, upn, GetOr(info, "DisplayName", JStr(username)),
                             GetOr(info, "ObjectId", JStr("")), password, licenses,
                             GetOr(info, "Licenses", JStr(""))))
            case _ => Err(UnknownError)
          else Err(CreationFailure(data))
        case Some(_) => Err(UnknownError)
  }

  /** Everything create_user settles before it sends its one request. */
  datatype CreatePlan = CreatePlan(request: Request, upn: string, licenses: seq<Json>)

  function PrepareCreate(rt: Runtime, subscription: Option<Subscription>, username: string, password: string)
    : (r: Result<CreatePlan, Failure>)
    ensures subscription.None? ==> r == Err(SubscriptionMissing)
    ensures subscription.Some? && subscription.value.userCreateConfig.None? ==> r == Err(UserManagementNotConfigured)
    ensures r.Err? && r.error == MissingCredentials <==>
      subscription.Some? && subscription.value.userCreateConfig.Some? &&
      ResolveRequired(subscription.value.userCreateConfig.value.cookies, subscription.value.cookies).Err?
    ensures r.Ok? ==> var sub := subscription.value; var cfg := sub.userCreateConfig.value;
      && sub.userCreateConfig.Some?
      && !IsBlank(sub.userCreateCurl)
      && BaseUrl(cfg.apiUrl).Some?
      && ResolveRequired(cfg.cookies, sub.cookies).Ok?
      && r.value.request.verb == POST
      && r.value.request.url == cfg.apiUrl
      && r.value.request.headers == WithJsonContentType(cfg.headers)
      && r.value.request.cookies == Decode(ResolveRequired(cfg.cookies, sub.cookies).value)
    ensures subscription.Some? && subscription.value.userCreateConfig.Some? ==>
      var sub := subscription.value; var cfg := sub.userCreateConfig.value;
      ResolveRequired(cfg.cookies, sub.cookies).Ok? ==>
        r == PlanFromCapture(rt, sub, cfg, Decode(ResolveRequired(cfg.cookies, sub.cookies).value), username, password)
  {
    if subscription.None? then Err(SubscriptionMissing)
    else
      var sub := subscription.value;
      if sub.userCreateConfig.None? then Err(UserManagementNotConfigured)
      else
        var cfg := sub.userCreateConfig.value;
        match ResolveRequired(cfg.cookies, sub.cookies)
        case Err(e) => Err(e)
        case Ok(cookieString) => PlanFromCapture(rt, sub, cfg, Decode(cookieString), username, password)
  }

  /** The steps of create_user once the cookies are settled: base URL, captured request, body
      extraction, template parse. None of them reports missing credentials. */
  function PlanFromCapture(rt: Runtime, sub: Subscription, cfg: UserCreateConfig, jar: map<string, string>,
                           username: string, password: string): (r: Result<CreatePlan, Failure>)
    ensures r.Err? ==> r.error != MissingCredentials
    ensures r.Ok? ==>
      && !IsBlank(sub.userCreateCurl)
      && BaseUrl(cfg.apiUrl).Some?
      && r.value.request.verb == POST
      && r.value.request.url == cfg.apiUrl
      && r.value.request.headers == WithJsonContentType(cfg.headers)
      && r.value.request.cookies == jar
    ensures BaseUrl(cfg.apiUrl).None? ==> r == Err(UnknownError)
    ensures BaseUrl(cfg.apiUrl).Some? && IsBlank(sub.userCreateCurl) ==> r == Err(CurlMissing)
    ensures BaseUrl(cfg.apiUrl).Some? && !IsBlank(sub.userCreateCurl) && ExtractBody(sub.userCreateCurl).None? ==>
      r == Err(BodyNotFound)
    ensures r.Ok? ==>
      && ExtractBody(sub.userCreateCurl).Some?
      && r == PlanFromBody(rt, Strip(ExtractBody(sub.userCreateCurl).value), cfg, jar, username, password)
  {
    if BaseUrl(cfg.apiUrl).None? then Err(UnknownError)
    else if IsBlank(sub.userCreateCurl) then Err(CurlMissing)
    else
      match ExtractBody(sub.userCreateCurl)
      case None => Err(BodyNotFound)
      case Some(body) => PlanFromBody(rt, Strip(body), cfg, jar, username, password)
  }

  /** The steps of create_user once the request body is extracted and stripped. */
  function PlanFromBody(rt: Runtime, body: string, cfg: UserCreateConfig, jar: map<string, string>,
                        username: string, password: string): (r: Result<CreatePlan, Failure>)
    ensures r.Err? ==> r.error != MissingCredentials
    ensures ParseTemplate(rt, body).Err? ==> r == Err(TemplateUnparseable(ParseTemplate(rt, body).error))
    ensures r.Ok? ==>
      && ParseTemplate(rt, body).Ok? && ParseTemplate(rt, body).value.JObj?
      && r == PlanFromTemplate(ParseTemplate(rt, body).value.members, cfg, jar, username, password)
  {
    match ParseTemplate(rt, body)
    case Err(e) => Err(TemplateUnparseable(e))
    case Ok(JObj(template)) => PlanFromTemplate(template, cfg, jar, username, password)
    // `template_data.get` on a list, string, number, ... raises AttributeError
    case Ok(_) => Err(UnknownError)
  }

  /** The steps of create_user after the template is parsed: domain, licence names, payload. */
  function PlanFromTemplate(template: Members, cfg: UserCreateConfig, jar: map<string, string>,
                            username: string, password: string): (r: Result<CreatePlan, Failure>)
    ensures r.Ok? <==> DomainOf(Get(template, "UserPrincipalName")).Ok?
                       && LicenseNames(GetOr(template, "Products", JArr([]))).Some?
    ensures r.Ok? ==> var domain := DomainOf(Get(template, "UserPrincipalName")).value;
      && r.value.request == Request(POST, cfg.apiUrl, WithJsonContentType(cfg.headers), jar,
                                    Some(BuildPayload(template, username, password, domain).ToJson()))
      && r.value.upn == NewUpn(username, domain)
      && r.value.licenses == LicenseNames(GetOr(template, "Products", JArr([]))).value
  {
    match DomainOf(Get(template, "UserPrincipalName"))
    case Err(e) => Err(e)
    case Ok(domain) =>
      match LicenseNames(GetOr(template, "Products", JArr([])))
      case None => Err(UnknownError)
      case Some(names) =>
        var payload := BuildPayload(template, username, password, domain);
        Ok(CreatePlan(
          Request(POST, cfg.apiUrl, WithJsonContentType(cfg.headers), jar, Some(payload.ToJson())),
          NewUpn(username, domain), names))
  }

  /** `UserCreator.create_user`: at most one request, sent only once the template is recovered. */
  function CreateUser(rt: Runtime, subscription: Option<Subscription>, username: string, password: string,
                      transport: Transport): (c: Call<CreatedUser>)
    ensures |c.sent| <= 1
    ensures c.sent == [] <==> PrepareCreate(rt, subscription, username, password).Err?
    ensures c.sent == [] ==> c.result == Err(PrepareCreate(rt, subscription, username, password).error)
    ensures c.sent != [] ==> c.sent == [PrepareCreate(rt, subscription, username, password).value.request]
    ensures c.sent != [] ==> var plan := PrepareCreate(rt, subscription, username, password).value;
      c.result == ClassifyCreate(transport(c.sent[0]), username, plan.upn, password, plan.licenses)
    ensures c.result.Ok? ==> |c.sent| == 1 && c.result.value.username == username
  {
    match PrepareCreate(rt, subscription, username, password)
    case Err(e) => Early(e)
    case Ok(plan) =>
      Call(ClassifyCreate(transport(plan.request), username, plan.upn, password, plan.licenses), [plan.request])
  }

  /** A blank capture stops creation before extraction and before any request, once the
      configuration, cookies and API URL are in order. */
  lemma BlankCurlFailsBeforeRequest(rt: Runtime, sub: Subscription, username: string, password: string, transport: Transport)
    requires sub.userCreateConfig.Some?
    requires ResolveRequired(sub.userCreateConfig.value.cookies, sub.cookies).Ok?
    requires BaseUrl(sub.userCreateConfig.value.apiUrl).Some?
    requires IsBlank(sub.userCreateCurl)
    ensures CreateUser(rt, Some(sub), username, password, transport) == Early(CurlMissing)
  {
  }

  /** An empty user-management cookie never blocks creation while the subscription has cookies,
      and the request then carries the subscription's cookies. */
  lemma CookieFallbackForCreate(rt: Runtime, sub: Subscription, username: string, password: string, transport: Transport)
    requires sub.userCreateConfig.Some? && IsBlank(sub.userCreateConfig.value.cookies) && sub.cookies != []
    ensures CreateUser(rt, Some(sub), username, password, transport).result != Err(MissingCredentials)
    ensures var c := CreateUser(rt, Some(sub), username, password, transport);
            c.sent != [] ==> c.sent[0].cookies == Decode(sub.cookies)
  {
    var prep := PrepareCreate(rt, Some(sub), username, password);
    assert ResolveRequired(sub.userCreateConfig.value.cookies, sub.cookies) == Ok(sub.cookies);
    if prep.Ok? {
      var plan := prep.value;
      var r := ClassifyCreate(transport(plan.request), username, plan.upn, password, plan.licenses);
      assert CreateUser(rt, Some(sub), username, password, transport) == Call(r, [plan.request]);
    }
  }

  /** The smallest reply the API sends for a created user. */
  function SuccessReply(objectId: Json): Json {
    JObj([("Status", JNum(0)), ("UserInfo", JObj([("ObjectId", objectId)]))])
  }

  /** 401 and 403 are an authentication failure whatever the body. */
  lemma CreateAuthFailure(rt: Runtime, sub: Subscription, username: string, password: string, transport: Transport)
    requires PrepareCreate(rt, Some(sub), username, password).Ok?
    requires var request := PrepareCreate(rt, Some(sub), username, password).value.request;
      transport(request).Responded? && IsAuthFailure(transport(request).response.status)
    ensures CreateUser(rt, Some(sub), username, password, transport) ==
      Call(Err(AuthFailure), [PrepareCreate(rt, Some(sub), username, password).value.request])
  {
  }

  /** A 2xx reply with `Status` 0 is classified as a success carrying the upstream `ObjectId`. */
  lemma ClassifySuccessReply(id: Json, username: string, upn: string, password: string, licenses: seq<Json>)
    ensures var r := ClassifyCreate(Responded(Response(200, "", Some(SuccessReply(id)))), username, upn, password, licenses);
      r.Ok? && r.value.objectId == id && r.value.userPrincipalName == upn
  {
    var m := SuccessReply(id).members;
    assert LastIndex(m, "Status") == Some(0) by { assert m[1].0 != "Status"; }
    assert LastIndex(m, "UserInfo") == Some(1);
    var info := [("ObjectId", id)];
    assert LastIndex(info, "ObjectId") == Some(0);
  }

  /** An accepted reply whose `Status` is anything but 0 makes `create_user` report
      `creation_failed` with the reply's `Code`, and a `Code` of `"406"` replaces the message. */
  lemma CreateRejectedByStatus(rt: Runtime, sub: Subscription, username: string, password: string,
                               transport: Transport, status: int, data: Members)
    requires PrepareCreate(rt, Some(sub), username, password).Ok?
    requires var request := PrepareCreate(rt, Some(sub), username, password).value.request;
      transport(request) == Responded(Response(status, "", Some(JObj(data))))
    requires IsAccepted(status) && !EqualsInt(GetOr(data, "Status", JNull), 0)
    ensures var c := CreateUser(rt, Some(sub), username, password, transport);
      && c.result.Err? && c.result.error.CreationFailed?
      && c.result.error.code == GetOr(data, "Code", JStr("unknown"))
      && (GetOr(data, "Code", JStr("unknown")) == JStr("406") ==> c.result.error.message == MissingParameter406)
  {
  }

  /** Sent through create_user, that reply yields the new user with the UPN built from the
      template's domain. */
  lemma CreateSuccess(rt: Runtime, sub: Subscription, username: string, password: string, transport: Transport, id: Json)
    requires PrepareCreate(rt, Some(sub), username, password).Ok?
    requires var request := PrepareCreate(rt, Some(sub), username, password).value.request;
      transport(request) == Responded(Response(200, "", Some(SuccessReply(id))))
    ensures var c := CreateUser(rt, Some(sub), username, password, transport);
      && c.result.Ok? && c.result.value.objectId == id
      && c.result.value.userPrincipalName == PrepareCreate(rt, Some(sub), username, password).value.upn
  {
    var plan := PrepareCreate(rt, Some(sub), username, password).value;
    ClassifySuccessReply(id, username, plan.upn, password, plan.licenses);
    assert CreateUser(rt, Some(sub), username, password, transport)
      == Call(ClassifyCreate(transport(plan.request), username, plan.upn, password, plan.licenses), [plan.request]);
  }

  /** A SKU offered for assignment. */
  datatype Sku = Sku(skuId: Json, partNumber: Json, available: Json)

  /** How the inventory scan treats one product: `None` when inspecting it raises, `Some(None)`
      when it is skipped, `Some(Some(sku))` when it has a truthy `SkuId` and `Available > 0`. */
  function Candidate(product: Json): (r: Option<Option<Sku>>)
    ensures r.None? <==>
      || !product.JObj?
      || (Truthy(GetOr(product.members, "SkuId", JNull)) && GreaterThanZero(GetOr(product.members, "Available", JNum(0))).None?)
    ensures (r.Some? && r.value.Some?) <==>
      && product.JObj? && Truthy(GetOr(product.members, "SkuId", JNull))
      && GreaterThanZero(GetOr(product.members, "Available", JNum(0))) == Some(true)
    ensures r.Some? && r.value.Some? ==>
      && Truthy(r.value.value.skuId) && r.value.value.skuId == GetOr(product.members, "SkuId", JNull)
      && GreaterThanZero(r.value.value.available) == Some(true)
      && r.value.value.available == GetOr(product.members, "Available", JNum(0))
      && r.value.value.partNumber == GetOr(product.members, "SkuPartNumber", JStr(""))
  {
    match product
    case JObj(m) =>
      var skuId := GetOr(m, "SkuId", JNull);
      var available := GetOr(m, "Available", JNum(0));
      if !Truthy(skuId) then Some(None)
      else
        (match GreaterThanZero(available)
         case None => None
         case Some(false) => Some(None)
         case Some(true) => Some(Some(Sku(skuId, GetOr(m, "SkuPartNumber", JStr("")), available))))
    case _ => None
  }

  predicate Usable(product: Json) {
    Candidate(product).Some? && Candidate(product).value.Some?
  }

  /** The first usable product, in inventory order. */
  function FirstUsable(products: seq<Json>): (r: Option<nat>)
    ensures r.Some? ==> r.value < |products| && Usable(products[r.value])
    ensures r.Some? ==> forall j :: 0 <= j < r.value ==> !Usable(products[j])
    ensures r.None? <==> forall j :: 0 <= j < |products| ==> !Usable(products[j])
  {
    FirstWhere(products, Usable)
  }

  /** The usable SKUs, collected over the whole inventory before one is chosen; `None` when any
      product raises, even one after the first usable. */
  function Candidates(products: seq<Json>): (r: Option<seq<Sku>>)
    ensures r.None? <==> exists i :: 0 <= i < |products| && Candidate(products[i]).None?
    ensures r.Some? ==> |r.value| <= |products|
    ensures r.Some? ==> (r.value == [] <==> FirstUsable(products).None?)
    ensures r.Some? && r.value != [] ==> r.value[0] == Candidate(products[FirstUsable(products).value]).value.value
  {
    match MapAll(products, Candidate)
    case None => None
    case Some(scanned) =>
      var skus := Present(scanned);
      assert forall i :: 0 <= i < |products| ==> scanned[i] == Candidate(products[i]).value;
      FirstWhereAgree(products, Usable, scanned, IsPresent);
      PresentFirst(scanned);
      Some(skus)
  }

  /** `subscription_data.get('Skus', [])` scanned for usable SKUs; `None` when the scan raises. */
  function Inventory(subscriptionData: Json): Option<seq<Sku>> {
    match subscriptionData
    case JObj(m) =>
      (match Iterate(GetOr(m, "Skus", JArr([])))
       case None => None
       case Some(products) => Candidates(products))
    case _ => None
  }

  /** `{"AddLicenses": [{"SkuId": id, "DisabledServicePlans": []}], "RemoveLicenses": []}`. */
  function AssignPayload(skuId: Json): Json {
    JObj([("AddLicenses", JArr([JObj([("SkuId", skuId), ("DisabledServicePlans", JArr([]))])])),
          ("RemoveLicenses", JArr([]))])
  }

  /** The licence delta adds exactly the chosen SKU and removes nothing. */
  lemma AssignPayloadAddsOnlyChosenSku(skuId: Json)
    ensures Get(AssignPayload(skuId).members, "RemoveLicenses") == Some(JArr([]))
    ensures var add := Get(AssignPayload(skuId).members, "AddLicenses");
      && add.Some? && add.value.JArr? && |add.value.elems| == 1
      && add.value.elems[0].JObj?
      && Get(add.value.elems[0].members, "SkuId") == Some(skuId)
  {
    var m := AssignPayload(skuId).members;
    assert LastIndex(m, "RemoveLicenses") == Some(1);
    assert m[1].0 != "AddLicenses";
    assert LastIndex(m, "AddLicenses") == Some(0);
    var e := [("SkuId", skuId), ("DisabledServicePlans", JArr([]))];
    assert e[1].0 != "SkuId";
    assert LastIndex(e, "SkuId") == Some(0);
  }

  /** Accepted statuses for licence assignment. */
  predicate IsAssignAccepted(status: int) {
    status == 200 || status == 201 || status == 204
  }

  /** `UserCreator._assign_license`: the first usable SKU is assigned; with none there is no
      request; any exception, during the scan or the request, is reported rather than raised. */
  function AssignLicense(subscriptionData: Json, baseUrl: string, headers: map<string, string>,
                         cookies: map<string, string>, objectId: string, transport: Transport): (c: Call<Json>)
    ensures Inventory(subscriptionData).None? ==> c == Early(UnknownError)
    ensures Inventory(subscriptionData) == Some([]) ==> c == Early(NoLicenseAvailable)
    ensures |c.sent| <= 1
    ensures c.sent != [] <==> Inventory(subscriptionData).Some? && Inventory(subscriptionData).value != []
    ensures c.sent != [] ==> var sku := Inventory(subscriptionData).value[0];
      && c.sent == [Request(POST, AssignLicenseUrl(baseUrl, objectId), headers, cookies, Some(AssignPayload(sku.skuId)))]
      && (c.result.Ok? <==> transport(c.sent[0]).Responded? && IsAssignAccepted(transport(c.sent[0]).response.status))
      && (c.result.Ok? ==> c.result.value == sku.partNumber)
      && (transport(c.sent[0]).Responded? && !IsAssignAccepted(transport(c.sent[0]).response.status) ==>
            c.result == Err(LicenseRejected(transport(c.sent[0]).response.status)))
      && (!transport(c.sent[0]).Responded? ==> c.result == Err(UnknownError))
  {
    match Inventory(subscriptionData)
    case None => Early(UnknownError)
    case Some(skus) =>
      if skus == [] then Early(NoLicenseAvailable)
      else
        var request := Request(POST, AssignLicenseUrl(baseUrl, objectId), headers, cookies, Some(AssignPayload(skus[0].skuId)));
        var result :=
          match transport(request)
          case Responded(response) =>
            if IsAssignAccepted(response.status) then Ok(skus[0].partNumber)
            else Err(LicenseRejected(response.status))
          case _ => Err(UnknownError);
        Call(result, [request])
  }

  /** First fit: over an inventory list whose products all inspect cleanly, the request goes out
      for the first usable product, and only when there is one. */
  lemma AssignsFirstUsable(products: seq<Json>, baseUrl: string, headers: map<string, string>,
                           cookies: map<string, string>, objectId: string, transport: Transport)
    requires forall i :: 0 <= i < |products| ==> Candidate(products[i]).Some?
    ensures var c := AssignLicense(JObj([("Skus", JArr(products))]), baseUrl, headers, cookies, objectId, transport);
      && (c.sent == [] <==> FirstUsable(products).None?)
      && (c.sent != [] ==> c.sent[0].body == Some(AssignPayload(GetOr(products[FirstUsable(products).value].members, "SkuId", JNull))))
  {
    InventoryOfList(products);
    var skus := Candidates(products);
    assert skus.Some?;
    if skus.value != [] {
      var k := FirstUsable(products).value;
      assert skus.value[0].skuId == GetOr(products[k].members, "SkuId", JNull);
    }
  }

  lemma InventoryOfList(products: seq<Json>)
    ensures Inventory(JObj([("Skus", JArr(products))])) == Candidates(products)
  {
    var data := [("Skus", JArr(products))];
    assert LastIndex(data, "Skus") == Some(0);
    assert GetOr(data, "Skus", JArr([])) == JArr(products);
    assert Iterate(JArr(products)) == Some(products);
  }
}

=== FILE: user_lister.dfy ===
/** Listing the tenant's users through the session captured for user creation. */
module UserLister {
  import opened Base
  import opened Text
  import opened JsonValue
  import opened Http
  import opened Admin
  import opened Cookies

  /** The upstream user fields a listed record copies. */
  datatype UserField =
    | ObjectId | DisplayName | UserPrincipalName | Mail | Licenses | HasLicense | SigninStatus
    | CreatedTime | UsageLocation | FirstName | LastName | JobTitle | Department | MobilePhone
    | BusinessPhones
  {
    /** The field's key in the upstream user object. */
    function Key(): string {
      match this
      case ObjectId => "ObjectId"
      case DisplayName => "DisplayName"
      case UserPrincipalName => "UserPrincipalName"
      case Mail => "Mail"
      case Licenses => "Licenses"
      case HasLicense => "HasLicense"
      case SigninStatus => "SigninStatus"
      case CreatedTime => "CreatedTime"
      case UsageLocation => "UsageLocation"
      case FirstName => "FirstName"
      case LastName => "LastName"
      case JobTitle => "JobTitle"
      case Department => "Department"
      case MobilePhone => "MobilePhone"
      case BusinessPhones => "BusinessPhones"
    }

    /** The value reported when the upstream object lacks the field. */
    function Default(): Json {
      match this
      case HasLicense => JBool(false)
      case _ => JStr("")
    }
  }

  /** One listed user, as the client reports it. */
  datatype UserRecord = UserRecord(
    objectId: Json, displayName: Json, userPrincipalName: Json, email: Json, licenses: Json,
    hasLicense: Json, signinStatus: Json, createdTime: Json, usageLocation: Json,
    firstName: Json, lastName: Json, jobTitle: Json, department: Json, mobilePhone: Json,
    businessPhones: Json)
  {
    /** The record's value for an upstream field. */
    function Field(f: UserField): Json {
      match f
      case ObjectId => objectId
      case DisplayName => displayName
      case UserPrincipalName => userPrincipalName
      case Mail => email
      case Licenses => licenses
      case HasLicense => hasLicense
      case SigninStatus => signinStatus
      case CreatedTime => createdTime
      case UsageLocation => usageLocation
      case FirstName => firstName
      case LastName => lastName
      case JobTitle => jobTitle
      case Department => department
      case MobilePhone => mobilePhone
      case BusinessPhones => businessPhones
    }
  }

  /** One page of the listing. */
  datatype UserPage = UserPage(users: seq<UserRecord>, totalCount: Json, isLastPage: Json)

  /** The record for one upstream user object: every field is the object's value for that key,
      or the field's default (`""`, and false for `HasLicense`) when the key is absent. */
  function RecordOf(user: Members): (u: UserRecord)
    ensures forall f: UserField :: u.Field(f) == GetOr(user, f.Key(), f.Default())
    ensures Get(user, "HasLicense").None? ==> u.hasLicense == JBool(false)
    ensures Get(user, "Mail").Some? ==> u.email == Get(user, "Mail").value
    ensures Get(user, "Mail").None? ==> u.email == JStr("")
  {
    UserRecord(
      GetOr(user, "ObjectId", JStr("")), GetOr(user, "DisplayName", JStr("")),
      GetOr(user, "UserPrincipalName", JStr("")), GetOr(user, "Mail", JStr("")),
      GetOr(user, "Licenses", JStr("")), GetOr(user, "HasLicense", JBool(false)),
      GetOr(user, "SigninStatus", JStr("")), GetOr(user, "CreatedTime", JStr("")),
      GetOr(user, "UsageLocation", JStr("")), GetOr(user, "FirstName", JStr("")),
      GetOr(user, "LastName", JStr("")), GetOr(user, "JobTitle", JStr("")),
      GetOr(user, "Department", JStr("")), GetOr(user, "MobilePhone", JStr("")),
      GetOr(user, "BusinessPhones", JStr("")))
  }

  /** The records of a list of user objects, in upstream order. */
  function RecordsOf(users: seq<Members>): (records: seq<UserRecord>)
    ensures |records| == |users|
    ensures forall i :: 0 <= i < |users| ==> records[i] == RecordOf(users[i])
  {
    seq(|users|, i requires 0 <= i < |users| => RecordOf(users[i]))
  }

  /** Mapping distributes over concatenation: listing two batches is listing each. */
  lemma RecordsOfAppend(a: seq<Members>, b: seq<Members>)
    ensures RecordsOf(a + b) == RecordsOf(a) + RecordsOf(b)
  {
  }

  /** The user objects behind `data.get('Users', [])`: `len(users)` raises TypeError unless the
      value is a list, string or dict, and `user.get` raises AttributeError on every element that
      is not an object (the characters of a string, the keys of a dict). */
  function UsersOf(users: Json): (r: Option<seq<Members>>)
    ensures r.Some? ==> Iterate(users).Some? && |r.value| == |Iterate(users).value|
    ensures r.Some? <==> Iterate(users).Some? && forall i :: 0 <= i < |Iterate(users).value| ==> Iterate(users).value[i].JObj?
    ensures r.Some? ==> forall i :: 0 <= i < |r.value| ==> Iterate(users).value[i] == JObj(r.value[i])
  {
    match Iterate(users)
    case None => None
    case Some(xs) =>
      if forall i :: 0 <= i < |xs| ==> xs[i].JObj? then
        Some(seq(|xs|, i requires 0 <= i < |xs| => xs[i].members))
      else None
  }

  /** The page for a decoded 2xx reply; `None` when a step raises. */
  function PageOf(data: Members): (r: Option<UserPage>)
    ensures r.Some? <==> UsersOf(GetOr(data, "Users", JArr([]))).Some? && GetOr(data, "MetaData", JObj([])).JObj?
    ensures r.Some? ==> var users := UsersOf(GetOr(data, "Users", JArr([]))).value;
      && r.value.users == RecordsOf(users)
      && (Get(GetOr(data, "MetaData", JObj([])).members, "DataCount").None? ==> r.value.totalCount == JNum(|users|))
      && (Get(GetOr(data, "MetaData", JObj([])).members, "IsLastPage").None? ==> r.value.isLastPage == JBool(true))
    ensures r.Some? ==> var metadata := GetOr(data, "MetaData", JObj([])).members;
      && (Get(metadata, "DataCount").Some? ==> r.value.totalCount == Get(metadata, "DataCount").value)
      && (Get(metadata, "IsLastPage").Some? ==> r.value.isLastPage == Get(metadata, "IsLastPage").value)
  {
    match GetOr(data, "MetaData", JObj([]))
    case JObj(metadata) =>
      (match UsersOf(GetOr(data, "Users", JArr([])))
       case None => None
       case Some(users) =>
         Some(UserPage(RecordsOf(users), GetOr(metadata, "DataCount", JNum(|users|)),
                       GetOr(metadata, "IsLastPage", JBool(true)))))
    case _ => None
  }

  /** The ListUsers query: first page, sorted by display name, no filter, the given search text. */
  function SearchPayload(searchText: string): Json {
    JObj([
      ("ListAction", JNum(-1)), ("SortDirection", JNum(0)), ("ListContext", JNull),
      ("SortPropertyName", JStr("DisplayName")), ("SearchText", JStr(searchText)),
      ("SelectedView", JStr("")), ("SelectedViewType", JStr("")), ("ServerContext", JNull),
      ("MSGraphFilter", JObj([("skuIds", JArr([])), ("locations", JArr([])), ("domains", JArr([]))]))])
  }

  /** The unfiltered listing. */
  const ListPayload: Json := SearchPayload("")

  /** Classification of the ListUsers exchange. */
  function ClassifyList(outcome: Outcome): (r: Result<UserPage, Failure>)
    ensures outcome.TimedOut? ==> r == Err(Timeout)
    ensures outcome.TransportError? ==> r == Err(NetworkError)
    ensures outcome.Responded? && IsAuthFailure(outcome.response.status) ==> r == Err(AuthFailure)
    ensures outcome.Responded? && !IsAuthFailure(outcome.response.status) && !IsAccepted(outcome.response.status)
            ==> r.Err? && r.error.ApiError? && r.error.status == outcome.response.status
                && r.error.details.Some? && r.error.details.value.BodySnippet?
                && |r.error.details.value.text| <= 500
                && r.error.details.value.text == Take(outcome.response.text, 500)
    ensures r.Ok? <==> outcome.Responded? && IsAccepted(outcome.response.status)
                       && outcome.response.json.Some? && outcome.response.json.value.JObj?
                       && PageOf(outcome.response.json.value.members).Some?
    ensures r.Ok? ==> r.value == PageOf(outcome.response.json.value.members).value
  {
    match outcome
    case TimedOut => Err(Timeout)
    case TransportError => Err(NetworkError)
    case Responded(response) =>
      if IsAuthFailure(response.status) then Err(AuthFailure)
      else if !IsAccepted(response.status) then
        Err(ApiError(response.status, Some(BodySnippet(Take(response.text, 500)))))
      else
        match response.json
        // requests' JSONDecodeError is a RequestException
        case None => Err(NetworkError)
        case Some(JObj(data)) =>
          (match PageOf(data)
           case None => Err(UnknownError)
           case Some(page) => Ok(page))
        case Some(_) => Err(UnknownError)
  }

  /** The request `list_users` sends, once configuration and cookies are in order. */
  function PrepareList(subscription: Option<Subscription>): (r: Result<Request, Failure>)
    ensures subscription.None? ==> r == Err(SubscriptionMissing)
    ensures subscription.Some? && subscription.value.userCreateConfig.None? ==> r == Err(UserManagementNotConfigured)
    ensures r == Err(MissingCredentials) <==>
      subscription.Some? && subscription.value.userCreateConfig.Some? &&
      ResolveRequired(subscription.value.userCreateConfig.value.cookies, subscription.value.cookies).Err?
    ensures r.Ok? ==> var sub := subscription.value; var cfg := sub.userCreateConfig.value;
      && sub.userCreateConfig.Some?
      && ResolveRequired(cfg.cookies, sub.cookies).Ok?
      && BaseUrl(cfg.apiUrl).Some?
      && r.value == Request(POST, ListUsersUrl(BaseUrl(cfg.apiUrl).value), WithJsonContentType(cfg.headers),
                            Decode(ResolveRequired(cfg.cookies, sub.cookies).value), Some(ListPayload))
  {
    if subscription.None? then Err(SubscriptionMissing)
    else
      var sub := subscription.value;
      if sub.userCreateConfig.None? then Err(UserManagementNotConfigured)
      else
        var cfg := sub.userCreateConfig.value;
        match ResolveRequired(cfg.cookies, sub.cookies)
        case Err(e) => Err(e)
        case Ok(cookieString) =>
          match BaseUrl(cfg.apiUrl)
          // `parts[2]` raises IndexError
          case None => Err(UnknownError)
          case Some(base) =>
            Ok(Request(POST, ListUsersUrl(base), WithJsonContentType(cfg.headers), Decode(cookieString), Some(ListPayload)))
  }

  /** `UserLister.list_users`: one request at most, sent only when the configuration is usable. */
  function ListUsers(subscription: Option<Subscription>, transport: Transport): (c: Call<UserPage>)
    ensures |c.sent| <= 1
    ensures c.sent == [] <==> PrepareList(subscription).Err?
    ensures c.sent == [] ==> c.result == Err(PrepareList(subscription).error)
    ensures c.sent != [] ==> c.sent == [PrepareList(subscription).value]
                             && c.result == ClassifyList(transport(c.sent[0]))
  {
    match PrepareList(subscription)
    case Err(e) => Early(e)
    case Ok(request) => Call(ClassifyList(transport(request)), [request])
  }

  /** An empty user-management cookie never blocks the listing while the subscription has
      cookies, and the request then carries the subscription's cookies. */
  lemma CookieFallbackForList(sub: Subscription, transport: Transport)
    requires sub.userCreateConfig.Some? && IsBlank(sub.userCreateConfig.value.cookies) && sub.cookies != []
    ensures ListUsers(Some(sub), transport).result != Err(MissingCredentials)
    ensures var c := ListUsers(Some(sub), transport);
            c.sent != [] ==> c.sent[0].cookies == Decode(sub.cookies)
  {
    assert ResolveRequired(sub.userCreateConfig.value.cookies, sub.cookies) == Ok(sub.cookies);
  }

  /** A reply listing user objects with no metadata reports exactly those users, counted. */
  lemma ListWithoutMetadata(users: seq<Members>)
    ensures var page := PageOf([("Users", JArr(seq(|users|, i requires 0 <= i < |users| => JObj(users[i]))))]);
      page.Some? && page.value.users == RecordsOf(users) && page.value.totalCount == JNum(|users|)
      && page.value.isLastPage == JBool(true)
  {
    var elems := seq(|users|, i requires 0 <= i < |users| => JObj(users[i]));
    var data := [("Users", JArr(elems))];
    assert LastIndex(data, "Users") == Some(0);
    assert LastIndex(data, "MetaData").None? by { assert data[0].0 != "MetaData"; }
    var found := UsersOf(JArr(elems)).value;
    assert found == users by {
      assert |found| == |users|;
      forall i | 0 <= i < |users| ensures found[i] == users[i] {
        assert elems[i] == JObj(found[i]);
      }
    }
  }
}
